=== FILE: README.md ===
# social-network-microservices, modelled in Dafny

This project models the core of a small social network split into services:
- an **auth service** that logs users in and signs session tokens (JSON Web Tokens, RFC 7519, sent as Bearer credentials per section 2.1 of RFC 6750);
- a **like service** that toggles a user's like on a post and lists a post's likers;
- a **post service** that lists posts (all, paginated, per user, one) and creates a post with its images in one transaction;
- a **user service** that lists, shows and searches users;
- the **front end's two state stores**: posts and session.

The model and its proofs cover:

- **Token issuance (`CreateTokenUser`).** One `moment` is advanced in place twice. `expiredAt` is 420 minutes after issuance. `timeBeforeExpiredAt` is 845 minutes after issuance, not 425.
- **Token guards (`checkToken`).** Both services run the same ladder: header present, second space-separated field decodes, `expiredAt < now` rejects. Acceptance attaches `req.user` and calls `next` once. The auth guard answers 422 under `errores`; the like guard answers 401 under `error`.
- **Login and relogin.** The validation chain is modelled, then lookup by normalized email and the password check. Wrong password and unknown email get the same 401. The token carries the full record, hash included.
- **The like toggle.** It deletes the pair's row or inserts a new one, then recounts. It is proved to flip the pair, to leave every other pair alone, to move the count by one and to keep the schema's constraints. The likers listing is the newest likes of a post, cut to the limit.
- **The post listings.**
  - Paginated and per-user windows (`skip`, `take`).
  - `Math.ceil` page counts and the next/previous flags.
  - `sortBy=likeCount` silently sorts by `createdAt`.
  - The two routes accept different limits (1..100 against 1..50).
- **Post creation.**
  - The full validation chain: the wildcard image checks, which also run over the values of an `images` object, and the user-exists lookup, which runs even after the integer check fails.
  - Length bounds measured as validator's `isLength` does: the variation selectors U+FE0E and U+FE0F count as nothing.
  - The transaction as a single atomic step with Prisma error codes mapped to 409/400/500.
  - The handler on a mutable `Database` object, proved equal to a pure specification whose properties are proved separately.
- **User listing and search.**
  - Case-insensitive `contains` on name, alias or email.
  - A stable sort on the requested key.
  - Counts of posts and likes, and the age as a difference of calendar years.
  - The search limit.
  - A one-character term passes, although the message asks for two.
- **The front-end stores.**
  - Page appending and replacing.
  - Prepending a created post.
  - The like flag and count updates.
  - The error-message choice.
  - The session transitions, with the invariant that the store is authenticated exactly when it holds a user and a token.

Some behaviour of the code differs from what its surroundings expect. The model follows the code in each case, and a lemma exhibits the difference:

- `getPostListById` appends a later page to the feed's list (`data.post`) rather than to the user's own list (`PostContext.ByUserPageUsesFeed`).
- `timeBeforeExpiredAt` is 845 minutes after issuance (`AuthJwt.IssueHint`).
- `/relogin` without an Authorization header answers 422, from the guard. The service's own test (backend/auth-service/src/tests/auth.test.js:61-63) expects 401 (`AuthRouter.ReloginWithoutHeader`).
- The `q` check's message asks for 2 characters, but 1 passes unless it is a variation selector (`UserRouter.OneCharacterAccepted`).

External effects are parameters:
- The wall clock (milliseconds, or the current calendar year for ages).
- Database errors (a `fault`).
- bcrypt's compare and validator.js's `isEmail` and `normalizeEmail` (function parameters).
- The signing library (a codec whose one assumed property, decoding under the same secret gives the payload back, is a lemma precondition).
- Request outcomes in the front end (a `Fetch` value).

## Model

| member | source | states |
|---|---|---|
| Moments.UnixSeconds | backend/auth-service/src/JWT/index.js:7 | `unix()` is the whole seconds of the instant, rounded down |
| Moments.UnixAddMinutes | backend/auth-service/src/JWT/index.js:7 | adding whole minutes adds sixty times as many POSIX seconds |
| Moments.Moment.constructor | backend/auth-service/src/JWT/index.js:6 | `moment()` holds the instant read from the clock |
| Moments.Moment.Add | backend/auth-service/src/JWT/index.js:7 | `add` advances this same moment in place and returns it |
| Tokens.Split | backend/auth-service/src/JWT/index.js:29 | `split(" ")` gives at least one piece, none containing a space |
| Tokens.SplitJoin | backend/auth-service/src/JWT/index.js:29 | joining the pieces with spaces gives the header back |
| Tokens.SecondFieldOfCredential | backend/auth-service/src/JWT/index.js:29 | the token is the second field whatever the scheme word is |
| Tokens.Authenticate | backend/auth-service/src/JWT/index.js:21-47 | the guard's verdict; missing exactly when the header is absent or empty |
| Tokens.CredentialVerdict | backend/auth-service/src/JWT/index.js:29-46 | `<word> <encoded token>` is accepted, with the payload's user, exactly while `expiredAt` is not before now |
| Tokens.BareTokenRefused | backend/auth-service/src/JWT/index.js:29-36 | a token sent without a scheme word has no second field and is refused as invalid |
| Tokens.ExpiryBoundary | backend/auth-service/src/JWT/index.js:38-42 | a token is accepted up to the last millisecond of its `expiredAt` second |
| AuthJwt.CreateTokenUser | backend/auth-service/src/JWT/index.js:5-19 | the step-by-step method, with its two in-place `add` calls, returns exactly the grant `Issue` describes |
| AuthJwt.IssuedPayloadShape | backend/auth-service/src/JWT/index.js:6-13 | the payload's user is the argument; `expiredAt` is issuance + 25200 s; with one clock reading `createdAt + 25200 == expiredAt` |
| AuthJwt.IssueHint | backend/auth-service/src/JWT/index.js:6-17 | `timeBeforeExpiredAt` is `expiredAt` + 425 min = issuance + 845 min, never issuance + 425 min, always after `expiredAt` |
| AuthJwt.IssueRoundTrip | backend/auth-service/src/JWT/index.js:9-16 | the issued token decodes under the same secret to the signed payload |
| AuthJwt.IssuedTokenLifetime | backend/auth-service/src/JWT/index.js:38-46 | an issued token is accepted, naming its user, until its expiry second ends, and refused as expired afterwards |
| AuthJwt.ReissueExtends | backend/auth-service/src/JWT/index.js:6-7 | a later issuance never expires earlier; strictly later exactly for a later second |
| AuthJwt.AuthRejection | backend/auth-service/src/JWT/index.js:22-42 | every refusal is 422 under `errores`; the message identifies a missing header and an expired token |
| AuthJwt.CheckToken | backend/auth-service/src/JWT/index.js:21-47 | either the rejection is sent and `req.user`/`next` are untouched, or `req.user` is the payload's user and `next` is called once |
| TokenHelper.CreateTokenUser | backend/auth-service/src/helpers/CreateTokenUser.js:5-19 | the helper's copy gives the same grant as the token module's |
| LikeMiddleware.LikeRejection | backend/like-service/src/middlewares/index.js:6-27 | every refusal is 401 under `error`; an invalid token's message carries the library's reason |
| LikeMiddleware.RejectionsDistinct | backend/like-service/src/middlewares/index.js:6-27 | two refusals give the same reply exactly when their causes are equal |
| LikeMiddleware.CheckToken | backend/like-service/src/middlewares/index.js:5-31 | either the rejection is sent and nothing else happens, or `req.user` is set and `next` is called once |
| Validation.IntOfNumber | backend/like-service/src/router/like.js:19-21 | an integer JSON number passes `isInt` and `toInt` returns it unchanged |
| Validation.TrimEmpty | backend/post-service/src/router/post.js:409-411 | a string trims to nothing exactly when all its characters are white space |
| Validation.EscapeLength | backend/user-service/src/router/user.js:229-232 | `escape()` never shortens a string and lengthens it exactly when a special character occurs |
| Validation.MeasureFull | backend/post-service/src/router/post.js:410 | `isLength`'s measure equals the plain length exactly when no variation selector occurs |
| Sequences.SortSorted | backend/user-service/src/router/user.js:97-99 | the rows `orderBy` returns are in the requested order |
| Sequences.FilterMembers | backend/post-service/src/router/post.js:136-139 | a `where` filter keeps only rows of the table that satisfy it, and keeps every such row |
| Records.FindUserByEmailUnique | backend/auth-service/src/router/auth.js:47-58 | with unique emails the lookup finds exactly the user who has the email |
| Records.FindUserByIdUnique | backend/user-service/src/router/user.js:157-175 | with unique ids the lookup finds exactly the user who has the id |
| Records.FindPost | backend/post-service/src/router/post.js:349-372 | the post found has the id; none exactly when no post has it |
| Records.LikesOfMembers | backend/post-service/src/router/post.js:163-172 | the included likes are exactly the table's likes of that post |
| Records.ImagesOfMembers | backend/post-service/src/router/post.js:173 | the included images are exactly the table's images of that post |
| Records.PostsByMembers | backend/post-service/src/router/post.js:259-262 | a user's posts are exactly the table's posts with that `userId` |
| AuthRouter.LoginErrors | backend/auth-service/src/router/auth.js:18-35 | no message exactly for a valid email and a password string of at least 6 characters, variation selectors not counted |
| AuthRouter.Login | backend/auth-service/src/router/auth.js:16-96 | 422 exactly on validation messages, 500 exactly on a fault, 401 "Credenciales inválidas", success only for a stored user |
| AuthRouter.EmptyLoginRejected | backend/auth-service/src/router/auth.js:19-34 | an empty email and password get the two "required" messages and nothing else |
| AuthRouter.LoginSucceeds | backend/auth-service/src/router/auth.js:44-90 | a matching password for the normalized email gives 200, a token for that record and the record without hash |
| AuthRouter.UnknownEmailRefused | backend/auth-service/src/router/auth.js:60-64 | an email nobody has gives 401 |
| AuthRouter.FailuresIndistinguishable | backend/auth-service/src/router/auth.js:60-75 | a wrong password gets the same reply as an unknown email |
| AuthRouter.TokenCarriesHash | backend/auth-service/src/router/auth.js:77-79 | the issued token decodes to the full record, hash included; only `data` drops the hash |
| AuthRouter.Relogin | backend/auth-service/src/router/auth.js:98-132 | 500 exactly on a fault; 401 exactly when the token's email is gone; otherwise a fresh token for that user |
| AuthRouter.ReloginRoute | backend/auth-service/src/router/auth.js:98 | the answer is 422 exactly when the guard refuses |
| AuthRouter.ReloginWithoutHeader | backend/auth-service/src/JWT/index.js:22-27 | without a header `/relogin` answers 422, never 401 |
| AuthRouter.LoginThenRelogin | backend/auth-service/src/router/auth.js:77-125 | the login token, sent as `Bearer`, before expiry gives 200 with the same user data |
| LikeRouter.FindPair | backend/like-service/src/router/like.js:56-61 | the first row of the pair; none exactly when the pair is absent |
| LikeRouter.Without | backend/like-service/src/router/like.js:67-71 | deleting removes exactly that row and keeps the order of the rest |
| LikeRouter.ToggleFlips | backend/like-service/src/router/like.js:63-90 | with one row per pair, a toggle flips whether the user likes the post |
| LikeRouter.ToggleFrame | backend/like-service/src/router/like.js:63-90 | rows of every other pair are unchanged, in order |
| LikeRouter.ToggleCount | backend/like-service/src/router/like.js:92-96 | the post's count goes down by one on removal and up by one on insertion |
| LikeRouter.ToggleTwice | backend/like-service/src/router/like.js:63-90 | two toggles give back the same pairs, and the same table when the pair was absent |
| LikeRouter.PairsSnoc | backend/like-service/src/router/like.js:73-88 | inserting a row adds exactly its (post, user) pair |
| LikeRouter.WithoutPairs | backend/like-service/src/router/like.js:67-71 | deleting a row keeps every pair except possibly its own |
| LikeRouter.RemoveLikeValid | backend/like-service/src/router/like.js:67-71 | deleting a like keeps unique ids, the unique pair and the foreign keys, and adds no row |
| LikeRouter.AddLikeValid | backend/like-service/src/router/like.js:73-88 | inserting a like with a fresh id, an absent pair and existing post and user keeps the constraints |
| LikeRouter.ToggleKeepsValid | backend/like-service/src/router/like.js:63-90 | a toggle keeps unique keys, the unique pair and the foreign keys |
| LikeRouter.LikeErrors | backend/like-service/src/router/like.js:15-29 | no message exactly when both ids are integers of at least 1 |
| LikeRouter.WriteToggle | backend/like-service/src/router/like.js:63-90 | the delete-or-insert on the database object: fails only for a missing user, otherwise flips the pair and moves the count by one |
| LikeRouter.CreateOrDeleteLike | backend/like-service/src/router/like.js:32-116 | 422 on validation, 404 for a missing post, 200 when the write and count succeed; a fault at the count keeps the write |
| LikeRouter.LikersErrors | backend/like-service/src/router/like.js:120-134 | no message exactly for a post id of at least 1 and an absent or 1..100 limit |
| LikeRouter.LikerViews | backend/like-service/src/router/like.js:158-182 | each entry is the id, email and name of the like's user in the table, with the like's instant |
| LikeRouter.WindowRows | backend/like-service/src/router/like.js:158-175 | every listed row is a like of that post |
| LikeRouter.WindowUsers | backend/like-service/src/router/like.js:158-170 | in a valid database every listed like belongs to an existing user |
| LikeRouter.LikersListing | backend/like-service/src/router/like.js:158-193 | the entries show the window's likes one for one, with their users' id, email and name, and `totalUsers` is their number |
| LikeRouter.LikersInput | backend/like-service/src/router/like.js:120-146 | a request that passes validation has an integer post id and a limit of 1..100, 20 when absent |
| LikeRouter.Likers | backend/like-service/src/router/like.js:119-199 | 422 exactly on validation messages, 500 exactly on a fault, 404 exactly for a missing post, 200 exactly otherwise, with `totalUsers` equal to the entries |
| LikeRouter.LikersShows | backend/like-service/src/router/like.js:158-193 | the listing shows the post's likes, newest first, cut to the limit, each with its user's summary |
| LikeRouter.LikersCount | backend/like-service/src/router/like.js:144-174 | min(limit, likes of the post) entries, limit 20 by default |
| LikeRouter.WindowNewestFirst | backend/like-service/src/router/like.js:171-174 | the rows cut from the sorted likes are in non-increasing order of `createdAt` |
| LikeRouter.LikersNewestFirst | backend/like-service/src/router/like.js:171-173 | entries are in non-increasing order of `likedAt` |
| LikeRouter.LikersSound | backend/like-service/src/router/like.js:158-182 | every entry is a user who liked this post at the instant shown |
| LikeRouter.ViewsSound | backend/like-service/src/router/like.js:158-182 | entries shown from likes of the post each name a user who liked it at that instant |
| Pagination.CeilDiv | backend/post-service/src/router/post.js:195 | the fewest pages of the limit that hold the rows |
| Pagination.PagesCover | backend/post-service/src/router/post.js:195 | the pages hold every row; no rows exactly when no pages |
| Pagination.NextAndPrevious | backend/post-service/src/router/post.js:197-198 | `hasNextPage` exactly when rows remain after the window; `hasPreviousPage` exactly when rows are skipped |
| Pagination.RowOnPage | backend/post-service/src/router/post.js:151-177 | row k lies in the window of page k / limit + 1, one of the `totalPages` |
| PostRouter.View | backend/post-service/src/router/post.js:380-383 | `likeCount` equals the likes included; the likes and images are exactly the table's likes and images of the post |
| PostRouter.Views | backend/post-service/src/router/post.js:184-187 | one view per row, in order |
| PostRouter.PostOrderTotal | backend/post-service/src/router/post.js:146-148 | every accepted sort key and direction is a total preorder |
| PostRouter.GetAllPosts | backend/post-service/src/router/post.js:25-85 | 500 exactly on a fault, 200 exactly otherwise, with every post once and `totalPosts` their number |
| PostRouter.AllPostsNewestFirst | backend/post-service/src/router/post.js:34-62 | the full listing is newest first |
| PostRouter.ListErrors | backend/post-service/src/router/post.js:91-113 | no message exactly for valid optional page, limit 1..100, user id, sort key and direction |
| PostRouter.Selected | backend/post-service/src/router/post.js:136-139 | with a user id, exactly that user's posts; without, all posts |
| PostRouter.WindowOf | backend/post-service/src/router/post.js:151-177 | a window holds at most `limit` posts, all from the selection |
| PostRouter.WindowSlice | backend/post-service/src/router/post.js:151-177 | a page's window is the sorted rows from position `(page - 1) * limit` on: `limit` of them, or those that remain |
| PostRouter.WindowSorted | backend/post-service/src/router/post.js:142-177 | a page's window is in the requested order |
| PostRouter.EveryPostOnAPage | backend/post-service/src/router/post.js:151-198 | every selected post is shown on some page from 1 to `totalPages` |
| PostRouter.PostsListing | backend/post-service/src/router/post.js:136-211 | the pagination of the selection and the echoed filters; the posts are the page's skip/take slice of the selection sorted by the effective key, in that order |
| PostRouter.ListInput | backend/post-service/src/router/post.js:91-134 | an accepted request has page at least 1, limit 1..100 (defaults 1 and 10) and an integer user id when one is sent |
| PostRouter.PaginatedBody | backend/post-service/src/router/post.js:118-211 | an accepted request without fault answers 200 with the listing of its filters and defaults |
| PostRouter.GetPostsPaginated | backend/post-service/src/router/post.js:88-216 | 422 exactly on validation messages, 500 exactly on a fault, 200 exactly otherwise, with the pagination block of the selection, the filters with their defaults, and the posts of that page's window in the requested order |
| PostRouter.SortKeyAccepted | backend/post-service/src/router/post.js:106-109 | any two accepted sort keys leave the same validation messages |
| PostRouter.SameOrderKey | backend/post-service/src/router/post.js:143-177 | two keys that order alike give the same posts and pagination |
| PostRouter.LikeCountSortsByCreatedAt | backend/post-service/src/router/post.js:143-149 | `sortBy=likeCount` is accepted and answers exactly as sorting by `createdAt`, while echoing `likeCount` |
| PostRouter.PaginatedDefaults | backend/post-service/src/router/post.js:124-130 | no parameters give page 1, limit 10, newest first, every user |
| PostRouter.UserQueryErrors | backend/post-service/src/router/post.js:222-240 | no message exactly for an existing user id and valid optional page and limit 1..50; the user id runs the same unbailed chain as creation |
| PostRouter.UserQueryInput | backend/post-service/src/router/post.js:222-256 | an accepted request has an integer user id, page at least 1 and limit 1..50 (defaults 1 and 10) |
| PostRouter.UserPostsListing | backend/post-service/src/router/post.js:251-316 | the user's id, the full pagination block of that user's posts, and the page's skip/take slice of them, newest first |
| PostRouter.GetPostsByUser | backend/post-service/src/router/post.js:219-325 | 422 exactly on validation messages, 500 exactly on a fault, 200 exactly otherwise; on 200 the pagination block of the user's posts, page and limit 1..50 with defaults 1 and 10, and the page's window of them, newest first |
| PostRouter.LimitBoundsDiffer | backend/post-service/src/router/post.js:236-240 | a limit of 75 passes the paginated listing but is refused by the per-user listing |
| PostRouter.PostIdErrors | backend/post-service/src/router/post.js:331-336 | no message exactly for an integer id of at least 1 |
| PostRouter.GetPost | backend/post-service/src/router/post.js:328-399 | 422 exactly on validation messages, 500 exactly on a fault, 404 exactly for a missing post, 200 exactly otherwise, with that post's view: its likes, images and like count |
| PostRouter.EachItem | backend/post-service/src/router/post.js:426-441 | a wildcard chain reports nothing exactly when every element passes |
| PostRouter.EachImage | backend/post-service/src/router/post.js:422-441 | the four wildcard chains together report nothing exactly when every image entry is well typed |
| PostRouter.EntryErrors | backend/post-service/src/router/post.js:426-441 | the wildcard chains report nothing exactly when every entry is well typed |
| PostRouter.ImagesErrors | backend/post-service/src/router/post.js:422-441 | no message exactly when `images` is absent or an array whose every sent field has the right type; a non-array is refused first, then an object's values are still checked, so it gets only the array message exactly when they are all well typed |
| PostRouter.MessageErrors | backend/post-service/src/router/post.js:404-411 | no message exactly for a string of 1 to 2000 characters once trimmed, variation selectors not counted |
| PostRouter.UserIdErrors | backend/post-service/src/router/post.js:412-420 | no message exactly for an integer id of at least 1 that a user has; whenever the id reads as an integer, "El usuario no existe" is reported exactly when no user has it, even below 1 |
| PostRouter.NonPositiveIdLooksUp | backend/post-service/src/router/post.js:14-20 | an id of 0 or below that no user has gets both the range message and "El usuario no existe" |
| PostRouter.CreateErrors | backend/post-service/src/router/post.js:403-449 | no message exactly when message (1 to 2000 characters trimmed, variation selectors not counted), user id and images all pass |
| PostRouter.NewImages | backend/post-service/src/router/post.js:465-477 | one row per element, in order, with fresh ids, pointing at the new post, fields as sent |
| PostRouter.Inserted | backend/post-service/src/router/post.js:455-510 | a committed transaction answers 201 |
| PostRouter.NewPostValid | backend/post-service/src/router/post.js:455-504 | the inserted post and images keep the schema's constraints and counters above used ids |
| PostRouter.AppendValid | backend/post-service/src/router/post.js:457-477 | a post row and image rows with fresh ids pointing at it keep the constraints |
| PostRouter.NewPostView | backend/post-service/src/router/post.js:479-510 | read back, the new post has no likes and exactly the new images |
| PostRouter.InsertPost | backend/post-service/src/router/post.js:455-504 | the transaction on the database object leaves exactly the tables and counters `Inserted` describes |
| PostRouter.CreateRejects | backend/post-service/src/router/post.js:445-449 | rejected exactly when a check fails, with those messages |
| PostRouter.CreateAtomic | backend/post-service/src/router/post.js:451-540 | anything but success leaves tables and counters unchanged |
| PostRouter.CreateFailureStatus | backend/post-service/src/router/post.js:524-539 | P2002 gives 409, P2003 gives 400, anything else 500 |
| PostRouter.CreateInserts | backend/post-service/src/router/post.js:451-520 | success appends one post with the trimmed message and one image row per element, and answers that post |
| PostRouter.CreateKeepsValid | backend/post-service/src/router/post.js:455-504 | every outcome keeps the schema's constraints and the counters |
| PostRouter.CreatePost | backend/post-service/src/router/post.js:401-542 | the handler leaves the database and reply `Create` describes and keeps the database valid |
| UserRouter.Lower | backend/user-service/src/router/user.js:63 | every character is lowered, the length kept |
| UserRouter.OccursAt | backend/user-service/src/router/user.js:61-64 | `contains` finds the term exactly when it is a slice of the column |
| UserRouter.MatchingMeans | backend/user-service/src/router/user.js:58-79 | a user matches exactly when the lowered term is a slice of the lowered name, alias or email |
| UserRouter.UserOrderTotal | backend/user-service/src/router/user.js:97-99 | every sort key and direction is a total preorder |
| UserRouter.Profiles | backend/user-service/src/router/user.js:81-89 | the selected columns of each user, without the password |
| UserRouter.AgeIgnoresBirthday | backend/user-service/src/router/user.js:115-117 | the age is the current year minus the birth year, the same for all born that year; null without a date |
| UserRouter.AllUsersErrors | backend/user-service/src/router/user.js:15-30 | no message exactly for an absent or string search and accepted sort key and direction |
| UserRouter.ItemsOf | backend/user-service/src/router/user.js:102-118 | one item per user, in order |
| UserRouter.GetAllUsers | backend/user-service/src/router/user.js:42-140 | 422 and 500 exactly as validation and faults say; 200 with `totalUsers`, defaults, counts and ages |
| UserRouter.AllUsersDone | backend/user-service/src/router/user.js:53-134 | a valid request answers the listing its filters select |
| UserRouter.ListingSpec | backend/user-service/src/router/user.js:56-100 | each selected user once, everyone without a term, only matches with one, in the requested order |
| UserRouter.BlankSearchListsEveryone | backend/user-service/src/router/user.js:54-79 | a blank search filters nothing and reports a null search |
| UserRouter.PlainSearchLiteral | backend/user-service/src/router/user.js:20-21 | a term without specials or surrounding blanks is searched as typed |
| UserRouter.UserIdErrors | backend/user-service/src/router/user.js:32-39 | no message exactly for an integer id of at least 1 |
| UserRouter.GetUser | backend/user-service/src/router/user.js:143-217 | 422 exactly on validation messages, 500 exactly on a fault, 404 exactly for a missing user, 200 exactly otherwise, with the user's post and like totals and age |
| UserRouter.DetailAgreesWithListing | backend/user-service/src/router/user.js:197-200 | the detail's totals equal the listing's counts for the same user |
| UserRouter.SearchErrors | backend/user-service/src/router/user.js:224-237 | no message exactly for a string term with at least one character other than a variation selector after trim and escape, and an absent or 1..50 limit |
| UserRouter.ResultsOf | backend/user-service/src/router/user.js:291-298 | one result per user, in order |
| UserRouter.SearchUsers | backend/user-service/src/router/user.js:220-316 | 422 and 500 exactly as validation and faults say; 200 with `totalResults` equal to the results |
| UserRouter.SearchDone | backend/user-service/src/router/user.js:247-305 | a valid search answers what the sanitized term finds under a limit of 1..50, and echoes the term |
| UserRouter.FoundMatches | backend/user-service/src/router/user.js:250-289 | min(limit, matches) results, each a matching user |
| UserRouter.FoundByName | backend/user-service/src/router/user.js:285-287 | results are in ascending name order |
| UserRouter.FoundAll | backend/user-service/src/router/user.js:250-289 | with no more matches than the limit every match is found |
| UserRouter.OneCharacterAccepted | backend/user-service/src/router/user.js:231-232 | a one-character term other than a space or special character passes, despite the two-character message, exactly when it is not a variation selector |
| PostContext.Paged | frontend/src/context/postContext.tsx:117-124 | a later page keeps the shown posts and adds the new ones after them; page 1 replaces; figures are the server's |
| PostContext.ScrollAppends | frontend/src/context/postContext.tsx:120 | fetching pages 2, 3, ... adds every fetched post after those shown, in order |
| PostContext.ScrollFromFirstPage | frontend/src/context/postContext.tsx:120 | fetching pages 1, 2, ... shows exactly those pages' posts |
| PostContext.ByUserPageUsesFeed | frontend/src/context/postContext.tsx:166 | a later page of a user's posts is not appended to the user's own list when the feed differs |
| PostContext.LikeToggled | frontend/src/context/postContext.tsx:232-239 | only the post with that id changes: its flag becomes the status and its count moves by one |
| PostContext.Liked | frontend/src/context/postContext.tsx:227-243 | same length and order, each post passed through the like update |
| PostContext.LikeThenUnlike | frontend/src/context/postContext.tsx:237 | a like then its removal restores every like count |
| PostContext.LikeThenUnlikeRestores | frontend/src/context/postContext.tsx:237 | when the post was not marked liked, the list is back to what it was |
| PostContext.LikedElsewhere | frontend/src/context/postContext.tsx:232-239 | a like on a post the list does not hold changes nothing |
| PostContext.LikesCommute | frontend/src/context/postContext.tsx:227-243 | likes on different posts commute |
| PostContext.LikedTotal | frontend/src/context/postContext.tsx:237 | the total like count moves by one per copy of the post |
| PostContext.PostStore.constructor | frontend/src/context/postContext.tsx:83-90 | two empty lists on page 1, no flags, cleared notices |
| PostContext.PostStore.GetPostList | frontend/src/context/postContext.tsx:96-140 | the feed becomes `Paged` on success; on failure only the notice is set; `myPost` untouched; loading ends; a string `errores` is shown as sent, anything else as the fallback text, a missing token included |
| PostContext.PostStore.GetPostListById | frontend/src/context/postContext.tsx:142-186 | `myPost` becomes `Paged` of the feed's list on success; on failure only the notice; the feed untouched; a string `errores` is shown as sent, anything else as the fallback text, a missing token included |
| PostContext.PostStore.CreatePostUser | frontend/src/context/postContext.tsx:188-225 | true exactly on success, with the post put first in the feed; false with the form notice set otherwise; a string `errores` is shown as sent, anything else as the fallback text, a missing token included |
| PostContext.PostStore.UpdateHasLikeUser | frontend/src/context/postContext.tsx:227-243 | the feed becomes `Liked`; everything else unchanged |
| PostContext.PostStore.UpdateHasLikeUserMtpost | frontend/src/context/postContext.tsx:245-261 | `myPost` becomes `Liked`; the feed and everything else unchanged |
| AuthContext.AuthStore.constructor | frontend/src/context/authContext.tsx:64-72 | unauthenticated, null user and token, light mode, no notice |
| AuthContext.AuthStore.Login | frontend/src/context/authContext.tsx:78-125 | success holds the answer's user and token and keeps the notice; failure sets only the notice; a string `errores` is shown as sent, anything else as the fallback text |
| AuthContext.AuthStore.Relogin | frontend/src/context/authContext.tsx:127-169 | the notice is cleared; without a stored token nothing else changes; success replaces user and token; a string `errores` is shown as sent, anything else as the fallback text |
| AuthContext.AuthStore.Logout | frontend/src/context/authContext.tsx:171-195 | user and token null, unauthenticated, notice cleared |
| AuthContext.AuthStore.ChangeDarkMode | frontend/src/context/authContext.tsx:197-202 | only the mode changes |
| AuthContext.AuthStore.CloseError | frontend/src/context/authContext.tsx:204-206 | the notice is cleared and nothing else changes |

## Left out

- AuthJwt.AuthRejection: the invalid-token reply of the auth guard also carries the caught error under `e`, which serializes to `{}`; the modelled reply has only `errores`.
- JWT signing and verification (jwt-simple's HMAC) and bcrypt hashing are foreign code. The codec and the password compare are parameters.
- validator.js's `isEmail` and `normalizeEmail` are foreign code and are parameters.
- The Prisma query engine is out of scope: tables are sequences and a transaction is one atomic step. Concurrent requests are out of scope too, including the toggle race between `findFirst` and the write.
- Prisma's order for rows that compare equal is modelled as table order (a stable sort). Strings compare by code points, not by a database collation.
- `mode: "insensitive"` lowers ASCII letters only; Unicode case folding is not modelled.
- moment.js and `Date` formatting to strings (`DD[,] MMM [del] YYYY`), time zones, and the locale are left out.
  - The clock is a parameter in milliseconds.
  - The current and birth years for ages are calendar years given as parameters.
  - `likedAt` and `createdAt` are kept as instants.
- Numbers are unbounded integers. JavaScript's 2^53 limit and fractional JSON numbers are left out; a fraction is an "other" value.
- PostRouter.UserIdErrors: when `isInt` rejects a user id that is not a whole integer (absent, empty, "abc", "12abc"), the unbailed lookup still runs on `toInt`'s NaN or numeric prefix. Prisma's error or lookup result for that value is not modelled, so no lookup message is added.
- PostRouter.View: the `User { id, email }` summaries that every post route joins, for the author and for each like, are not part of the view.
- `Text` reads arrays and objects as "" instead of their `toString` forms.
- `formatResponse`, `formatErrorResponse` and `formatErrorValidator` are left out. A rejected request carries its validator messages in order, not the formatter's exact object shape.
- The user service's own guard and the post service's guard are not part of this model. Those routes are modelled behind an accepted guard. The auth and like guards are modelled.
- Swagger documents, server bootstrap, Express wiring, seed scripts, React components, routing and theme are left out.
- The front end's axios helpers, localStorage and `console` output are I/O. A request's outcome and the presence of a stored token are parameters.
- The `setTimeout` flag resets in the stores are applied at the end of each action, so only the state after the timers have fired is modelled. Interleavings with other actions while a timer is pending are not.
- `likeContext.tsx` and `userContext.tsx` are not part of this model. They only copy response fields.
- `null` birth dates and user ids in the front end's types are modelled as options; the stored user's fields are plain strings.

=== FILE: auth_context.dfy ===
/**
 * The front end's session store: the signed-in user and token, the
 * authentication flag, the loading and session-checking flags, the colour
 * mode and the error notice, driven by login, relogin, logout and the
 * notice's close button. Flag resets that the store schedules on timers are
 * performed last, so each action ends in the state left once they have fired.
 */
module AuthContext {
  import opened Wrappers
  import opened Validation
  import opened Notices

  /** The user as the session answers carry it; every field is a string on this side. */
  datatype SessionUser = SessionUser(
    id: string, email: string, name: string, birthDate: string, alias: string, createdAt: string)

  /** The `data` (the user) and `token.token` of a login or relogin answer. */
  datatype Session = Session(user: SessionUser, token: string)

  class AuthStore {
    var user: Option<SessionUser>
    var token: Option<string>
    var isAuthenticated: bool
    var isLoading: bool
    var checkingSession: bool
    var mode: string
    var error: Notice

    /** The store counts as authenticated exactly when it holds both a user and a token. */
    predicate Valid()
      reads this
    {
      isAuthenticated <==> user.Some? && token.Some?
    }

    /** The provider's initial state: nobody signed in, light mode, no notice. */
    constructor ()
      ensures user == None && token == None && !isAuthenticated
      ensures !isLoading && !checkingSession && mode == "light" && error == Cleared
      ensures Valid()
    {
      user, token, isAuthenticated := None, None, false;
      isLoading, checkingSession := false, false;
      mode, error := "light", Cleared;
    }

    /**
     * `login(credentials)`: an accepted login holds the answer's user and
     * token and leaves any earlier notice in place; a refused one only sets
     * the notice.
     */
    method Login(outcome: Fetch<Session>)
      requires Valid()
      modifies this
      ensures Valid()
      ensures outcome.Fetched? ==>
        user == Some(outcome.data.user) && token == Some(outcome.data.token) && isAuthenticated && error == old(error)
      ensures outcome.Failed? ==>
        user == old(user) && token == old(token) && isAuthenticated == old(isAuthenticated)
        && error == ErrorNotice(outcome.errores)
      ensures outcome.Failed? && outcome.errores.Str? ==> error == Notice("error", outcome.errores.s)
      ensures outcome.Failed? && !outcome.errores.Str? ==> error == Notice("error", FallbackMessage)
      ensures !isLoading && !checkingSession && mode == old(mode)
    {
      isLoading := true;
      match outcome {
        case Fetched(s) =>
          user, token, isAuthenticated := Some(s.user), Some(s.token), true;
          isLoading, checkingSession := false, false;
          checkingSession := true;
        case Failed(errores) =>
          error := ErrorNotice(errores);
      }
      // the two timers of the `finally` block
      isLoading := false;
      checkingSession := false;
    }

    /**
     * `relogin()`: the notice is cleared first; with no stored token nothing
     * else changes; otherwise the answer's user and token replace the held
     * ones, or the notice is set when the request fails.
     */
    method Relogin(storedToken: Option<string>, outcome: Fetch<Session>)
      requires Valid()
      modifies this
      ensures Valid()
      ensures storedToken.None? ==>
        user == old(user) && token == old(token) && isAuthenticated == old(isAuthenticated)
        && isLoading == old(isLoading) && error == Cleared
      ensures storedToken.Some? && outcome.Fetched? ==>
        user == Some(outcome.data.user) && token == Some(outcome.data.token) && isAuthenticated
        && !isLoading && error == Cleared
      ensures storedToken.Some? && outcome.Failed? ==>
        user == old(user) && token == old(token) && isAuthenticated == old(isAuthenticated)
        && isLoading == old(isLoading) && error == ErrorNotice(outcome.errores)
      ensures storedToken.Some? && outcome.Failed? && outcome.errores.Str? ==> error == Notice("error", outcome.errores.s)
      ensures storedToken.Some? && outcome.Failed? && !outcome.errores.Str? ==> error == Notice("error", FallbackMessage)
      ensures !checkingSession && mode == old(mode)
    {
      error := Cleared;
      checkingSession := true;
      if storedToken.Some? {
        match outcome {
          case Fetched(s) =>
            user, token, isAuthenticated := Some(s.user), Some(s.token), true;
            isLoading, checkingSession := false, true;
          case Failed(errores) =>
            error := ErrorNotice(errores);
        }
      }
      // the timer of the `finally` block, which runs after the early return too
      checkingSession := false;
    }

    /**
     * `logout()`: once its timer fires the session is dropped and the notice
     * cleared. When removing the stored token throws, only the
     * session-checking flag is reset.
     */
    method Logout(storageFails: bool)
      requires Valid()
      modifies this
      ensures Valid()
      ensures !storageFails ==>
        user == None && token == None && !isAuthenticated && !isLoading && error == Cleared
      ensures storageFails ==>
        user == old(user) && token == old(token) && isAuthenticated == old(isAuthenticated)
        && isLoading == old(isLoading) && error == old(error)
      ensures !checkingSession && mode == old(mode)
    {
      checkingSession := true;
      if !storageFails {
        user, token, isAuthenticated := None, None, false;
        isLoading, checkingSession, error := false, false, Cleared;
        checkingSession := false;
      } else {
        checkingSession := false;
      }
    }

    /** `changeDarkMode(newThema)`: only the mode changes. */
    method ChangeDarkMode(newThema: string)
      requires Valid()
      modifies this
      ensures Valid()
      ensures mode == newThema
      ensures user == old(user) && token == old(token) && isAuthenticated == old(isAuthenticated)
      ensures isLoading == old(isLoading) && checkingSession == old(checkingSession) && error == old(error)
    {
      mode := newThema;
    }

    /** `closeError()`: the notice is cleared and nothing else changes. */
    method CloseError()
      requires Valid()
      modifies this
      ensures Valid()
      ensures error == Cleared
      ensures user == old(user) && token == old(token) && isAuthenticated == old(isAuthenticated)
      ensures isLoading == old(isLoading) && checkingSession == old(checkingSession) && mode == old(mode)
    {
      error := Cleared;
    }
  }
}

=== FILE: auth_jwt.dfy ===
/**
 * The auth service's token module: `CreateTokenUser`, which signs a session
 * token that expires 420 minutes after issuance, and the `checkToken` guard,
 * which answers 422 with an `errores` message when it refuses a request.
 */
module AuthJwt {
  import opened Wrappers
  import opened Records
  import opened Moments
  import opened Tokens
  import opened Http

  /** Minutes from issuance to `expiredAt`. */
  const ExpiryMinutes: int := 420
  /** Minutes the same moment is advanced again before `timeBeforeExpiredAt` is read. */
  const HintMinutes: int := 425

  /** What `CreateTokenUser` returns: the signed token and a second instant in POSIX seconds. */
  datatype Grant = Grant(token: string, timeBeforeExpiredAt: int)

  /**
   * The payload signed for `user` when the clock reads `dateMs` for the
   * moment that is advanced and `createdMs` for the second reading that
   * gives `createdAt`.
   */
  function IssuedPayload(user: UserRecord, dateMs: int, createdMs: int): Payload {
    Payload(user, UnixSeconds(createdMs), UnixSeconds(dateMs) + ExpiryMinutes * SecondsPerMinute)
  }

  /**
   * The grant in whole seconds: the token encodes `IssuedPayload`, and
   * `timeBeforeExpiredAt` lies 420 + 425 = 845 minutes after the issuance
   * second, because both additions advance one and the same moment.
   */
  function Issue(user: UserRecord, c: Codec, key: string, dateMs: int, createdMs: int): Grant {
    Grant(
      c.encode(IssuedPayload(user, dateMs, createdMs), key),
      UnixSeconds(dateMs) + (ExpiryMinutes + HintMinutes) * SecondsPerMinute)
  }

  /**
   * `CreateTokenUser(user)`: one moment is read and advanced 420 minutes
   * for `expiredAt`, a second reading gives `createdAt`, the payload is
   * encoded, and the first moment is advanced 425 minutes more for
   * `timeBeforeExpiredAt`.
   */
  method CreateTokenUser(user: UserRecord, c: Codec, key: string, dateMs: int, createdMs: int)
    returns (g: Grant)
    ensures g == Issue(user, c, key, dateMs, createdMs)
  {
    var date := new Moment(dateMs);
    var advanced := date.Add(ExpiryMinutes);
    var expiredAt := advanced.Unix();
    var created := new Moment(createdMs);
    var payload := Payload(user, created.Unix(), expiredAt);
    var token := c.encode(payload, key);
    advanced := date.Add(HintMinutes);
    g := Grant(token, advanced.Unix());
    UnixAddMinutes(dateMs, ExpiryMinutes);
    UnixAddMinutes(dateMs, ExpiryMinutes + HintMinutes);
  }

  /**
   * `expiredAt` is 25200 seconds after the issuance second; the payload
   * carries the user unchanged; with one clock reading `createdAt` is that
   * same second, and a later second reading only brings it closer.
   */
  lemma IssuedPayloadShape(user: UserRecord, dateMs: int, createdMs: int)
    ensures IssuedPayload(user, dateMs, createdMs).user == user
    ensures IssuedPayload(user, dateMs, createdMs).expiredAt == UnixSeconds(dateMs) + 25200
    ensures createdMs == dateMs ==>
      IssuedPayload(user, dateMs, createdMs).createdAt + 25200 == IssuedPayload(user, dateMs, createdMs).expiredAt
    ensures dateMs <= createdMs ==>
      IssuedPayload(user, dateMs, createdMs).expiredAt <= IssuedPayload(user, dateMs, createdMs).createdAt + 25200
  {
  }

  /**
   * `timeBeforeExpiredAt` is 425 minutes after `expiredAt` and 845 minutes
   * after issuance, never the 425 minutes after issuance the name suggests,
   * and always strictly after `expiredAt`.
   */
  lemma IssueHint(user: UserRecord, c: Codec, key: string, dateMs: int, createdMs: int)
    ensures Issue(user, c, key, dateMs, createdMs).timeBeforeExpiredAt
      == IssuedPayload(user, dateMs, createdMs).expiredAt + 425 * 60
    ensures Issue(user, c, key, dateMs, createdMs).timeBeforeExpiredAt == UnixSeconds(dateMs) + 845 * 60
    ensures Issue(user, c, key, dateMs, createdMs).timeBeforeExpiredAt != UnixSeconds(dateMs) + 425 * 60
    ensures Issue(user, c, key, dateMs, createdMs).timeBeforeExpiredAt > IssuedPayload(user, dateMs, createdMs).expiredAt
  {
  }

  /** Decoding the issued token with the same secret gives back exactly the signed payload. */
  lemma IssueRoundTrip(user: UserRecord, c: Codec, key: string, dateMs: int, createdMs: int)
    requires Sound(c)
    ensures c.decode(Issue(user, c, key, dateMs, createdMs).token, key) == Success(IssuedPayload(user, dateMs, createdMs))
    ensures TokenText(Issue(user, c, key, dateMs, createdMs).token)
  {
    var p := IssuedPayload(user, dateMs, createdMs);
    assert c.decode(c.encode(p, key), key) == Success(p) && TokenText(c.encode(p, key));
  }

  /**
   * Presented as `<word> <token>`, an issued token is accepted, with the
   * user it was issued for, up to the last millisecond of its
   * `expiredAt` second, and refused as expired from then on.
   */
  lemma IssuedTokenLifetime(user: UserRecord, c: Codec, key: string, scheme: string,
                            dateMs: int, createdMs: int, nowMs: int)
    requires Sound(c) && ' ' !in scheme
    ensures var header := Some(scheme + " " + Issue(user, c, key, dateMs, createdMs).token);
      var deadlineMs := (UnixSeconds(dateMs) + 25200 + 1) * MsPerSecond;
      && (nowMs < deadlineMs ==> Authenticate(header, c, key, nowMs) == Accepted(user))
      && (deadlineMs <= nowMs ==> Authenticate(header, c, key, nowMs) == Expired)
  {
    CredentialVerdict(c, key, scheme, IssuedPayload(user, dateMs, createdMs), nowMs);
    ExpiryBoundary(IssuedPayload(user, dateMs, createdMs).expiredAt, nowMs);
  }

  /** A token issued later never expires earlier; it expires strictly later exactly when it was issued in a later second. */
  lemma ReissueExtends(user: UserRecord, user': UserRecord, dateMs: int, createdMs: int, dateMs': int, createdMs': int)
    requires dateMs <= dateMs'
    ensures IssuedPayload(user, dateMs, createdMs).expiredAt <= IssuedPayload(user', dateMs', createdMs').expiredAt
    ensures IssuedPayload(user, dateMs, createdMs).expiredAt < IssuedPayload(user', dateMs', createdMs').expiredAt
      <==> UnixSeconds(dateMs) < UnixSeconds(dateMs')
  {
    UnixMonotonic(dateMs, dateMs');
  }

  // ---------------------------------------------------------------------------
  // checkToken

  const MissingTokenMessage: string := "No se encontro un token, por favor incluir el token de usuario."
  const InvalidTokenMessage: string := "Invalid token"
  const ExpiredTokenMessage: string := "El token de usuario ha expirado."

  /** The reply this guard sends for a refused request: always 422 under `errores`. */
  function AuthRejection(v: Verdict): (r: Rejection)
    requires !v.Accepted?
    ensures r.status == 422 && r.key == "errores"
    ensures v.MissingHeader? <==> r.message == MissingTokenMessage
    ensures v.Expired? <==> r.message == ExpiredTokenMessage
  {
    match v
    case MissingHeader => Rejection(422, "errores", MissingTokenMessage)
    case InvalidToken(_) => Rejection(422, "errores", InvalidTokenMessage)
    case Expired => Rejection(422, "errores", ExpiredTokenMessage)
  }

  /**
   * The guard on one request: it either sends the rejection for the
   * request's verdict and leaves `req.user` and `next` alone, or sets
   * `req.user` to the payload's user and calls `next` exactly once.
   */
  method CheckToken(ex: Exchange, c: Codec, key: string, nowMs: int)
    requires ex.sent.None?
    modifies ex
    ensures var v := Authenticate(ex.authorization, c, key, nowMs);
      if v.Accepted? then
        ex.user == Some(v.user) && ex.sent.None? && ex.nextCalls == old(ex.nextCalls) + 1
      else
        ex.sent == Some(AuthRejection(v)) && ex.user == old(ex.user) && ex.nextCalls == old(ex.nextCalls)
  {
    if ex.authorization.None? || ex.authorization.value == "" {
      ex.sent := Some(Rejection(422, "errores", MissingTokenMessage));
      return;
    }
    var token := SecondField(ex.authorization.value);
    var decoded := DecodeField(c, token, key);
    if decoded.Failure? {
      ex.sent := Some(Rejection(422, "errores", InvalidTokenMessage));
      return;
    }
    var payload := decoded.value;
    if payload.expiredAt < UnixSeconds(nowMs) {
      ex.sent := Some(Rejection(422, "errores", ExpiredTokenMessage));
      return;
    }
    ex.user := Some(payload.user);
    ex.nextCalls := ex.nextCalls + 1;
  }
}

=== FILE: auth_router.dfy ===
/**
 * The auth service's `/login` and `/relogin` handlers: a read-only lookup in
 * the users table, an abstract password check, and a fixed ladder of
 * outcomes (422, 401, 200 or 500).
 */
module AuthRouter {
  import opened Wrappers
  import opened Validation
  import opened Records
  import opened Moments
  import opened Tokens
  import opened Http
  import opened AuthJwt

  /** The two body fields `/login` reads. */
  datatype LoginBody = LoginBody(email: Value, password: Value)

  /** validator.js's `isEmail` and `normalizeEmail`, taken as given. */
  datatype EmailRules = EmailRules(isEmail: string -> bool, normalize: string -> string)

  /** The `data` of a successful answer: a message, the grant, and the user without the password hash. */
  datatype Session = Session(message: string, token: Grant, data: PublicUser)

  const CredentialsRefused: string := "Credenciales inválidas"
  const MinPasswordLength: nat := 6

  /** `notEmpty().bail().isEmail()`: an empty email gets only the first message. */
  function EmailErrors(email: Value, rules: EmailRules): seq<string> {
    if !NotEmpty(email) then ["El email es obligatorio"]
    else Check(email.Str? && rules.isEmail(email.s), "El email no tiene un formato válido")
  }

  /** `notEmpty().bail().isString().isLength({min: 6})`: after the bail both later checks report. */
  function PasswordErrors(password: Value): seq<string> {
    if !NotEmpty(password) then ["La contraseña es obligatoria"]
    else
      Check(IsString(password), "La contraseña debe ser texto")
      + Check(Measure(Text(password)) >= MinPasswordLength, "La contraseña debe tener al menos 6 caracteres")
  }

  /** The validators' messages, email first; none exactly for a well-formed email and a password string of at least 6 characters as `isLength` counts them. */
  function LoginErrors(body: LoginBody, rules: EmailRules): (errors: seq<string>)
    ensures errors == [] <==>
      && body.email.Str? && body.email.s != "" && rules.isEmail(body.email.s)
      && body.password.Str? && Measure(body.password.s) >= MinPasswordLength
  {
    EmailErrors(body.email, rules) + PasswordErrors(body.password)
  }

  /**
   * POST /login. `fault` is an error thrown by the database or the hash
   * comparison; `passwordMatches(plain, hash)` is bcrypt's compare; the two
   * clock readings are those `CreateTokenUser` makes.
   */
  function Login(body: LoginBody, users: seq<UserRecord>, rules: EmailRules,
                 passwordMatches: (string, string) -> bool, c: Codec, key: string,
                 dateMs: int, createdMs: int, fault: Option<string>): (r: Reply<Session>)
    ensures r.Rejected? <==> LoginErrors(body, rules) != []
    ensures r.Rejected? ==> r.errors == LoginErrors(body, rules)
    ensures r.Crashed? <==> LoginErrors(body, rules) == [] && fault.Some?
    ensures r.Refused? ==> r == Refused(401, CredentialsRefused)
    ensures r.Done? ==> exists k | 0 <= k < |users| :: r.body.data == Strip(users[k])
  {
    var errors := LoginErrors(body, rules);
    if errors != [] then Rejected(errors)
    else if fault.Some? then Crashed(fault.value)
    else
      match FindUserByEmail(users, rules.normalize(body.email.s))
      case None => Refused(401, CredentialsRefused)
      case Some(u) =>
        if !passwordMatches(body.password.s, u.password) then Refused(401, CredentialsRefused)
        else Done(200, Session("Login exitoso", Issue(u, c, key, dateMs, createdMs), Strip(u)))
  }

  /** A body with an empty email and an empty password is refused with 422 before any lookup. */
  lemma EmptyLoginRejected(users: seq<UserRecord>, rules: EmailRules, passwordMatches: (string, string) -> bool,
                           c: Codec, key: string, dateMs: int, createdMs: int, fault: Option<string>)
    ensures Login(LoginBody(Str(""), Str("")), users, rules, passwordMatches, c, key, dateMs, createdMs, fault)
      == Rejected(["El email es obligatorio", "La contraseña es obligatoria"])
  {
  }

  /**
   * With unique emails, a login succeeds exactly when the normalized email
   * belongs to a user whose hash the password matches; the answer is then
   * 200 with a token issued for that user's full record and `data` that
   * record without its password.
   */
  lemma LoginSucceeds(body: LoginBody, users: seq<UserRecord>, rules: EmailRules,
                      passwordMatches: (string, string) -> bool, c: Codec, key: string,
                      dateMs: int, createdMs: int, k: nat)
    requires UniqueUsers(users) && k < |users|
    requires LoginErrors(body, rules) == []
    requires rules.normalize(body.email.s) == users[k].email
    requires passwordMatches(body.password.s, users[k].password)
    ensures Login(body, users, rules, passwordMatches, c, key, dateMs, createdMs, None)
      == Done(200, Session("Login exitoso", Issue(users[k], c, key, dateMs, createdMs), Strip(users[k])))
  {
    FindUserByEmailUnique(users, k);
  }

  /** An email nobody has gives 401 "Credenciales inválidas". */
  lemma UnknownEmailRefused(body: LoginBody, users: seq<UserRecord>, rules: EmailRules,
                            passwordMatches: (string, string) -> bool, c: Codec, key: string,
                            dateMs: int, createdMs: int)
    requires LoginErrors(body, rules) == []
    requires forall i | 0 <= i < |users| :: users[i].email != rules.normalize(body.email.s)
    ensures Login(body, users, rules, passwordMatches, c, key, dateMs, createdMs, None)
      == Refused(401, CredentialsRefused)
  {
  }

  /**
   * A wrong password for an existing email gets the very reply an unknown
   * email gets, so a caller cannot tell which of the two was wrong.
   */
  lemma FailuresIndistinguishable(body: LoginBody, users: seq<UserRecord>, rules: EmailRules,
                                  passwordMatches: (string, string) -> bool, c: Codec, key: string,
                                  dateMs: int, createdMs: int, k: nat)
    requires UniqueUsers(users) && k < |users|
    requires LoginErrors(body, rules) == []
    requires rules.normalize(body.email.s) == users[k].email
    requires !passwordMatches(body.password.s, users[k].password)
    ensures Login(body, users, rules, passwordMatches, c, key, dateMs, createdMs, None)
      == Login(body, users[..k] + users[k + 1..], rules, passwordMatches, c, key, dateMs, createdMs, None)
      == Refused(401, CredentialsRefused)
  {
    FindUserByEmailUnique(users, k);
    var others := users[..k] + users[k + 1..];
    forall i | 0 <= i < |others| ensures others[i].email != rules.normalize(body.email.s) {
      if i < k {
        assert others[i] == users[i];
      } else {
        assert others[i] == users[i + 1];
      }
    }
    UnknownEmailRefused(body, others, rules, passwordMatches, c, key, dateMs, createdMs);
  }

  /**
   * The token handed out on login decodes to a payload whose user is the
   * full record, password hash included; only the reply's `data` leaves
   * the hash out.
   */
  lemma TokenCarriesHash(body: LoginBody, users: seq<UserRecord>, rules: EmailRules,
                         passwordMatches: (string, string) -> bool, c: Codec, key: string,
                         dateMs: int, createdMs: int)
    requires Sound(c)
    requires UniqueUsers(users)
    ensures var r := Login(body, users, rules, passwordMatches, c, key, dateMs, createdMs, None);
      r.Done? ==>
        && c.decode(r.body.token.token, key).Success?
        && Strip(c.decode(r.body.token.token, key).value.user) == r.body.data
        && (exists k | 0 <= k < |users| :: c.decode(r.body.token.token, key).value.user.password == users[k].password
                                          && r.body.data == Strip(users[k]))
  {
    var r := Login(body, users, rules, passwordMatches, c, key, dateMs, createdMs, None);
    if r.Done? {
      var u := FindUserByEmail(users, rules.normalize(body.email.s)).value;
      IssueRoundTrip(u, c, key, dateMs, createdMs);
      var k :| 0 <= k < |users| && users[k] == u;
      assert c.decode(r.body.token.token, key).value.user == users[k];
    }
  }

  // ---------------------------------------------------------------------------
  // GET /relogin

  /**
   * The handler behind the guard: the user the token names is looked up
   * again by email and, if still there, gets a fresh token.
   */
  function Relogin(claimed: UserRecord, users: seq<UserRecord>, c: Codec, key: string,
                   dateMs: int, createdMs: int, fault: Option<string>): (r: Reply<Session>)
    ensures r.Crashed? <==> fault.Some?
    ensures r.Refused? ==> r == Refused(401, CredentialsRefused)
    ensures fault.None? ==> (r.Refused? <==> forall i | 0 <= i < |users| :: users[i].email != claimed.email)
    ensures r.Done? ==> exists k | 0 <= k < |users| ::
      users[k].email == claimed.email && r.body.data == Strip(users[k])
      && r.body.token == Issue(users[k], c, key, dateMs, createdMs)
  {
    if fault.Some? then Crashed(fault.value)
    else
      match FindUserByEmail(users, claimed.email)
      case None => Refused(401, CredentialsRefused)
      case Some(u) => Done(200, Session("Token validado con exito", Issue(u, c, key, dateMs, createdMs), Strip(u)))
  }

  /** The route: the auth guard first, whose refusals are 422, then the handler with the token's user. */
  function ReloginRoute(authorization: Option<string>, users: seq<UserRecord>, c: Codec, key: string,
                        nowMs: int, dateMs: int, createdMs: int, fault: Option<string>): (r: Reply<Session>)
    ensures !Authenticate(authorization, c, key, nowMs).Accepted? <==> r.Status() == 422
  {
    match Authenticate(authorization, c, key, nowMs)
    case Accepted(u) => Relogin(u, users, c, key, dateMs, createdMs, fault)
    case v => Refused(422, AuthRejection(v).message)
  }

  /**
   * A request without an Authorization header gets the guard's 422; the
   * handler's 401 is never reached, although the service's own test
   * expects 401 for this request.
   */
  lemma ReloginWithoutHeader(users: seq<UserRecord>, c: Codec, key: string,
                             nowMs: int, dateMs: int, createdMs: int, fault: Option<string>)
    ensures ReloginRoute(None, users, c, key, nowMs, dateMs, createdMs, fault) == Refused(422, MissingTokenMessage)
    ensures ReloginRoute(None, users, c, key, nowMs, dateMs, createdMs, fault).Status() != 401
  {
  }

  /**
   * Logging in and then presenting the token as `Bearer <token>` before it
   * expires gives 200 with a fresh token for the same user, as long as the
   * user is still in the table.
   */
  lemma LoginThenRelogin(body: LoginBody, users: seq<UserRecord>, rules: EmailRules,
                         passwordMatches: (string, string) -> bool, c: Codec, key: string,
                         dateMs: int, createdMs: int, nowMs: int, dateMs': int, createdMs': int)
    requires Sound(c) && UniqueUsers(users)
    requires Login(body, users, rules, passwordMatches, c, key, dateMs, createdMs, None).Done?
    requires nowMs < (UnixSeconds(dateMs) + 25200 + 1) * MsPerSecond
    ensures var s := Login(body, users, rules, passwordMatches, c, key, dateMs, createdMs, None).body;
      var r := ReloginRoute(Some("Bearer " + s.token.token), users, c, key, nowMs, dateMs', createdMs', None);
      r.Done? && r.code == 200 && r.body.data == s.data
      && r.body.message == "Token validado con exito"
  {
    var s := Login(body, users, rules, passwordMatches, c, key, dateMs, createdMs, None).body;
    var u := FindUserByEmail(users, rules.normalize(body.email.s)).value;
    var k :| 0 <= k < |users| && users[k] == u;
    assert s.token == Issue(u, c, key, dateMs, createdMs) && s.data == Strip(u);
    IssuedTokenLifetime(u, c, key, "Bearer", dateMs, createdMs, nowMs);
    assert "Bearer " + s.token.token == "Bearer" + " " + s.token.token;
    assert Authenticate(Some("Bearer " + s.token.token), c, key, nowMs) == Accepted(u);
    FindUserByEmailUnique(users, k);
  }
}

=== FILE: database.dfy ===
/**
 * The database the services share, as one object whose tables the write
 * handlers change in place. Ids come from per-table autoincrement counters.
 */
module Storage {
  import opened Records

  class Database {
    var users: seq<UserRecord>
    var posts: seq<PostRow>
    var likes: seq<LikeRow>
    var images: seq<ImageRow>
    /** The id the next inserted post, like or image row receives. */
    var nextPostId: int
    var nextLikeId: int
    var nextImageId: int

    /** The tables as a value, for the read-only handlers. */
    function Snapshot(): Tables
      reads this
    {
      Tables(users, posts, likes, images)
    }

    /** The schema's constraints hold and every counter is above the ids already used. */
    predicate Valid()
      reads this
    {
      && Snapshot().Valid()
      && (forall p | p in posts :: p.id < nextPostId)
      && (forall l | l in likes :: l.id < nextLikeId)
      && (forall m | m in images :: m.id < nextImageId)
    }

    /** A database holding the given tables, with counters past their ids. */
    constructor (t: Tables, nextPostId: int, nextLikeId: int, nextImageId: int)
      requires t.Valid()
      requires forall p | p in t.posts :: p.id < nextPostId
      requires forall l | l in t.likes :: l.id < nextLikeId
      requires forall m | m in t.images :: m.id < nextImageId
      ensures Snapshot() == t && Valid()
      ensures this.nextPostId == nextPostId && this.nextLikeId == nextLikeId && this.nextImageId == nextImageId
    {
      users, posts, likes, images := t.users, t.posts, t.likes, t.images;
      this.nextPostId, this.nextLikeId, this.nextImageId := nextPostId, nextLikeId, nextImageId;
    }
  }
}

=== FILE: http.dfy ===
/**
 * The request/response envelope the Express handlers produce, and the
 * request object a guard middleware works on.
 */
module Http {
  import opened Wrappers
  import opened Records

  /**
   * What a handler answers. `Done` is a success status with its `data`;
   * `Rejected` is the 422 built from the validators' messages; `Refused` is
   * `formatResponse({}, errores)` with an error status; `Crashed` is the 500
   * built from a thrown error.
   */
  datatype Reply<+T> =
    | Done(code: int, body: T)
    | Rejected(errors: seq<string>)
    | Refused(code: int, errores: string)
    | Crashed(detail: string)
  {
    function Status(): int {
      match this
      case Done(code, _) => code
      case Rejected(_) => 422
      case Refused(code, _) => code
      case Crashed(_) => 500
    }
  }

  /** `res.status(status).json({ [key]: message })` as a guard sends it. */
  datatype Rejection = Rejection(status: int, key: string, message: string)

  /**
   * One request passing through a guard: its Authorization header, the
   * `req.user` the guard may set, the rejection it may send, and how many
   * times it called `next()`.
   */
  class Exchange {
    const authorization: Option<string>
    var user: Option<UserRecord>
    var sent: Option<Rejection>
    var nextCalls: nat

    constructor (authorization: Option<string>)
      ensures this.authorization == authorization
      ensures user == None && sent == None && nextCalls == 0
    {
      this.authorization := authorization;
      user := None;
      sent := None;
      nextCalls := 0;
    }
  }
}

=== FILE: like_middleware.dfy ===
/**
 * The like service's `checkToken` guard. It takes the same decisions as the
 * auth service's guard but answers 401 and puts its message under `error`.
 */
module LikeMiddleware {
  import opened Wrappers
  import opened Tokens
  import opened Http

  const MissingTokenMessage: string := "No se encontró el token de autenticación"
  const ExpiredTokenMessage: string := "El token ha expirado"

  /** `Token inválido: ${e?.message}` */
  function InvalidTokenMessage(reason: string): string {
    "Token inválido: " + reason
  }

  /** The reply this guard sends for a refused request: always 401 under `error`, never under `errores`. */
  function LikeRejection(v: Verdict): (r: Rejection)
    requires !v.Accepted?
    ensures r.status == 401 && r.key == "error" && r.key != "errores"
    ensures v.InvalidToken? ==> r.message == "Token inválido: " + v.reason
  {
    match v
    case MissingHeader => Rejection(401, "error", MissingTokenMessage)
    case InvalidToken(reason) => Rejection(401, "error", InvalidTokenMessage(reason))
    case Expired => Rejection(401, "error", ExpiredTokenMessage)
  }

  /** The three refusals of this guard carry three different messages, so the cause can be told apart. */
  lemma RejectionsDistinct(v: Verdict, w: Verdict)
    requires !v.Accepted? && !w.Accepted?
    ensures LikeRejection(v) == LikeRejection(w) <==> v == w
  {
    assert MissingTokenMessage[0] == 'N' && ExpiredTokenMessage[0] == 'E';
    assert forall reason :: InvalidTokenMessage(reason)[0] == 'T';
    if v.InvalidToken? && w.InvalidToken? && LikeRejection(v) == LikeRejection(w) {
      assert InvalidTokenMessage(v.reason)[|"Token inválido: "|..] == v.reason;
      assert InvalidTokenMessage(w.reason)[|"Token inválido: "|..] == w.reason;
    }
  }

  /**
   * The guard on one request: it either sends the rejection for the
   * request's verdict and leaves `req.user` and `next` alone, or sets
   * `req.user` to the payload's user and calls `next` exactly once.
   */
  method CheckToken(ex: Exchange, c: Codec, key: string, nowMs: int)
    requires ex.sent.None?
    modifies ex
    ensures var v := Authenticate(ex.authorization, c, key, nowMs);
      if v.Accepted? then
        ex.user == Some(v.user) && ex.sent.None? && ex.nextCalls == old(ex.nextCalls) + 1
      else
        ex.sent == Some(LikeRejection(v)) && ex.user == old(ex.user) && ex.nextCalls == old(ex.nextCalls)
  {
    if ex.authorization.None? || ex.authorization.value == "" {
      ex.sent := Some(Rejection(401, "error", MissingTokenMessage));
      return;
    }
    var token := SecondField(ex.authorization.value);
    var decoded := DecodeField(c, token, key);
    if decoded.Failure? {
      ex.sent := Some(Rejection(401, "error", InvalidTokenMessage(decoded.error)));
      return;
    }
    var payload := decoded.value;
    if payload.expiredAt < Moments.UnixSeconds(nowMs) {
      ex.sent := Some(Rejection(401, "error", ExpiredTokenMessage));
      return;
    }
    ex.user := Some(payload.user);
    ex.nextCalls := ex.nextCalls + 1;
  }
}

=== FILE: like_router.dfy ===
/**
 * The like service's two routes: `/create-or-delete-like`, which toggles the
 * like of one user on one post and then recounts the post's likes, and
 * `/post/:postId/users`, which lists the newest likers of a post.
 */
module LikeRouter {
  import opened Wrappers
  import opened Validation
  import opened Sequences
  import opened Records
  import opened Http
  import opened Storage

  // ---------------------------------------------------------------------------
  // The toggle on the likes table

  predicate SamePair(l: LikeRow, postId: int, userId: int) {
    l.postId == postId && l.userId == userId
  }

  /** The (postId, userId) pairs the table holds. */
  function Pairs(likes: seq<LikeRow>): set<(int, int)> {
    set l | l in likes :: (l.postId, l.userId)
  }

  /** The rows of one (postId, userId) pair, in table order. */
  function RowsOf(likes: seq<LikeRow>, postId: int, userId: int): seq<LikeRow> {
    Filter(likes, (l: LikeRow) => SamePair(l, postId, userId))
  }

  /** `findFirst({ where: { postId, userId } })`: the position of the first row of the pair, if any. */
  function FindPair(likes: seq<LikeRow>, postId: int, userId: int): (r: Option<nat>)
    ensures r.Some? ==> r.value < |likes| && SamePair(likes[r.value], postId, userId)
    ensures r.Some? ==> forall j | 0 <= j < r.value :: !SamePair(likes[j], postId, userId)
    ensures r.None? <==> (postId, userId) !in Pairs(likes)
  {
    if likes == [] then None
    else if SamePair(likes[0], postId, userId) then Some(0)
    else
      assert likes == [likes[0]] + likes[1..];
      assert Pairs(likes) == {(likes[0].postId, likes[0].userId)} + Pairs(likes[1..]);
      match FindPair(likes[1..], postId, userId)
      case None => None
      case Some(k) => Some(k + 1)
  }

  /** The row `like.create` inserts: the next id, the pair, and the current instant. */
  function NewLike(id: int, postId: int, userId: int, nowMs: int): LikeRow {
    LikeRow(id, userId, postId, nowMs)
  }

  /** `like.delete({ where: { id } })` of the row at position i. */
  function Without(likes: seq<LikeRow>, i: nat): (r: seq<LikeRow>)
    requires i < |likes|
    ensures |r| == |likes| - 1
    ensures forall k | 0 <= k < |r| :: r[k] == likes[if k < i then k else k + 1]
  {
    likes[..i] + likes[i + 1..]
  }

  /** The likes table after one toggle: the pair's row deleted if there was one, a new row appended otherwise. */
  function Toggled(likes: seq<LikeRow>, postId: int, userId: int, nextId: int, nowMs: int): seq<LikeRow> {
    match FindPair(likes, postId, userId)
    case Some(i) => Without(likes, i)
    case None => likes + [NewLike(nextId, postId, userId, nowMs)]
  }

  /** With one row per pair, a toggle flips whether the user likes the post. */
  lemma {:induction false} ToggleFlips(likes: seq<LikeRow>, postId: int, userId: int, nextId: int, nowMs: int)
    requires UniqueLikes(likes)
    ensures (postId, userId) in Pairs(Toggled(likes, postId, userId, nextId, nowMs)) <==> (postId, userId) !in Pairs(likes)
  {
    var t := Toggled(likes, postId, userId, nextId, nowMs);
    match FindPair(likes, postId, userId)
    case Some(i) =>
    case None =>
      assert t[|likes|] == NewLike(nextId, postId, userId, nowMs);
  }

  /** A toggle leaves the rows of every other pair exactly as they were, in the same order. */
  lemma ToggleFrame(likes: seq<LikeRow>, postId: int, userId: int, nextId: int, nowMs: int, otherPost: int, otherUser: int)
    requires (otherPost, otherUser) != (postId, userId)
    ensures RowsOf(Toggled(likes, postId, userId, nextId, nowMs), otherPost, otherUser) == RowsOf(likes, otherPost, otherUser)
  {
    var p := (l: LikeRow) => SamePair(l, otherPost, otherUser);
    match FindPair(likes, postId, userId)
    case Some(i) =>
      FilterAround(likes, i, p);
      FilterAppend(likes[..i], likes[i + 1..], p);
    case None =>
      FilterSnoc(likes, NewLike(nextId, postId, userId, nowMs), p);
  }

  /** The post's like count after a toggle is one less when the like was removed and one more when it was added. */
  lemma ToggleCount(likes: seq<LikeRow>, postId: int, userId: int, nextId: int, nowMs: int)
    ensures |LikesOf(Toggled(likes, postId, userId, nextId, nowMs), postId)|
      == |LikesOf(likes, postId)| + (if (postId, userId) in Pairs(likes) then -1 else 1)
  {
    match FindPair(likes, postId, userId)
    case Some(i) =>
      FilterAround(likes, i, OnPost(postId));
      FilterAppend(likes[..i], likes[i + 1..], OnPost(postId));
    case None =>
      FilterSnoc(likes, NewLike(nextId, postId, userId, nowMs), OnPost(postId));
  }

  /**
   * Two toggles of the same pair give back the same set of pairs; when the
   * pair was absent, they give back the very same table.
   */
  lemma ToggleTwice(likes: seq<LikeRow>, postId: int, userId: int, id1: int, ms1: int, id2: int, ms2: int)
    requires UniqueLikes(likes)
    ensures Pairs(Toggled(Toggled(likes, postId, userId, id1, ms1), postId, userId, id2, ms2)) == Pairs(likes)
    ensures (postId, userId) !in Pairs(likes) ==>
      Toggled(Toggled(likes, postId, userId, id1, ms1), postId, userId, id2, ms2) == likes
  {
    var once := Toggled(likes, postId, userId, id1, ms1);
    match FindPair(likes, postId, userId)
    case Some(i) =>
      ToggleFlips(likes, postId, userId, id1, ms1);
      PairsSnoc(once, NewLike(id2, postId, userId, ms2));
      WithoutPairs(likes, i);
    case None =>
      var n := NewLike(id1, postId, userId, ms1);
      assert once == likes + [n];
      var f := FindPair(once, postId, userId);
      assert once[|likes|] == n;
      assert f.Some?;
      assert once[..|likes|] == likes;
  }

  /** Appending a row adds its pair. */
  lemma PairsSnoc(likes: seq<LikeRow>, l: LikeRow)
    ensures Pairs(likes + [l]) == Pairs(likes) + {(l.postId, l.userId)}
  {
    assert (likes + [l])[|likes|] == l;
  }

  /** Deleting a row keeps every pair but possibly its own. */
  lemma WithoutPairs(likes: seq<LikeRow>, i: nat)
    requires i < |likes|
    ensures Pairs(Without(likes, i)) + {(likes[i].postId, likes[i].userId)} == Pairs(likes)
  {
    var r := Without(likes, i);
    forall q | q in Pairs(likes) ensures q in Pairs(r) + {(likes[i].postId, likes[i].userId)} {
      var j :| 0 <= j < |likes| && (likes[j].postId, likes[j].userId) == q;
      if j != i {
        assert r[if j < i then j else j - 1] == likes[j];
      }
    }
    forall q | q in Pairs(r) ensures q in Pairs(likes) {
      var k :| 0 <= k < |r| && (r[k].postId, r[k].userId) == q;
      assert likes[if k < i then k else k + 1] == r[k];
    }
  }

  /**
   * A toggle keeps the schema's constraints when the post exists and, for
   * an insert, the user exists; ids stay below the counter, which an
   * insert advances by one.
   */
  lemma ToggleKeepsValid(t: Tables, postId: int, userId: int, nextId: int, nowMs: int)
    requires t.Valid()
    requires postId in PostIds(t.posts)
    requires (postId, userId) in Pairs(t.likes) || userId in UserIds(t.users)
    requires forall l | l in t.likes :: l.id < nextId
    ensures t.(likes := Toggled(t.likes, postId, userId, nextId, nowMs)).Valid()
    ensures forall l | l in Toggled(t.likes, postId, userId, nextId, nowMs) ::
      l.id < if (postId, userId) in Pairs(t.likes) then nextId else nextId + 1
  {
    match FindPair(t.likes, postId, userId)
    case Some(i) =>
      RemoveLikeValid(t, i);
    case None =>
      AddLikeValid(t, NewLike(nextId, postId, userId, nowMs));
  }

  /** Deleting one like keeps the constraints, and every remaining row was already there. */
  lemma RemoveLikeValid(t: Tables, i: nat)
    requires t.Valid() && i < |t.likes|
    ensures t.(likes := Without(t.likes, i)).Valid()
    ensures forall l | l in Without(t.likes, i) :: l in t.likes
  {
    var likes, after := t.likes, Without(t.likes, i);
    forall a, b | 0 <= a < b < |after|
      ensures after[a].id != after[b].id
      ensures after[a].postId != after[b].postId || after[a].userId != after[b].userId
    {
      var a', b' := if a < i then a else a + 1, if b < i then b else b + 1;
      assert after[a] == likes[a'] && after[b] == likes[b'] && a' < b';
    }
    forall l | l in after ensures l in likes {
      var k :| 0 <= k < |after| && after[k] == l;
      assert likes[if k < i then k else k + 1] == l;
    }
  }

  /** Appending a like with a fresh id, for a new pair of an existing post and user, keeps the constraints. */
  lemma AddLikeValid(t: Tables, n: LikeRow)
    requires t.Valid() && n.postId in PostIds(t.posts) && n.userId in UserIds(t.users)
    requires forall l | l in t.likes :: l.id < n.id
    requires (n.postId, n.userId) !in Pairs(t.likes)
    ensures t.(likes := t.likes + [n]).Valid()
  {
    var likes, after := t.likes, t.likes + [n];
    forall a, b | 0 <= a < b < |after|
      ensures after[a].id != after[b].id
      ensures after[a].postId != after[b].postId || after[a].userId != after[b].userId
    {
      if b == |likes| {
        assert after[a] == likes[a] && after[b] == n;
        assert after[a] in likes;
      }
    }
  }

  // ---------------------------------------------------------------------------
  // POST /create-or-delete-like

  datatype LikeBody = LikeBody(postId: Value, userId: Value)

  /** Both ids are checked with `notEmpty()` and `isInt({min: 1})`, without a bail, so an absent id reports twice. */
  function LikeErrors(body: LikeBody): (errors: seq<string>)
    ensures errors == [] <==> IsIntAtLeast(body.postId, 1) && IsIntAtLeast(body.userId, 1)
  {
    Check(NotEmpty(body.postId), "El ID del post es requerido")
    + Check(IsIntAtLeast(body.postId, 1), "El ID del post debe ser un número entero positivo")
    + Check(NotEmpty(body.userId), "El ID del usuario es requerido")
    + Check(IsIntAtLeast(body.userId, 1), "El ID del usuario debe ser un número entero positivo")
  }

  /** The database calls of the handler, in order; a fault names the call that throws. */
  const FindPostStep: nat := 0
  const FindLikeStep: nat := 1
  const WriteStep: nat := 2
  const CountStep: nat := 3

  datatype Fault = NoFault | FailAt(step: nat, detail: string)

  predicate FailsAt(fault: Fault, step: nat) {
    fault.FailAt? && fault.step == step
  }

  /** The error the foreign key on `Like.userId` raises when a like is created for a missing user. */
  const MissingUserViolation: string := "Foreign key constraint violated on the constraint: Like_userId_fkey"

  /**
   * Whether the toggle's delete or insert reaches the table: the body is
   * valid, no call up to the write throws, the post exists, and an insert
   * names an existing user.
   */
  predicate Writes(t: Tables, body: LikeBody, fault: Fault) {
    var postId, userId := IntOr(body.postId, 0), IntOr(body.userId, 0);
    && LikeErrors(body) == []
    && !FailsAt(fault, FindPostStep) && !FailsAt(fault, FindLikeStep) && !FailsAt(fault, WriteStep)
    && postId in PostIds(t.posts)
    && ((postId, userId) in Pairs(t.likes) || userId in UserIds(t.users))
  }

  /** The created row with its `User` summary. */
  datatype LikeView = LikeView(row: LikeRow, user: UserSummary)

  datatype ToggleData = ToggleData(like: Option<LikeView>, action: string, likeCount: int, message: string)

  /**
   * The `if (existingLike) delete else create` block on an existing post.
   * It fails, changing nothing, only when an insert names a missing user.
   */
  method WriteToggle(db: Database, postId: int, userId: int, nowMs: int) returns (ok: bool, like: Option<LikeView>)
    requires db.Valid() && postId in PostIds(db.posts)
    modifies db
    ensures db.Valid()
    ensures db.users == old(db.users) && db.posts == old(db.posts) && db.images == old(db.images)
    ensures db.nextPostId == old(db.nextPostId) && db.nextImageId == old(db.nextImageId)
    ensures ok <==> (postId, userId) in Pairs(old(db.likes)) || userId in UserIds(db.users)
    ensures ok ==>
      && db.likes == Toggled(old(db.likes), postId, userId, old(db.nextLikeId), nowMs)
      && db.nextLikeId == old(db.nextLikeId) + (if (postId, userId) in Pairs(old(db.likes)) then 0 else 1)
    ensures !ok ==> db.likes == old(db.likes) && db.nextLikeId == old(db.nextLikeId) && like.None?
    ensures ok ==> (like.Some? <==> (postId, userId) in Pairs(db.likes))
    ensures ok ==> (like.Some? <==> (postId, userId) !in Pairs(old(db.likes)))
    ensures like.Some? ==> like.value.row in db.likes && SamePair(like.value.row, postId, userId)
    ensures ok ==> |LikesOf(db.likes, postId)| == |LikesOf(old(db.likes), postId)| + (if like.Some? then 1 else -1)
  {
    var before := db.likes;
    ToggleFlips(before, postId, userId, db.nextLikeId, nowMs);
    ToggleCount(before, postId, userId, db.nextLikeId, nowMs);
    var existing := FindPair(db.likes, postId, userId);
    if existing.Some? {
      ToggleKeepsValid(db.Snapshot(), postId, userId, db.nextLikeId, nowMs);
      db.likes := Without(db.likes, existing.value);
      ok, like := true, None;
    } else {
      var user := FindUserById(db.users, userId);
      if user.None? {
        return false, None;
      }
      ToggleKeepsValid(db.Snapshot(), postId, userId, db.nextLikeId, nowMs);
      var row := NewLike(db.nextLikeId, postId, userId, nowMs);
      db.likes := db.likes + [row];
      db.nextLikeId := db.nextLikeId + 1;
      ok, like := true, Some(LikeView(row, Summary(user.value)));
      assert db.likes[|before|] == row;
    }
  }

  /**
   * POST /create-or-delete-like behind the guard. A throw at the count step
   * comes after the write, which is not undone.
   */
  method CreateOrDeleteLike(db: Database, body: LikeBody, nowMs: int, fault: Fault) returns (r: Reply<ToggleData>)
    requires db.Valid()
    modifies db
    ensures db.Valid()
    ensures db.users == old(db.users) && db.posts == old(db.posts) && db.images == old(db.images)
    ensures db.nextPostId == old(db.nextPostId) && db.nextImageId == old(db.nextImageId)
    ensures r.Rejected? <==> LikeErrors(body) != []
    ensures r.Rejected? ==> r.errors == LikeErrors(body)
    ensures r.Refused? <==>
      LikeErrors(body) == [] && !FailsAt(fault, FindPostStep) && IntOr(body.postId, 0) !in PostIds(db.posts)
    ensures r.Refused? ==> r == Refused(404, "La publicación no existe")
    ensures var postId, userId := IntOr(body.postId, 0), IntOr(body.userId, 0);
      if Writes(old(db.Snapshot()), body, fault) then
        && db.likes == Toggled(old(db.likes), postId, userId, old(db.nextLikeId), nowMs)
        && db.nextLikeId == old(db.nextLikeId) + (if (postId, userId) in Pairs(old(db.likes)) then 0 else 1)
      else
        db.likes == old(db.likes) && db.nextLikeId == old(db.nextLikeId)
    ensures r.Done? <==> Writes(old(db.Snapshot()), body, fault) && !FailsAt(fault, CountStep)
    ensures r.Done? ==> var postId, userId := IntOr(body.postId, 0), IntOr(body.userId, 0);
      && r.code == 200
      && (r.body.action == "added" || r.body.action == "removed")
      && (r.body.action == "added" <==> (postId, userId) in Pairs(db.likes))
      && (r.body.action == "added" <==> (postId, userId) !in Pairs(old(db.likes)))
      && (r.body.like.Some? <==> r.body.action == "added")
      && (r.body.like.Some? ==> r.body.like.value.row in db.likes && SamePair(r.body.like.value.row, postId, userId))
      && r.body.likeCount == |LikesOf(db.likes, postId)|
      && r.body.likeCount == |LikesOf(old(db.likes), postId)| + (if r.body.action == "added" then 1 else -1)
      && r.body.message == (if r.body.action == "added" then "Like agregado exitosamente" else "Like eliminado exitosamente")
  {
    var errors := LikeErrors(body);
    if errors != [] {
      return Rejected(errors);
    }
    var postId, userId := IntOf(body.postId).value, IntOf(body.userId).value;
    if FailsAt(fault, FindPostStep) {
      return Crashed(fault.detail);
    }
    var post := FindPost(db.posts, postId);
    if post.None? {
      return Refused(404, "La publicación no existe");
    }
    if FailsAt(fault, FindLikeStep) || FailsAt(fault, WriteStep) {
      return Crashed(fault.detail);
    }
    var ok, like := WriteToggle(db, postId, userId, nowMs);
    if !ok {
      return Crashed(MissingUserViolation);
    }
    if FailsAt(fault, CountStep) {
      return Crashed(fault.detail);
    }
    var action := if like.Some? then "added" else "removed";
    var likeCount := |LikesOf(db.likes, postId)|;
    var message := if action == "added" then "Like agregado exitosamente" else "Like eliminado exitosamente";
    r := Done(200, ToggleData(like, action, likeCount, message));
  }

  // ---------------------------------------------------------------------------
  // GET /post/:postId/users

  const DefaultLikersLimit: int := 20

  /** One entry of the listing: the liker's summary and when the like was given. */
  datatype Liker = Liker(user: UserSummary, likedAt: int)

  datatype LikersPage = LikersPage(users: seq<Liker>, totalUsers: int, message: string)

  function LikersErrors(postId: Value, limit: Value): (errors: seq<string>)
    ensures errors == [] <==> IsIntAtLeast(postId, 1) && (limit.Absent? || IsIntBetween(limit, 1, 100))
  {
    Check(NotEmpty(postId), "El ID del post es requerido en la URL")
    + Check(IsIntAtLeast(postId, 1), "El ID del post debe ser un número entero positivo")
    + Optional(limit, Check(IsIntBetween(limit, 1, 100), "El límite debe ser un número entre 1 y 100"))
  }

  /** `orderBy: { createdAt: "desc" }`. */
  function NewestFirst(): (LikeRow, LikeRow) -> bool {
    (a: LikeRow, b: LikeRow) => a.createdAt >= b.createdAt
  }

  /** `include: { User: { select: { id, email, name } } }` for each row, with the like's instant. */
  function LikerViews(users: seq<UserRecord>, rows: seq<LikeRow>): (views: seq<Liker>)
    requires forall i | 0 <= i < |rows| :: rows[i].userId in UserIds(users)
    ensures |views| == |rows|
    ensures forall i | 0 <= i < |rows| ::
      && FindUserById(users, rows[i].userId).Some?
      && views[i].user == Summary(FindUserById(users, rows[i].userId).value)
      && views[i].user.id == rows[i].userId && views[i].likedAt == rows[i].createdAt
  {
    if rows == [] then []
    else [Liker(Summary(FindUserById(users, rows[0].userId).value), rows[0].createdAt)] + LikerViews(users, rows[1..])
  }

  /** The rows the listing shows: the post's likes, newest first, cut to the limit. */
  function LikersWindow(likes: seq<LikeRow>, postId: int, limit: nat): seq<LikeRow> {
    Take(SortBy(LikesOf(likes, postId), NewestFirst()), limit)
  }

  /** With the foreign keys in place, every row of the window is by an existing user. */
  lemma WindowUsers(t: Tables, postId: int, limit: nat)
    requires t.Valid()
    ensures forall i | 0 <= i < |LikersWindow(t.likes, postId, limit)| ::
      LikersWindow(t.likes, postId, limit)[i].userId in UserIds(t.users)
  {
    var rows := LikersWindow(t.likes, postId, limit);
    WindowRows(t.likes, postId, limit);
    forall i | 0 <= i < |rows| ensures rows[i].userId in UserIds(t.users) {
      assert rows[i] in t.likes;
    }
  }

  lemma WindowRows(likes: seq<LikeRow>, postId: int, limit: nat)
    ensures forall i | 0 <= i < |LikersWindow(likes, postId, limit)| ::
      LikersWindow(likes, postId, limit)[i] in likes && LikersWindow(likes, postId, limit)[i].postId == postId
  {
    var sorted := SortBy(LikesOf(likes, postId), NewestFirst());
    LikesOfMembers(likes, postId);
    forall i | 0 <= i < |LikersWindow(likes, postId, limit)|
      ensures LikersWindow(likes, postId, limit)[i] in likes && LikersWindow(likes, postId, limit)[i].postId == postId
    {
      var l := LikersWindow(likes, postId, limit)[i];
      assert l == sorted[i];
      assert l in multiset(sorted);
      assert l in multiset(LikesOf(likes, postId));
      assert l in LikesOf(likes, postId);
    }
  }

  /**
   * GET /post/:postId/users behind the guard. `limit` defaults to 20; a
   * missing post is 404.
   */
  function Likers(t: Tables, postId: Value, limit: Value, fault: Option<string>): (r: Reply<LikersPage>)
    requires t.Valid()
    ensures r.Rejected? <==> LikersErrors(postId, limit) != []
    ensures r.Refused? <==>
      LikersErrors(postId, limit) == [] && fault.None? && IntOr(postId, 0) !in PostIds(t.posts)
    ensures r.Refused? ==> r == Refused(404, "La publicación no existe")
    ensures r.Crashed? <==> LikersErrors(postId, limit) == [] && fault.Some?
    ensures r.Done? <==> LikersErrors(postId, limit) == [] && fault.None? && IntOr(postId, 0) in PostIds(t.posts)
    ensures r.Done? ==> r.code == 200 && r.body.totalUsers == |r.body.users|
  {
    var errors := LikersErrors(postId, limit);
    if errors != [] then Rejected(errors)
    else if fault.Some? then Crashed(fault.value)
    else
      var post := IntOf(postId).value;
      if FindPost(t.posts, post).None? then Refused(404, "La publicación no existe")
      else
        LikersInput(postId, limit);
        Done(200, LikersListing(t, post, IntOr(limit, DefaultLikersLimit) as nat))
  }

  /** The body of a successful listing: one entry per like of the window. */
  function LikersListing(t: Tables, post: int, n: nat): (p: LikersPage)
    requires t.Valid()
    ensures p.totalUsers == |p.users|
    ensures Shows(t.users, p.users, LikersWindow(t.likes, post, n))
  {
    var rows := LikersWindow(t.likes, post, n);
    WindowUsers(t, post, n);
    var users := LikerViews(t.users, rows);
    LikersPage(users, |users|, "Usuarios que dieron like obtenidos exitosamente")
  }

  /** What a successful listing shows: the views of the window of the post's likes. */
  lemma LikersShows(t: Tables, postId: Value, limit: Value, fault: Option<string>)
    requires t.Valid() && Likers(t, postId, limit, fault).Done?
    ensures 1 <= IntOr(limit, DefaultLikersLimit) <= 100
    ensures Shows(t.users, Likers(t, postId, limit, fault).body.users,
                  LikersWindow(t.likes, IntOr(postId, 0), IntOr(limit, DefaultLikersLimit) as nat))
  {
    assert LikersErrors(postId, limit) == [] && fault.None?;
    LikersInput(postId, limit);
    var post, n := IntOf(postId).value, IntOr(limit, DefaultLikersLimit);
    assert Likers(t, postId, limit, fault) == Done(200, LikersListing(t, post, n as nat));
  }

  /** An accepted request names a post id and a limit from 1 to 100. */
  lemma LikersInput(postId: Value, limit: Value)
    requires LikersErrors(postId, limit) == []
    ensures IntOf(postId).Some? && IntOr(postId, 0) == IntOf(postId).value
    ensures 1 <= IntOr(limit, DefaultLikersLimit) <= 100
  {
    if !limit.Absent? {
      assert IsIntBetween(limit, 1, 100);
    }
  }

  /**
   * Entries that show the given like rows, one each, in order: the id, email
   * and name of the row's user in the table, and the like's instant.
   */
  ghost predicate Shows(table: seq<UserRecord>, users: seq<Liker>, rows: seq<LikeRow>) {
    && |users| == |rows|
    && forall i | 0 <= i < |rows| ::
      && FindUserById(table, rows[i].userId).Some?
      && users[i].user == Summary(FindUserById(table, rows[i].userId).value)
      && users[i].user.id == rows[i].userId && users[i].likedAt == rows[i].createdAt
  }

  /** A listing holds the post's likes up to the limit: min(limit, likes of the post) entries, 20 at most by default. */
  lemma LikersCount(t: Tables, postId: Value, limit: Value, fault: Option<string>)
    requires t.Valid() && Likers(t, postId, limit, fault).Done?
    ensures var users, post, n := Likers(t, postId, limit, fault).body.users, IntOr(postId, 0), IntOr(limit, DefaultLikersLimit);
      && |users| == (if n < |LikesOf(t.likes, post)| then n else |LikesOf(t.likes, post)|)
      && |users| <= n
      && (limit.Absent? ==> |users| <= 20)
  {
    LikersShows(t, postId, limit, fault);
  }

  /** The window is newest first. */
  lemma WindowNewestFirst(likes: seq<LikeRow>, postId: int, limit: nat)
    ensures var rows := LikersWindow(likes, postId, limit);
      forall i, j | 0 <= i < j < |rows| :: rows[i].createdAt >= rows[j].createdAt
  {
    var sorted := SortBy(LikesOf(likes, postId), NewestFirst());
    SortSorted(LikesOf(likes, postId), NewestFirst());
    SortedPrefix(sorted, if limit < |sorted| then limit else |sorted|, NewestFirst());
  }

  /** The listing shows the newest like first. */
  lemma LikersNewestFirst(t: Tables, postId: Value, limit: Value, fault: Option<string>)
    requires t.Valid() && Likers(t, postId, limit, fault).Done?
    ensures var users := Likers(t, postId, limit, fault).body.users;
      forall i, j | 0 <= i < j < |users| :: users[i].likedAt >= users[j].likedAt
  {
    LikersShows(t, postId, limit, fault);
    WindowNewestFirst(t.likes, IntOr(postId, 0), IntOr(limit, DefaultLikersLimit) as nat);
  }

  /** Every entry is a user who liked this post, at the instant shown. */
  lemma LikersSound(t: Tables, postId: Value, limit: Value, fault: Option<string>)
    requires t.Valid() && Likers(t, postId, limit, fault).Done?
    ensures LikedBy(t.likes, IntOr(postId, 0), Likers(t, postId, limit, fault).body.users)
  {
    LikersShows(t, postId, limit, fault);
    var post, n := IntOr(postId, 0), IntOr(limit, DefaultLikersLimit);
    WindowRows(t.likes, post, n as nat);
    ViewsSound(t.users, t.likes, post, LikersWindow(t.likes, post, n as nat), Likers(t, postId, limit, fault).body.users);
  }

  /** Entries that show rows of a post's likes each stand for a like of that post. */
  lemma ViewsSound(table: seq<UserRecord>, likes: seq<LikeRow>, post: int, rows: seq<LikeRow>, users: seq<Liker>)
    requires forall i | 0 <= i < |rows| :: rows[i] in likes && rows[i].postId == post
    requires Shows(table, users, rows)
    ensures LikedBy(likes, post, users)
  {
    forall i | 0 <= i < |users| ensures Backed(likes, post, users[i]) {
      var l := rows[i];
      assert l in likes && l.postId == post && l.userId == users[i].user.id && l.createdAt == users[i].likedAt;
    }
  }

  /** Every entry stands for a like of the post in the table. */
  ghost predicate LikedBy(likes: seq<LikeRow>, post: int, users: seq<Liker>) {
    forall i | 0 <= i < |users| :: Backed(likes, post, users[i])
  }

  /** Some like of the post in the table is by the entry's user, at the instant shown. */
  ghost predicate Backed(likes: seq<LikeRow>, post: int, u: Liker) {
    exists l | l in likes :: l.postId == post && l.userId == u.user.id && l.createdAt == u.likedAt
  }
}

=== FILE: moments.dfy ===
/**
 * The part of moment.js the token code uses: a mutable instant that `add`
 * advances in place (and returns, so calls chain), and `unix()`, the instant
 * in whole POSIX seconds. The wall clock itself is read by the caller and
 * handed in as milliseconds.
 */
module Moments {

  const MsPerSecond: int := 1000
  const SecondsPerMinute: int := 60
  const MsPerMinute: int := 60000

  /** `moment#unix()`: the whole seconds of an instant given in milliseconds, rounded down. */
  function UnixSeconds(ms: int): (s: int)
    ensures s * MsPerSecond <= ms < (s + 1) * MsPerSecond
  {
    ms / MsPerSecond
  }

  /** Moving an instant by whole minutes moves its POSIX seconds by sixty times as many. */
  lemma UnixAddMinutes(ms: int, minutes: int)
    ensures UnixSeconds(ms + minutes * MsPerMinute) == UnixSeconds(ms) + minutes * SecondsPerMinute
  {
    var s := UnixSeconds(ms);
    var t := UnixSeconds(ms + minutes * MsPerMinute);
    assert (s + minutes * SecondsPerMinute) * MsPerSecond == s * MsPerSecond + minutes * MsPerMinute;
    assert (t - minutes * SecondsPerMinute) * MsPerSecond == t * MsPerSecond - minutes * MsPerMinute;
  }

  /** Seconds never run backwards when the clock does not. */
  lemma UnixMonotonic(a: int, b: int)
    requires a <= b
    ensures UnixSeconds(a) <= UnixSeconds(b)
  {
  }

  class Moment {
    var epochMs: int

    /** `moment()` read at the given instant. */
    constructor (ms: int)
      ensures epochMs == ms
    {
      epochMs := ms;
    }

    /** `add(minutes, "minutes")`: changes this moment and returns it. */
    method Add(minutes: int) returns (self: Moment)
      modifies this
      ensures self == this
      ensures epochMs == old(epochMs) + minutes * MsPerMinute
    {
      epochMs := epochMs + minutes * MsPerMinute;
      self := this;
    }

    function Unix(): int
      reads this
    {
      UnixSeconds(epochMs)
    }
  }
}

=== FILE: notices.dfy ===
/**
 * What the front end's state stores keep about a failed request: a notice
 * `{ type, message }`, and the message chosen from the error the request
 * helper threw.
 */
module Notices {
  import opened Validation

  /** An `{ type, message }` notice; the cleared notice has both fields empty. */
  datatype Notice = Notice(kind: string, message: string)

  const Cleared: Notice := Notice("", "")

  const FallbackMessage: string := "Ocurrio un error inesperado, por favor intentalo de nuevo más tarde"

  /**
   * How a request ended: with the `data` of the response, or with a thrown
   * error whose `response.data.errores` is the given value (`Absent` when the
   * error carries no response, as a network failure or a missing token does).
   */
  datatype Fetch<+T> = Fetched(data: T) | Failed(errores: Value)

  /** The message shown for a failure: the server's `errores` when it is a string, the fixed text otherwise. */
  function ErrorMessage(errores: Value): (m: string)
    ensures errores.Str? ==> m == errores.s
    ensures !errores.Str? ==> m == FallbackMessage
  {
    if errores.Str? then errores.s else FallbackMessage
  }

  /** The notice a failure leaves: type "error" and the chosen message. */
  function ErrorNotice(errores: Value): (n: Notice)
    ensures n.kind == "error" && n.message == ErrorMessage(errores)
  {
    Notice("error", ErrorMessage(errores))
  }
}

=== FILE: pagination.dfy ===
/**
 * The pagination block the post listings return: `skip = (page - 1) * limit`,
 * `totalPages = Math.ceil(totalPosts / limit)`, `hasNextPage` and
 * `hasPreviousPage`.
 */
module Pagination {

  /** `Math.ceil(a / b)` for a count and a positive limit: the fewest pages of b that hold a rows. */
  function CeilDiv(a: nat, b: int): (q: nat)
    requires b >= 1
    ensures q * b >= a
    ensures q == 0 || (q - 1) * b < a
  {
    (a + b - 1) / b
  }

  datatype Page = Page(
    totalPosts: int, totalPages: int, currentPage: int,
    hasNextPage: bool, hasPreviousPage: bool, limit: int)

  /** The rows before the requested page. */
  function Skip(page: int, limit: int): int {
    (page - 1) * limit
  }

  function Paginate(total: nat, page: int, limit: int): Page
    requires limit >= 1
  {
    var pages := CeilDiv(total, limit);
    Page(total, pages, page, page < pages, page > 1, limit)
  }

  /** The pages hold every row and no page is empty: no rows means no pages. */
  lemma PagesCover(total: nat, page: int, limit: int)
    requires limit >= 1
    ensures Paginate(total, page, limit).totalPages * limit >= total
    ensures total == 0 <==> Paginate(total, page, limit).totalPages == 0
    ensures total > 0 ==> (Paginate(total, page, limit).totalPages - 1) * limit < total
  {
  }

  /**
   * For a page of at least 1, `hasNextPage` holds exactly when rows remain
   * after this page's window; `hasPreviousPage` exactly when the window
   * skips rows.
   */
  lemma NextAndPrevious(total: nat, page: int, limit: int)
    requires limit >= 1 && page >= 1
    ensures Paginate(total, page, limit).hasNextPage <==> Skip(page, limit) + limit < total
    ensures Paginate(total, page, limit).hasPreviousPage <==> Skip(page, limit) > 0
  {
    var q := CeilDiv(total, limit);
    assert Skip(page, limit) + limit == page * limit;
    if page < q {
      MulMonotonic(page, q - 1, limit);
    } else {
      MulMonotonic(q, page, limit);
    }
    if page > 1 {
      MulMonotonic(1, page - 1, limit);
    }
  }

  lemma MulMonotonic(a: int, b: int, c: int)
    requires a <= b && c >= 0
    ensures a * c <= b * c
  {
  }

  /** Row k of the listing lies in the window of page k / limit + 1, which is one of the totalPages pages. */
  lemma RowOnPage(total: nat, limit: int, k: nat)
    requires limit >= 1 && k < total
    ensures var page := k / limit + 1;
      && 1 <= page <= Paginate(total, page, limit).totalPages
      && Skip(page, limit) <= k < Skip(page, limit) + limit
  {
    var q, r := k / limit, k % limit;
    assert k == q * limit + r && 0 <= r < limit;
    assert Skip(q + 1, limit) == q * limit;
    var pages := CeilDiv(total, limit);
    if pages <= q {
      MulMonotonic(pages, q, limit);
      assert false;
    }
  }
}

=== FILE: post_context.dfy ===
/**
 * The front end's post store: the feed (`data`), the signed-in user's own
 * posts (`myPost`), their loading flags and error notices, and the five
 * actions that change them. The store's writes are modelled in the order the
 * provider performs them; the flag resets its timers run later are performed
 * last, so each action ends in the state left once its timers have fired.
 */
module PostContext {
  import opened Validation
  import opened Records
  import opened Notices

  datatype ShownLike = ShownLike(id: int, createdAt: string, userId: int, postId: int, user: UserSummary)

  datatype ShownImage = ShownImage(nameServer: string, nameClient: string, ext: string, size: string)

  /** A post as the post service sends it, with its likes, images, like count and the reader's own like. */
  datatype ShownPost = ShownPost(
    id: int, message: string, createdAt: string, userId: int, user: UserSummary,
    likes: seq<ShownLike>, images: seq<ShownImage>, likeCount: int, userHasLiked: bool)

  /** A list of posts with the pagination figures it was fetched with. */
  datatype PostPage = PostPage(post: seq<ShownPost>, page: int, total: int, totalPages: int)

  const EmptyPage: PostPage := PostPage([], 1, 0, 0)

  /** The `posts` and `pagination` of one page the post service answered with. */
  datatype PageResponse = PageResponse(posts: seq<ShownPost>, totalPosts: int, totalPages: int, currentPage: int)

  // ---------------------------------------------------------------------------
  // Pages

  /**
   * The list a fetched page leaves: a page after the first is appended to
   * the posts shown so far, the first page replaces them. The figures are
   * the server's own.
   */
  function Paged(shown: seq<ShownPost>, page: int, r: PageResponse): (p: PostPage)
    ensures p.page == r.currentPage && p.total == r.totalPosts && p.totalPages == r.totalPages
    ensures page > 1 ==> |p.post| == |shown| + |r.posts| && p.post[..|shown|] == shown && p.post[|shown|..] == r.posts
    ensures page <= 1 ==> p.post == r.posts
  {
    PostPage(if page > 1 then shown + r.posts else r.posts, r.currentPage, r.totalPosts, r.totalPages)
  }

  /** The posts of several fetched pages, one page after the other. */
  function AllPosts(rs: seq<PageResponse>): seq<ShownPost> {
    if rs == [] then [] else rs[0].posts + AllPosts(rs[1..])
  }

  /** The list left by fetching the given pages one after the other, numbered from `first` on. */
  function Scrolled(shown: seq<ShownPost>, first: int, rs: seq<PageResponse>): seq<ShownPost>
    decreases |rs|
  {
    if rs == [] then shown else Scrolled(Paged(shown, first, rs[0]).post, first + 1, rs[1..])
  }

  /** Scrolling on from page two or later keeps what is shown and adds every fetched post after it, in order. */
  lemma {:induction false} ScrollAppends(shown: seq<ShownPost>, first: int, rs: seq<PageResponse>)
    requires first > 1
    ensures Scrolled(shown, first, rs) == shown + AllPosts(rs)
    decreases |rs|
  {
    if rs != [] {
      ScrollAppends(shown + rs[0].posts, first + 1, rs[1..]);
    }
  }

  /** Fetching pages 1, 2, … shows exactly the posts of those pages, whatever was shown before. */
  lemma ScrollFromFirstPage(shown: seq<ShownPost>, rs: seq<PageResponse>)
    requires rs != []
    ensures Scrolled(shown, 1, rs) == AllPosts(rs)
  {
    ScrollAppends(rs[0].posts, 2, rs[1..]);
  }

  /**
   * A later page of a user's posts is appended to the feed rather than to
   * the user's own list, so whenever the two lists differ the result is not
   * the user's posts followed by the new page.
   */
  lemma ByUserPageUsesFeed(feed: seq<ShownPost>, mine: seq<ShownPost>, page: int, r: PageResponse)
    requires page > 1 && feed != mine
    ensures Paged(feed, page, r).post != mine + r.posts
  {
  }

  // ---------------------------------------------------------------------------
  // Likes

  /** One post after the reader's like changed: only the post with that id is touched. */
  function LikeToggled(x: ShownPost, postID: int, status: bool): (y: ShownPost)
    ensures x.id != postID ==> y == x
    ensures x.id == postID ==> y.userHasLiked == status && y.likeCount == x.likeCount + (if status then 1 else -1)
    ensures y.(userHasLiked := x.userHasLiked, likeCount := x.likeCount) == x
  {
    if x.id == postID then
      x.(userHasLiked := status, likeCount := if status then x.likeCount + 1 else x.likeCount - 1)
    else x
  }

  /** Every post of a list passed through `LikeToggled`, in the same order. */
  function Liked(posts: seq<ShownPost>, postID: int, status: bool): (r: seq<ShownPost>)
    ensures |r| == |posts|
    ensures forall i | 0 <= i < |posts| :: r[i] == LikeToggled(posts[i], postID, status)
  {
    seq(|posts|, i requires 0 <= i < |posts| => LikeToggled(posts[i], postID, status))
  }

  /**
   * A like followed by its removal gives every post its like count back;
   * the liked posts are left marked as not liked.
   */
  lemma LikeThenUnlike(posts: seq<ShownPost>, postID: int)
    ensures var r := Liked(Liked(posts, postID, true), postID, false);
      forall i | 0 <= i < |posts| ::
        r[i] == posts[i].(userHasLiked := if posts[i].id == postID then false else posts[i].userHasLiked)
  {
  }

  /** So when none of those posts was marked as liked, the list is back to what it was. */
  lemma LikeThenUnlikeRestores(posts: seq<ShownPost>, postID: int)
    requires forall i | 0 <= i < |posts| && posts[i].id == postID :: !posts[i].userHasLiked
    ensures Liked(Liked(posts, postID, true), postID, false) == posts
  {
    LikeThenUnlike(posts, postID);
  }

  /** A like on a post the list does not hold leaves the list unchanged. */
  lemma LikedElsewhere(posts: seq<ShownPost>, postID: int, status: bool)
    requires forall i | 0 <= i < |posts| :: posts[i].id != postID
    ensures Liked(posts, postID, status) == posts
  {
  }

  /** Likes on two different posts can be applied in either order. */
  lemma LikesCommute(posts: seq<ShownPost>, a: int, s: bool, b: int, t: bool)
    requires a != b
    ensures Liked(Liked(posts, a, s), b, t) == Liked(Liked(posts, b, t), a, s)
  {
  }

  /** The sum of the like counts of a list. */
  function TotalLikes(posts: seq<ShownPost>): int {
    if posts == [] then 0 else posts[0].likeCount + TotalLikes(posts[1..])
  }

  /** How many posts of a list carry an id. */
  function CountId(posts: seq<ShownPost>, id: int): nat {
    if posts == [] then 0 else (if posts[0].id == id then 1 else 0) + CountId(posts[1..], id)
  }

  /** A like adds one to the total for each copy of the post in the list, and its removal takes one away. */
  lemma {:induction false} LikedTotal(posts: seq<ShownPost>, postID: int, status: bool)
    ensures TotalLikes(Liked(posts, postID, status))
      == TotalLikes(posts) + (if status then 1 else -1) * CountId(posts, postID)
  {
    if posts != [] {
      LikedTotal(posts[1..], postID, status);
      assert Liked(posts, postID, status)[1..] == Liked(posts[1..], postID, status);
    }
  }

  // ---------------------------------------------------------------------------
  // The store

  class PostStore {
    var data: PostPage
    var myPost: PostPage
    var isLoading: bool
    var isLoadingForm: bool
    var error: Notice
    var errorForm: Notice

    /** The provider's initial state: two empty lists on page 1, no flag raised, no notice. */
    constructor ()
      ensures data == EmptyPage && myPost == EmptyPage
      ensures !isLoading && !isLoadingForm && error == Cleared && errorForm == Cleared
    {
      data, myPost := EmptyPage, EmptyPage;
      isLoading, isLoadingForm := false, false;
      error, errorForm := Cleared, Cleared;
    }

    /**
     * `getPostList(page)`: without a stored token, or when the request fails,
     * only the error notice changes; otherwise the feed becomes `Paged`.
     */
    method GetPostList(page: int, hasToken: bool, outcome: Fetch<PageResponse>)
      modifies this
      ensures hasToken && outcome.Fetched? ==> data == Paged(old(data.post), page, outcome.data) && error == Cleared
      ensures !hasToken ==> data == old(data) && error == ErrorNotice(Absent)
      ensures hasToken && outcome.Failed? ==> data == old(data) && error == ErrorNotice(outcome.errores)
      ensures hasToken && outcome.Failed? && outcome.errores.Str? ==> error == Notice("error", outcome.errores.s)
      ensures !hasToken || (outcome.Failed? && !outcome.errores.Str?) ==> error == Notice("error", FallbackMessage)
      ensures myPost == old(myPost) && isLoadingForm == old(isLoadingForm) && errorForm == old(errorForm)
      ensures !isLoading
    {
      error := Cleared;
      isLoading := true;
      var result := if hasToken then outcome else Failed(Absent);
      match result {
        case Fetched(r) =>
          data := Paged(data.post, page, r);
        case Failed(errores) =>
          error := ErrorNotice(errores);
      }
      // the timer of the `finally` block
      isLoading := false;
    }

    /**
     * `getPostListById(userID, page)`: as `getPostList`, but the page goes to
     * `myPost`, and a later page is appended to the feed's list, not to
     * `myPost`'s own (see `ByUserPageUsesFeed`). The user id only selects
     * the request's path.
     */
    method GetPostListById(userID: int, page: int, hasToken: bool, outcome: Fetch<PageResponse>)
      modifies this
      ensures hasToken && outcome.Fetched? ==> myPost == Paged(old(data.post), page, outcome.data) && error == Cleared
      ensures !hasToken ==> myPost == old(myPost) && error == ErrorNotice(Absent)
      ensures hasToken && outcome.Failed? ==> myPost == old(myPost) && error == ErrorNotice(outcome.errores)
      ensures hasToken && outcome.Failed? && outcome.errores.Str? ==> error == Notice("error", outcome.errores.s)
      ensures !hasToken || (outcome.Failed? && !outcome.errores.Str?) ==> error == Notice("error", FallbackMessage)
      ensures data == old(data) && isLoadingForm == old(isLoadingForm) && errorForm == old(errorForm)
      ensures !isLoading
    {
      error := Cleared;
      isLoading := true;
      var result := if hasToken then outcome else Failed(Absent);
      match result {
        case Fetched(r) =>
          myPost := Paged(data.post, page, r);
        case Failed(errores) =>
          error := ErrorNotice(errores);
      }
      isLoading := false;
    }

    /**
     * `CreatePostUser(post)`: the created post goes in front of the feed and
     * the answer is `true`; on failure the form's notice is set and the
     * answer is `false`.
     */
    method CreatePostUser(hasToken: bool, outcome: Fetch<ShownPost>) returns (status: bool)
      modifies this
      ensures status <==> hasToken && outcome.Fetched?
      ensures status ==> data == old(data).(post := [outcome.data] + old(data.post)) && errorForm == Cleared
      ensures !hasToken ==> data == old(data) && errorForm == ErrorNotice(Absent)
      ensures hasToken && outcome.Failed? ==> data == old(data) && errorForm == ErrorNotice(outcome.errores)
      ensures hasToken && outcome.Failed? && outcome.errores.Str? ==> errorForm == Notice("error", outcome.errores.s)
      ensures !hasToken || (outcome.Failed? && !outcome.errores.Str?) ==> errorForm == Notice("error", FallbackMessage)
      ensures myPost == old(myPost) && isLoading == old(isLoading) && error == old(error)
      ensures !isLoadingForm
    {
      errorForm := Cleared;
      isLoadingForm := true;
      var result := if hasToken then outcome else Failed(Absent);
      match result {
        case Fetched(p) =>
          data := data.(post := [p] + data.post);
          status := true;
        case Failed(errores) =>
          errorForm := ErrorNotice(errores);
          status := false;
      }
      isLoadingForm := false;
    }

    /** `updateHasLikeUser(postID, status)`: the feed's posts with that id take the new like; nothing else changes. */
    method UpdateHasLikeUser(postID: int, status: bool)
      modifies this
      ensures data == old(data).(post := Liked(old(data.post), postID, status))
      ensures myPost == old(myPost) && isLoading == old(isLoading) && isLoadingForm == old(isLoadingForm)
      ensures error == old(error) && errorForm == old(errorForm)
    {
      data := data.(post := Liked(data.post, postID, status));
    }

    /** `updateHasLikeUserMtpost(postID, status)`: the same update on the user's own posts; the feed is untouched. */
    method UpdateHasLikeUserMtpost(postID: int, status: bool)
      modifies this
      ensures myPost == old(myPost).(post := Liked(old(myPost.post), postID, status))
      ensures data == old(data) && isLoading == old(isLoading) && isLoadingForm == old(isLoadingForm)
      ensures error == old(error) && errorForm == old(errorForm)
    {
      myPost := myPost.(post := Liked(myPost.post, postID, status));
    }
  }
}

=== FILE: post_router.dfy ===
/**
 * The post service's routes: the full listing, the paginated listing with
 * its filter and sort options, a user's posts, one post, and post creation
 * with its images inside one transaction.
 */
module PostRouter {
  import opened Wrappers
  import opened Validation
  import opened Sequences
  import opened Records
  import opened Http
  import opened Storage
  import opened Pagination

  /** A post as the routes return it: the row, its likes, its images, and `likeCount`. */
  datatype PostView = PostView(row: PostRow, likes: seq<LikeRow>, images: seq<ImageRow>, likeCount: int)

  /**
   * The `Like` and `PostImage` relations of the post's `include`, followed
   * by `likeCount: post.Like.length`. The `User { id, email }` summaries
   * the include also joins, for the author and for each like, are not part
   * of this view.
   */
  function View(t: Tables, p: PostRow): (v: PostView)
    ensures v.row == p
    ensures v.likeCount == |v.likes|
    ensures forall i | 0 <= i < |v.likes| :: v.likes[i] in t.likes && v.likes[i].postId == p.id
    ensures forall i | 0 <= i < |t.likes| && t.likes[i].postId == p.id :: t.likes[i] in v.likes
    ensures forall i | 0 <= i < |v.images| :: v.images[i] in t.images && v.images[i].postId == p.id
    ensures forall i | 0 <= i < |t.images| && t.images[i].postId == p.id :: t.images[i] in v.images
  {
    var likes := LikesOf(t.likes, p.id);
    LikesOfMembers(t.likes, p.id);
    ImagesOfMembers(t.images, p.id);
    PostView(p, likes, ImagesOf(t.images, p.id), |likes|)
  }

  function Views(t: Tables, posts: seq<PostRow>): (vs: seq<PostView>)
    ensures |vs| == |posts|
    ensures forall i | 0 <= i < |posts| :: vs[i] == View(t, posts[i])
  {
    if posts == [] then [] else [View(t, posts[0])] + Views(t, posts[1..])
  }

  /** The post rows of a list of views, in order. */
  function Rows(vs: seq<PostView>): (rows: seq<PostRow>)
    ensures |rows| == |vs|
    ensures forall i | 0 <= i < |vs| :: rows[i] == vs[i].row
  {
    if vs == [] then [] else [vs[0].row] + Rows(vs[1..])
  }

  /** The views of some rows are views of exactly those rows, in order. */
  lemma RowsOfViews(t: Tables, posts: seq<PostRow>)
    ensures Rows(Views(t, posts)) == posts
  {
    assert forall i | 0 <= i < |posts| :: Rows(Views(t, posts))[i] == posts[i];
  }

  /** `orderBy: { [key]: order }` for the keys a post listing accepts. */
  function PostOrder(key: string, order: string): (PostRow, PostRow) -> bool {
    if key == "id" then
      (a: PostRow, b: PostRow) => if order == "asc" then a.id <= b.id else a.id >= b.id
    else
      (a: PostRow, b: PostRow) => if order == "asc" then a.createdAt <= b.createdAt else a.createdAt >= b.createdAt
  }

  lemma PostOrderTotal(key: string, order: string)
    ensures TotalPreorder(PostOrder(key, order))
  {
  }

  // ---------------------------------------------------------------------------
  // GET /get-all-posts

  datatype AllPosts = AllPosts(posts: seq<PostView>, totalPosts: int, message: string)

  function GetAllPosts(t: Tables, fault: Option<string>): (r: Reply<AllPosts>)
    ensures r.Crashed? <==> fault.Some?
    ensures r.Done? <==> fault.None?
    ensures r.Done? ==> r.code == 200 && r.body.totalPosts == |r.body.posts| == |t.posts|
  {
    if fault.Some? then Crashed(fault.value)
    else
      var rows := SortBy(t.posts, PostOrder("createdAt", "desc"));
      Done(200, AllPosts(Views(t, rows), |rows|, "Posts obtenidos exitosamente"))
  }

  /** The full listing holds every post once, newest first. */
  lemma AllPostsNewestFirst(t: Tables)
    ensures var r := GetAllPosts(t, None);
      && multiset(seq(|r.body.posts|, i requires 0 <= i < |r.body.posts| => r.body.posts[i].row)) == multiset(t.posts)
      && forall i, j | 0 <= i < j < |r.body.posts| :: r.body.posts[i].row.createdAt >= r.body.posts[j].row.createdAt
  {
    var rows := SortBy(t.posts, PostOrder("createdAt", "desc"));
    PostOrderTotal("createdAt", "desc");
    SortSorted(t.posts, PostOrder("createdAt", "desc"));
    var r := GetAllPosts(t, None);
    assert seq(|r.body.posts|, i requires 0 <= i < |r.body.posts| => r.body.posts[i].row) == rows;
  }

  // ---------------------------------------------------------------------------
  // GET /get-posts-paginated

  datatype ListQuery = ListQuery(page: Value, limit: Value, userId: Value, sortBy: Value, order: Value)

  datatype Filters = Filters(userId: Option<int>, sortBy: string, order: string)

  datatype PostsPage = PostsPage(posts: seq<PostView>, pagination: Page, filters: Filters, message: string)

  const SortKeys: seq<string> := ["createdAt", "likeCount", "id"]
  const Orders: seq<string> := ["asc", "desc"]

  function PageErrors(page: Value): seq<string> {
    Optional(page, Check(IsIntAtLeast(page, 1), "La página debe ser un número entero mayor a 0"))
  }

  function ListErrors(q: ListQuery): (errors: seq<string>)
    ensures errors == [] <==>
      && (q.page.Absent? || IsIntAtLeast(q.page, 1))
      && (q.limit.Absent? || IsIntBetween(q.limit, 1, 100))
      && (q.userId.Absent? || IsIntAtLeast(q.userId, 1))
      && (q.sortBy.Absent? || IsIn(q.sortBy, SortKeys))
      && (q.order.Absent? || IsIn(q.order, Orders))
  {
    PageErrors(q.page)
    + Optional(q.limit, Check(IsIntBetween(q.limit, 1, 100), "El límite debe ser un número entre 1 y 100"))
    + Optional(q.userId, Check(IsIntAtLeast(q.userId, 1), "El ID de usuario debe ser un número válido"))
    + Optional(q.sortBy, Check(IsIn(q.sortBy, SortKeys), "El campo para ordenar no es válido"))
    + Optional(q.order, Check(IsIn(q.order, Orders), "El orden debe ser 'asc' o 'desc'"))
  }

  /** `where: { userId }` when a user is given, every post otherwise. */
  function Selected(posts: seq<PostRow>, userId: Option<int>): (r: seq<PostRow>)
    ensures userId.None? ==> r == posts
    ensures forall i | 0 <= i < |r| :: r[i] in posts && (userId.Some? ==> r[i].userId == userId.value)
    ensures userId.Some? ==> forall i | 0 <= i < |posts| && posts[i].userId == userId.value :: posts[i] in r
  {
    if userId.None? then posts else PostsByMembers(posts, userId.value); PostsBy(posts, userId.value)
  }

  /**
   * `sortBy = "likeCount"` is accepted but ordered by `createdAt`; the
   * other keys order by themselves.
   */
  function OrderKey(sortBy: string): (key: string)
    ensures sortBy == "likeCount" ==> key == "createdAt"
    ensures sortBy != "likeCount" ==> key == sortBy
  {
    if sortBy == "likeCount" then "createdAt" else sortBy
  }

  /** `skip` and `take` applied to the selected posts in the requested order. */
  function Window(posts: seq<PostRow>, key: string, order: string, page: int, limit: int): seq<PostRow>
    requires page >= 1 && limit >= 1
  {
    Take(Drop(SortBy(posts, PostOrder(key, order)), Skip(page, limit)), limit)
  }

  /** A window holds at most `limit` of the posts it was cut from. */
  lemma WindowOf(posts: seq<PostRow>, key: string, order: string, page: int, limit: int)
    requires page >= 1 && limit >= 1
    ensures |Window(posts, key, order, page, limit)| <= limit
    ensures forall i | 0 <= i < |Window(posts, key, order, page, limit)| :: Window(posts, key, order, page, limit)[i] in posts
  {
    MulMonotonic(0, page - 1, limit);
    var sorted := SortBy(posts, PostOrder(key, order));
    var w := Take(Drop(sorted, Skip(page, limit) as nat), limit as nat);
    assert Window(posts, key, order, page, limit) == w;
    WindowFrom(sorted, Skip(page, limit) as nat, limit as nat);
    forall i | 0 <= i < |w| ensures w[i] in posts {
      assert w[i] in multiset(sorted);
    }
  }

  /**
   * The window of a page is the slice of the sorted posts right after the
   * skipped rows: `limit` of them, or those that remain when fewer do.
   */
  lemma WindowSlice(posts: seq<PostRow>, key: string, order: string, page: int, limit: int)
    requires page >= 1 && limit >= 1
    ensures Skip(page, limit) >= 0
    ensures |Window(posts, key, order, page, limit)|
      == if |posts| <= Skip(page, limit) then 0
         else if Skip(page, limit) + limit <= |posts| then limit
         else |posts| - Skip(page, limit)
    ensures forall i | 0 <= i < |Window(posts, key, order, page, limit)| ::
      Window(posts, key, order, page, limit)[i] == SortBy(posts, PostOrder(key, order))[Skip(page, limit) + i]
  {
    MulMonotonic(0, page - 1, limit);
    var sorted := SortBy(posts, PostOrder(key, order));
    var d := Drop(sorted, Skip(page, limit) as nat);
    assert Window(posts, key, order, page, limit) == Take(d, limit as nat);
  }

  /** The posts of a window are in the requested order. */
  lemma WindowSorted(posts: seq<PostRow>, key: string, order: string, page: int, limit: int)
    requires page >= 1 && limit >= 1
    ensures SortedBy(Window(posts, key, order, page, limit), PostOrder(key, order))
  {
    MulMonotonic(0, page - 1, limit);
    var le := PostOrder(key, order);
    var sorted := SortBy(posts, le);
    PostOrderTotal(key, order);
    SortSorted(posts, le);
    var d := Drop(sorted, Skip(page, limit) as nat);
    SortedSuffix(sorted, |sorted| - |d|, le);
    SortedPrefix(d, |Take(d, limit as nat)|, le);
    assert Window(posts, key, order, page, limit) == Take(d, limit as nat);
  }

  /** Paging through a listing reaches every post: each is shown on one of the `totalPages` pages. */
  lemma EveryPostOnAPage(posts: seq<PostRow>, key: string, order: string, limit: int, p: PostRow)
    requires limit >= 1 && p in posts
    ensures exists page :: 1 <= page <= CeilDiv(|posts|, limit) && p in Window(posts, key, order, page, limit)
  {
    var sorted := SortBy(posts, PostOrder(key, order));
    assert p in multiset(sorted);
    var k :| 0 <= k < |sorted| && sorted[k] == p;
    var page := k / limit + 1;
    RowOnPage(|posts|, limit, k);
    WindowSlice(posts, key, order, page, limit);
    assert Window(posts, key, order, page, limit)[k - Skip(page, limit)] == p;
  }

  /**
   * GET /get-posts-paginated behind the guard. Defaults: page 1, limit 10,
   * sortBy "createdAt", order "desc"; `filters.userId` is null when no
   * user is given.
   */
  function GetPostsPaginated(t: Tables, q: ListQuery, fault: Option<string>): (r: Reply<PostsPage>)
    ensures r.Rejected? <==> ListErrors(q) != []
    ensures r.Crashed? <==> ListErrors(q) == [] && fault.Some?
    ensures r.Done? <==> ListErrors(q) == [] && fault.None?
    ensures r.Done? ==>
      && r.code == 200
      && r.body.filters == Filters(if q.userId.Absent? then None else Some(IntOr(q.userId, 0)),
                                   TextOr(q.sortBy, "createdAt"), TextOr(q.order, "desc"))
      && 1 <= IntOr(q.page, 1) && 1 <= IntOr(q.limit, 10) <= 100
      && r.body.pagination == Paginate(|Selected(t.posts, r.body.filters.userId)|, IntOr(q.page, 1), IntOr(q.limit, 10))
      && Rows(r.body.posts)
         == Window(Selected(t.posts, r.body.filters.userId), OrderKey(r.body.filters.sortBy), r.body.filters.order,
                   IntOr(q.page, 1), IntOr(q.limit, 10))
      && SortedBy(Rows(r.body.posts), PostOrder(OrderKey(r.body.filters.sortBy), r.body.filters.order))
  {
    var errors := ListErrors(q);
    if errors != [] then Rejected(errors)
    else if fault.Some? then Crashed(fault.value)
    else
      ListInput(q);
      var userId := if q.userId.Absent? then None else Some(IntOf(q.userId).value);
      Done(200, PostsListing(t, userId, TextOr(q.sortBy, "createdAt"), TextOr(q.order, "desc"), IntOr(q.page, 1), IntOr(q.limit, 10)))
  }

  /** The body of an accepted listing: the window of the selected posts, the pagination block and the filters. */
  function PostsListing(t: Tables, userId: Option<int>, sortBy: string, order: string, page: int, limit: int): (p: PostsPage)
    requires page >= 1 && limit >= 1
    ensures p.pagination == Paginate(|Selected(t.posts, userId)|, page, limit)
    ensures p.filters == Filters(userId, sortBy, order)
    ensures Rows(p.posts) == Window(Selected(t.posts, userId), OrderKey(sortBy), order, page, limit)
    ensures SortedBy(Rows(p.posts), PostOrder(OrderKey(sortBy), order))
    ensures |p.posts| <= limit
    ensures forall i | 0 <= i < |p.posts| :: p.posts[i].row in Selected(t.posts, userId)
  {
    var selected := Selected(t.posts, userId);
    var rows := Window(selected, OrderKey(sortBy), order, page, limit);
    WindowOf(selected, OrderKey(sortBy), order, page, limit);
    WindowSorted(selected, OrderKey(sortBy), order, page, limit);
    RowsOfViews(t, rows);
    PostsPage(Views(t, rows), Paginate(|selected|, page, limit), Filters(userId, sortBy, order),
              "Posts obtenidos exitosamente")
  }

  /** Asking to sort by `likeCount` returns exactly the posts and pages that sorting by `createdAt` returns. */
  lemma LikeCountSortsByCreatedAt(t: Tables, q: ListQuery, fault: Option<string>)
    requires q.sortBy == Str("likeCount")
    ensures var r, r' := GetPostsPaginated(t, q, fault), GetPostsPaginated(t, q.(sortBy := Str("createdAt")), fault);
      && (r.Done? <==> r'.Done?)
      && (r.Done? ==> r.body.posts == r'.body.posts && r.body.pagination == r'.body.pagination
                      && r.body.filters.sortBy == "likeCount")
  {
    var q' := q.(sortBy := Str("createdAt"));
    SortKeyAccepted(q, Str("createdAt"));
    if ListErrors(q) == [] && fault.None? {
      PaginatedBody(t, q, fault);
      PaginatedBody(t, q', fault);
      var userId := if q.userId.Absent? then None else Some(IntOr(q.userId, 0));
      SameOrderKey(t, userId, "likeCount", "createdAt", TextOr(q.order, "desc"), IntOr(q.page, 1), IntOr(q.limit, 10));
    }
  }

  /** Replacing one accepted sort key by another changes nothing in the validation. */
  lemma SortKeyAccepted(q: ListQuery, sortBy: Value)
    requires IsIn(q.sortBy, SortKeys) && IsIn(sortBy, SortKeys)
    ensures ListErrors(q.(sortBy := sortBy)) == ListErrors(q)
  {
  }

  /** Two sort keys that order the same way give the same posts. */
  lemma SameOrderKey(t: Tables, userId: Option<int>, a: string, b: string, order: string, page: int, limit: int)
    requires page >= 1 && limit >= 1 && OrderKey(a) == OrderKey(b)
    ensures PostsListing(t, userId, a, order, page, limit).posts == PostsListing(t, userId, b, order, page, limit).posts
    ensures PostsListing(t, userId, a, order, page, limit).pagination == PostsListing(t, userId, b, order, page, limit).pagination
  {
  }

  /** An accepted listing without a database error answers 200 with the listing of its parameters. */
  lemma PaginatedBody(t: Tables, q: ListQuery, fault: Option<string>)
    requires ListErrors(q) == [] && fault.None?
    ensures IntOr(q.page, 1) >= 1 && IntOr(q.limit, 10) >= 1
    ensures GetPostsPaginated(t, q, fault)
      == Done(200, PostsListing(t, if q.userId.Absent? then None else Some(IntOr(q.userId, 0)),
                                TextOr(q.sortBy, "createdAt"), TextOr(q.order, "desc"), IntOr(q.page, 1), IntOr(q.limit, 10)))
  {
    ListInput(q);
  }

  /** An accepted listing query has a page of at least 1 and a limit from 1 to 100. */
  lemma ListInput(q: ListQuery)
    requires ListErrors(q) == []
    ensures IntOr(q.page, 1) >= 1 && 1 <= IntOr(q.limit, 10) <= 100
    ensures !q.userId.Absent? ==> IntOf(q.userId).Some?
  {
    if !q.page.Absent? {
      assert IsIntAtLeast(q.page, 1);
    }
    if !q.limit.Absent? {
      assert IsIntBetween(q.limit, 1, 100);
    }
  }

  /** A query with no parameters gives the first ten posts of all users, newest first. */
  lemma PaginatedDefaults(t: Tables)
    ensures var r := GetPostsPaginated(t, ListQuery(Absent, Absent, Absent, Absent, Absent), None);
      && r.Done?
      && r.body.pagination == Paginate(|t.posts|, 1, 10)
      && r.body.filters == Filters(None, "createdAt", "desc")
      && r.body.posts == Views(t, Take(SortBy(t.posts, PostOrder("createdAt", "desc")), 10))
  {
    var sorted := SortBy(t.posts, PostOrder("createdAt", "desc"));
    assert Drop(sorted, 0) == sorted;
  }

  // ---------------------------------------------------------------------------
  // GET /get-posts-by-user/:userId

  datatype UserQuery = UserQuery(userId: Value, page: Value, limit: Value)

  datatype UserPostsPage = UserPostsPage(posts: seq<PostView>, pagination: Page, userId: int, message: string)

  /**
   * The user id goes through the same chain as the creation form's
   * (`UserIdErrors`); the limit here is 1..50.
   */
  function UserQueryErrors(users: seq<UserRecord>, q: UserQuery): (errors: seq<string>)
    ensures errors == [] <==>
      && IsIntAtLeast(q.userId, 1) && IntOf(q.userId).value in UserIds(users)
      && (q.page.Absent? || IsIntAtLeast(q.page, 1))
      && (q.limit.Absent? || IsIntBetween(q.limit, 1, 50))
  {
    UserIdErrors(users, q.userId)
    + PageErrors(q.page)
    + Optional(q.limit, Check(IsIntBetween(q.limit, 1, 50), "El límite debe ser un número entre 1 y 50"))
  }

  /** GET /get-posts-by-user/:userId behind the guard: that user's posts, newest first, page 1 and limit 10 by default. */
  function GetPostsByUser(t: Tables, q: UserQuery, fault: Option<string>): (r: Reply<UserPostsPage>)
    ensures r.Rejected? <==> UserQueryErrors(t.users, q) != []
    ensures r.Crashed? <==> UserQueryErrors(t.users, q) == [] && fault.Some?
    ensures r.Done? <==> UserQueryErrors(t.users, q) == [] && fault.None?
    ensures r.Done? ==>
      && r.code == 200
      && r.body.userId == IntOr(q.userId, 0)
      && 1 <= IntOr(q.page, 1) && 1 <= IntOr(q.limit, 10) <= 50
      && r.body.pagination == Paginate(|PostsBy(t.posts, r.body.userId)|, IntOr(q.page, 1), IntOr(q.limit, 10))
      && Rows(r.body.posts) == Window(PostsBy(t.posts, r.body.userId), "createdAt", "desc", IntOr(q.page, 1), IntOr(q.limit, 10))
      && SortedBy(Rows(r.body.posts), PostOrder("createdAt", "desc"))
      && forall i | 0 <= i < |r.body.posts| :: r.body.posts[i].row in t.posts && r.body.posts[i].row.userId == r.body.userId
  {
    var errors := UserQueryErrors(t.users, q);
    if errors != [] then Rejected(errors)
    else if fault.Some? then Crashed(fault.value)
    else
      UserQueryInput(t.users, q);
      Done(200, UserPostsListing(t, IntOf(q.userId).value, IntOr(q.page, 1), IntOr(q.limit, 10)))
  }

  /** An accepted per-user query names a user and has a page of at least 1 and a limit from 1 to 50. */
  lemma UserQueryInput(users: seq<UserRecord>, q: UserQuery)
    requires UserQueryErrors(users, q) == []
    ensures IntOf(q.userId).Some? && IntOr(q.userId, 0) == IntOf(q.userId).value
    ensures IntOr(q.page, 1) >= 1 && 1 <= IntOr(q.limit, 10) <= 50
  {
    if !q.page.Absent? {
      assert IsIntAtLeast(q.page, 1);
    }
    if !q.limit.Absent? {
      assert IsIntBetween(q.limit, 1, 50);
    }
  }

  /** The body of an accepted per-user listing: the window of that user's posts, newest first. */
  function UserPostsListing(t: Tables, userId: int, page: int, limit: int): (p: UserPostsPage)
    requires page >= 1 && limit >= 1
    ensures p.userId == userId
    ensures p.pagination == Paginate(|PostsBy(t.posts, userId)|, page, limit)
    ensures Rows(p.posts) == Window(PostsBy(t.posts, userId), "createdAt", "desc", page, limit)
    ensures SortedBy(Rows(p.posts), PostOrder("createdAt", "desc"))
    ensures |p.posts| <= limit
    ensures forall i | 0 <= i < |p.posts| :: p.posts[i].row in t.posts && p.posts[i].row.userId == userId
  {
    var selected := PostsBy(t.posts, userId);
    PostsByMembers(t.posts, userId);
    var rows := Window(selected, "createdAt", "desc", page, limit);
    WindowOf(selected, "createdAt", "desc", page, limit);
    WindowSorted(selected, "createdAt", "desc", page, limit);
    RowsOfViews(t, rows);
    UserPostsPage(Views(t, rows), Paginate(|selected|, page, limit), userId,
                  "Posts del usuario obtenidos exitosamente")
  }

  /** The same limit of 75 passes the paginated listing and is refused with 422 by the per-user listing. */
  lemma LimitBoundsDiffer(t: Tables, userId: Value)
    ensures GetPostsPaginated(t, ListQuery(Absent, Str("75"), Absent, Absent, Absent), None).Done?
    ensures GetPostsByUser(t, UserQuery(userId, Absent, Str("75")), None).Rejected?
  {
    assert IntOf(Str("75")) == Some(75) by {
      assert DigitsValue("75") == 75 by {
        assert "75"[..1] == "7";
      }
    }
  }

  // ---------------------------------------------------------------------------
  // GET /get-post/:postId

  datatype OnePost = OnePost(post: PostView, message: string)

  function PostIdErrors(postId: Value): (errors: seq<string>)
    ensures errors == [] <==> IsIntAtLeast(postId, 1)
  {
    Check(NotEmpty(postId), "El ID del post es requerido")
    + Check(IsIntAtLeast(postId, 1), "El ID del post debe ser un número válido")
  }

  /** GET /get-post/:postId behind the guard: the post with its likes, or 404 when there is none. */
  function GetPost(t: Tables, postId: Value, fault: Option<string>): (r: Reply<OnePost>)
    ensures r.Rejected? <==> PostIdErrors(postId) != []
    ensures r.Refused? <==> PostIdErrors(postId) == [] && fault.None? && IntOr(postId, 0) !in PostIds(t.posts)
    ensures r.Refused? ==> r == Refused(404, "El post no fue encontrado")
    ensures r.Crashed? <==> PostIdErrors(postId) == [] && fault.Some?
    ensures r.Done? <==> PostIdErrors(postId) == [] && fault.None? && IntOr(postId, 0) in PostIds(t.posts)
    ensures r.Done? ==>
      && r.code == 200 && r.body.post.row in t.posts && r.body.post.row.id == IntOr(postId, 0)
      && r.body.post == View(t, r.body.post.row)
      && r.body.post.likeCount == |LikesOf(t.likes, r.body.post.row.id)|
  {
    var errors := PostIdErrors(postId);
    if errors != [] then Rejected(errors)
    else if fault.Some? then Crashed(fault.value)
    else
      match FindPost(t.posts, IntOf(postId).value)
      case None => Refused(404, "El post no fue encontrado")
      case Some(p) => Done(200, OnePost(View(t, p), "Post obtenido exitosamente"))
  }

  // ---------------------------------------------------------------------------
  // POST /create-post

  /** One element of `images`, each field as sent. */
  datatype ImageInput = ImageInput(nameServer: Value, nameClient: Value, ext: Value, size: Value)

  /**
   * The `images` field: absent, an array, or something else. The wildcard
   * `images.*` also expands over the values of an object, so `NotAList`
   * keeps those values in key order (none for a string, number or boolean).
   */
  datatype ImagesField = NoImages | ImageList(items: seq<ImageInput>) | NotAList(entries: seq<ImageInput>)

  datatype CreateBody = CreateBody(message: Value, userId: Value, images: ImagesField)

  /** The messages a wildcard chain `images.*.<field>` reports, one per element that fails. */
  function EachItem(items: seq<ImageInput>, ok: ImageInput -> bool, message: string): (errors: seq<string>)
    ensures errors == [] <==> forall i | 0 <= i < |items| :: ok(items[i])
  {
    if items == [] then [] else Check(ok(items[0]), message) + EachItem(items[1..], ok, message)
  }

  /** `images.*.nameServer`, `images.*.nameClient` and `images.*.ext`: optional strings. */
  predicate ServerOk(m: ImageInput) { m.nameServer.Absent? || IsString(m.nameServer) }
  predicate ClientOk(m: ImageInput) { m.nameClient.Absent? || IsString(m.nameClient) }
  predicate ExtOk(m: ImageInput) { m.ext.Absent? || IsString(m.ext) }

  /** `images.*.size`: an optional integer of at least 1. */
  predicate SizeOk(m: ImageInput) { m.size.Absent? || IsIntAtLeast(m.size, 1) }

  /** An image entry whose every sent field has the right type. */
  predicate ImageOk(m: ImageInput) {
    ServerOk(m) && ClientOk(m) && ExtOk(m) && SizeOk(m)
  }

  const NotAnArray: string := "Las imágenes deben ser un arreglo"

  /** The four wildcard chains `images.*.<field>`, in the order they are declared. */
  function EntryErrors(items: seq<ImageInput>): (errors: seq<string>)
    ensures errors == [] <==> forall i | 0 <= i < |items| :: ImageOk(items[i])
  {
    var a, b, c, d := "El nombre del servidor debe ser texto", "El nombre del cliente debe ser texto",
                      "La extensión debe ser texto", "El tamaño debe ser un número válido";
    EachImage(items, a, b, c, d);
    EachItem(items, ServerOk, a) + EachItem(items, ClientOk, b) + EachItem(items, ExtOk, c) + EachItem(items, SizeOk, d)
  }

  /**
   * The checks on `images` and, through the wildcard `images.*`, on each of
   * its entries. A value that is not an array is refused first, and an
   * object's values are still checked by the wildcard chains.
   */
  function ImagesErrors(images: ImagesField): (errors: seq<string>)
    ensures errors == [] <==> !images.NotAList? && forall i | 0 <= i < |Items(images)| :: ImageOk(Items(images)[i])
    ensures images.NotAList? ==>
      && errors != [] && errors[0] == NotAnArray
      && (|errors| == 1 <==> forall i | 0 <= i < |images.entries| :: ImageOk(images.entries[i]))
  {
    match images
    case NoImages => []
    case NotAList(entries) => [NotAnArray] + EntryErrors(entries)
    case ImageList(items) =>
      assert Items(images) == items;
      EntryErrors(items)
  }

  /** The four wildcard chains report nothing exactly when every entry is well typed. */
  lemma EachImage(items: seq<ImageInput>, a: string, b: string, c: string, d: string)
    ensures (EachItem(items, ServerOk, a) + EachItem(items, ClientOk, b) + EachItem(items, ExtOk, c)
             + EachItem(items, SizeOk, d) == [])
        <==> forall i | 0 <= i < |items| :: ImageOk(items[i])
  {
    var e1, e2, e3, e4 := EachItem(items, ServerOk, a), EachItem(items, ClientOk, b), EachItem(items, ExtOk, c), EachItem(items, SizeOk, d);
    assert e1 + e2 + e3 + e4 == [] <==> e1 == [] && e2 == [] && e3 == [] && e4 == [] by {
      assert |e1 + e2 + e3 + e4| == |e1| + |e2| + |e3| + |e4|;
    }
  }

  const MaxMessageLength: int := 2000

  /** The checks on `message`: present, a string, and 1 to 2000 characters once trimmed, as `isLength` counts them. */
  function MessageErrors(message: Value): (errors: seq<string>)
    ensures errors == [] <==> message.Str? && 1 <= Measure(Trim(message.s)) <= MaxMessageLength
  {
    var e1 := Check(NotEmpty(message), "El mensaje es requerido");
    var e2 := Check(IsString(message), "El mensaje debe ser texto");
    var e3 := Check(1 <= Measure(Trim(Text(message))) <= MaxMessageLength, "El mensaje debe tener entre 1 y 2000 caracteres");
    assert |e1 + e2 + e3| == |e1| + |e2| + |e3|;
    e1 + e2 + e3
  }

  const NoSuchUser: string := "El usuario no existe"

  /**
   * The checks on `userId`: present, an integer of at least 1, and the id
   * of an existing user. The chain has no `bail()`, so the lookup runs on
   * what `toInt` produced even when `isInt` failed: an integer below 1 gets
   * both messages.
   */
  function UserIdErrors(users: seq<UserRecord>, userId: Value): (errors: seq<string>)
    ensures errors == [] <==> IsIntAtLeast(userId, 1) && IntOf(userId).value in UserIds(users)
    ensures IntOf(userId).Some? ==> (NoSuchUser in errors <==> IntOf(userId).value !in UserIds(users))
  {
    var lookup := if IntOf(userId).Some? then Check(IntOf(userId).value in UserIds(users), NoSuchUser) else [];
    var format := Check(NotEmpty(userId), "El ID de usuario es requerido")
      + Check(IsIntAtLeast(userId, 1), "El ID de usuario debe ser un número válido");
    assert NoSuchUser !in format by {
      assert NoSuchUser[3] == 'u';
    }
    format + lookup
  }

  /** An id of 0 or below that no user has is refused twice: as a number out of range and as a missing user. */
  lemma NonPositiveIdLooksUp(users: seq<UserRecord>, n: int)
    requires n <= 0 && n !in UserIds(users)
    ensures UserIdErrors(users, Num(n)) == ["El ID de usuario debe ser un número válido", NoSuchUser]
  {
    IntOfNumber(n);
  }

  /** Every message of the create-post validation chain, in the order the chains run. */
  function CreateErrors(users: seq<UserRecord>, body: CreateBody): (errors: seq<string>)
    ensures errors == [] <==>
      && body.message.Str? && 1 <= Measure(Trim(body.message.s)) <= MaxMessageLength
      && IsIntAtLeast(body.userId, 1) && IntOf(body.userId).value in UserIds(users)
      && !body.images.NotAList? && forall i | 0 <= i < |Items(body.images)| :: ImageOk(Items(body.images)[i])
  {
    MessageErrors(body.message) + UserIdErrors(users, body.userId) + ImagesErrors(body.images)
  }

  /** The rows `postImage.createMany` inserts: one per element, in order, each pointing at the new post. */
  function NewImages(firstId: int, postId: int, items: seq<ImageInput>): (rows: seq<ImageRow>)
    decreases items
    ensures |rows| == |items|
    ensures forall i | 0 <= i < |items| ::
      && rows[i].postId == postId && rows[i].id == firstId + i
      && rows[i].nameServer == items[i].nameServer && rows[i].nameClient == items[i].nameClient
      && rows[i].ext == items[i].ext && rows[i].size == items[i].size
  {
    if items == [] then []
    else
      [ImageRow(firstId, postId, items[0].nameServer, items[0].nameClient, items[0].ext, items[0].size)]
      + NewImages(firstId + 1, postId, items[1..])
  }

  function Items(images: ImagesField): seq<ImageInput> {
    if images.ImageList? then images.items else []
  }

  /** A database error with its Prisma code, raised inside the transaction. */
  datatype DbError = DbError(code: string, detail: string)

  /** The catch block: P2002 is a conflict, P2003 a missing user, anything else 500. */
  function CreateFailure(e: DbError): Reply<OnePost> {
    if e.code == "P2002" then Refused(409, "Ya existe una publicación con estos datos")
    else if e.code == "P2003" then Refused(400, "El usuario especificado no existe")
    else Crashed(e.detail)
  }

  /** The tables, the two counters and the reply after one create-post request. */
  datatype Created = Created(t: Tables, nextPostId: int, nextImageId: int, reply: Reply<OnePost>)

  /**
   * The committed transaction: `post.create`, then `postImage.createMany`
   * with one row per element pointing at the new post, then the post read
   * back with its likes and images.
   */
  function Inserted(t: Tables, nextPostId: int, nextImageId: int, message: string, userId: int,
                    items: seq<ImageInput>, nowMs: int): (c: Created)
    ensures c.reply.Done? && c.reply.code == 201
  {
    var row := PostRow(nextPostId, message, userId, nowMs);
    var images := NewImages(nextImageId, row.id, items);
    var t' := t.(posts := t.posts + [row], images := t.images + images);
    Created(t', nextPostId + 1, nextImageId + |images|,
            Done(201, OnePost(View(t', row), "Publicación creada exitosamente")))
  }

  /** The insertions keep the schema's constraints and the counters above every id in use. */
  lemma NewPostValid(t: Tables, nextPostId: int, nextImageId: int, message: string, userId: int,
                     items: seq<ImageInput>, nowMs: int)
    requires t.Valid() && userId in UserIds(t.users)
    requires forall p | p in t.posts :: p.id < nextPostId
    requires forall m | m in t.images :: m.id < nextImageId
    ensures var c := Inserted(t, nextPostId, nextImageId, message, userId, items, nowMs);
      && c.t.Valid() && c.t.users == t.users && c.t.likes == t.likes
      && (forall p | p in c.t.posts :: p.id < c.nextPostId)
      && (forall m | m in c.t.images :: m.id < c.nextImageId)
  {
    var row := PostRow(nextPostId, message, userId, nowMs);
    AppendValid(t, row, NewImages(nextImageId, row.id, items), nextPostId, nextImageId);
  }

  /** One post row and image rows with fresh ids pointing at it keep the schema's constraints. */
  lemma AppendValid(t: Tables, row: PostRow, images: seq<ImageRow>, nextPostId: int, nextImageId: int)
    requires t.Valid()
    requires forall p | p in t.posts :: p.id < nextPostId
    requires forall m | m in t.images :: m.id < nextImageId
    requires row.id == nextPostId && row.userId in UserIds(t.users)
    requires forall i | 0 <= i < |images| :: images[i].postId == row.id && images[i].id == nextImageId + i
    ensures t.(posts := t.posts + [row], images := t.images + images).Valid()
    ensures forall p | p in t.posts + [row] :: p.id < nextPostId + 1
    ensures forall m | m in t.images + images :: m.id < nextImageId + |images|
  {
    var t' := t.(posts := t.posts + [row], images := t.images + images);
    assert PostIds(t'.posts) == PostIds(t.posts) + {row.id} by {
      forall x | x in t'.posts ensures x in t.posts || x == row { }
    }
    forall a, b | 0 <= a < b < |t'.images| ensures t'.images[a].id != t'.images[b].id {
      if b >= |t.images| && a < |t.images| {
        assert t'.images[a] in t.images;
      }
    }
    forall a, b | 0 <= a < b < |t'.posts| ensures t'.posts[a].id != t'.posts[b].id {
      if b == |t.posts| {
        assert t'.posts[a] in t.posts;
      }
    }
    forall m | m in t'.images ensures m.postId in PostIds(t'.posts) && m.id < nextImageId + |images| {
      if m !in t.images {
        var k :| 0 <= k < |t'.images| && t'.images[k] == m;
        assert images[k - |t.images|] == m;
      }
    }
  }

  /** No like and no image points at the id the next post will receive. */
  lemma FreshPostId(t: Tables, nextPostId: int)
    requires t.Valid()
    requires forall p | p in t.posts :: p.id < nextPostId
    ensures forall l | l in t.likes :: l.postId != nextPostId
    ensures forall m | m in t.images :: m.postId != nextPostId
  {
  }

  /** Read back inside the transaction, the new post has no likes yet and exactly the new images. */
  lemma NewPostView(t: Tables, nextPostId: int, nextImageId: int, message: string, userId: int,
                    items: seq<ImageInput>, nowMs: int)
    requires t.Valid()
    requires forall p | p in t.posts :: p.id < nextPostId
    ensures var row := PostRow(nextPostId, message, userId, nowMs);
      var images := NewImages(nextImageId, nextPostId, items);
      Inserted(t, nextPostId, nextImageId, message, userId, items, nowMs).reply
        == Done(201, OnePost(PostView(row, [], images, 0), "Publicación creada exitosamente"))
  {
    var row := PostRow(nextPostId, message, userId, nowMs);
    var images := NewImages(nextImageId, nextPostId, items);
    var p := ImageOfPost(row.id);
    FreshPostId(t, nextPostId);
    FilterNone(t.likes, OnPost(row.id));
    FilterAppend(t.images, images, p);
    FilterNone(t.images, p);
    FilterAll(images, p);
    var t' := t.(posts := t.posts + [row], images := t.images + images);
    assert LikesOf(t'.likes, row.id) == [];
    assert ImagesOf(t'.images, row.id) == images;
    assert View(t', row) == PostView(row, [], images, 0);
  }

  /** A database whose tables and counters are a valid snapshot is valid. */
  lemma ValidFrom(db: Database, t: Tables)
    requires t.Valid() && db.Snapshot() == t
    requires forall p | p in t.posts :: p.id < db.nextPostId
    requires forall l | l in t.likes :: l.id < db.nextLikeId
    requires forall m | m in t.images :: m.id < db.nextImageId
    ensures db.Valid()
  {
  }

  /** The transaction body, writing into the database. */
  method InsertPost(db: Database, message: string, userId: int, items: seq<ImageInput>, nowMs: int)
    returns (view: PostView)
    requires db.Valid() && userId in UserIds(db.users)
    modifies db
    ensures db.Valid() && db.nextLikeId == old(db.nextLikeId)
    ensures Created(db.Snapshot(), db.nextPostId, db.nextImageId,
                    Done(201, OnePost(view, "Publicación creada exitosamente")))
      == Inserted(old(db.Snapshot()), old(db.nextPostId), old(db.nextImageId), message, userId, items, nowMs)
  {
    var row := PostRow(db.nextPostId, message, userId, nowMs);
    var images := NewImages(db.nextImageId, row.id, items);
    ghost var c := Inserted(db.Snapshot(), db.nextPostId, db.nextImageId, message, userId, items, nowMs);
    NewPostValid(db.Snapshot(), db.nextPostId, db.nextImageId, message, userId, items, nowMs);
    db.posts, db.images, db.nextPostId, db.nextImageId
      := db.posts + [row], db.images + images, db.nextPostId + 1, db.nextImageId + |images|;
    assert db.Snapshot() == c.t && db.nextPostId == c.nextPostId && db.nextImageId == c.nextImageId;
    ValidFrom(db, c.t);
    view := View(db.Snapshot(), row);
    assert c.reply == Done(201, OnePost(view, "Publicación creada exitosamente"));
  }

  /**
   * POST /create-post behind the guard, on values: the validation chain,
   * then the transaction. A database error inside the transaction leaves
   * every table and counter as it was.
   */
  function Create(t: Tables, nextPostId: int, nextImageId: int, body: CreateBody, nowMs: int,
                  fault: Option<DbError>): (c: Created)
  {
    var errors := CreateErrors(t.users, body);
    if errors != [] then Created(t, nextPostId, nextImageId, Rejected(errors))
    else if fault.Some? then Created(t, nextPostId, nextImageId, CreateFailure(fault.value))
    else Inserted(t, nextPostId, nextImageId, Trim(body.message.s), IntOf(body.userId).value, Items(body.images), nowMs)
  }

  /** Which of the three outcomes `Create` takes; a proof step for the lemmas below. */
  lemma CreateCases(t: Tables, nextPostId: int, nextImageId: int, body: CreateBody, nowMs: int,
                    fault: Option<DbError>)
    ensures var c, errors := Create(t, nextPostId, nextImageId, body, nowMs, fault), CreateErrors(t.users, body);
      if errors != [] then c == Created(t, nextPostId, nextImageId, Rejected(errors))
      else if fault.Some? then c == Created(t, nextPostId, nextImageId, CreateFailure(fault.value))
      else c == Inserted(t, nextPostId, nextImageId, Trim(body.message.s), IntOr(body.userId, 0), Items(body.images), nowMs)
  {
  }

  /** An invalid request is answered with the failed checks, and the database is left alone. */
  lemma CreateRejects(t: Tables, nextPostId: int, nextImageId: int, body: CreateBody, nowMs: int,
                      fault: Option<DbError>)
    ensures var c := Create(t, nextPostId, nextImageId, body, nowMs, fault);
      && (c.reply.Rejected? <==> CreateErrors(t.users, body) != [])
      && (c.reply.Rejected? ==> c.reply.errors == CreateErrors(t.users, body))
  {
    var c, errors := Create(t, nextPostId, nextImageId, body, nowMs, fault), CreateErrors(t.users, body);
    CreateCases(t, nextPostId, nextImageId, body, nowMs, fault);
    if errors != [] {
      assert c == Created(t, nextPostId, nextImageId, Rejected(errors));
    } else if fault.Some? {
      assert c == Created(t, nextPostId, nextImageId, CreateFailure(fault.value));
      CreateFailureStatus(fault.value);
    } else {
      assert c.reply.Done?;
    }
  }

  /** Whatever goes wrong, nothing is written: the transaction is all or nothing. */
  lemma CreateAtomic(t: Tables, nextPostId: int, nextImageId: int, body: CreateBody, nowMs: int,
                     fault: Option<DbError>)
    ensures var c := Create(t, nextPostId, nextImageId, body, nowMs, fault);
      && (c.reply.Done? <==> CreateErrors(t.users, body) == [] && fault.None?)
      && (!c.reply.Done? ==> c.t == t && c.nextPostId == nextPostId && c.nextImageId == nextImageId)
      && (CreateErrors(t.users, body) == [] && fault.Some? ==> c.reply == CreateFailure(fault.value))
  {
    var c, errors := Create(t, nextPostId, nextImageId, body, nowMs, fault), CreateErrors(t.users, body);
    CreateCases(t, nextPostId, nextImageId, body, nowMs, fault);
    if errors != [] {
      assert c == Created(t, nextPostId, nextImageId, Rejected(errors));
    } else if fault.Some? {
      assert c == Created(t, nextPostId, nextImageId, CreateFailure(fault.value));
      CreateFailureStatus(fault.value);
    } else {
      assert c.reply.Done?;
    }
  }

  /** The Prisma codes P2002 and P2003 become 409 and 400; every other error is a 500. */
  lemma CreateFailureStatus(e: DbError)
    ensures !CreateFailure(e).Done? && !CreateFailure(e).Rejected?
    ensures CreateFailure(e).Status() == (if e.code == "P2002" then 409 else if e.code == "P2003" then 400 else 500)
  {
  }

  /**
   * A successful request appends exactly one post, with the trimmed message,
   * and one image row per element of `images`; users and likes are untouched.
   * The 201 reply shows the new post with no likes and exactly its images.
   */
  lemma CreateInserts(t: Tables, nextPostId: int, nextImageId: int, body: CreateBody, nowMs: int,
                      fault: Option<DbError>)
    requires t.Valid()
    requires forall p | p in t.posts :: p.id < nextPostId
    ensures var c := Create(t, nextPostId, nextImageId, body, nowMs, fault);
      c.reply.Done? ==>
        var row := PostRow(nextPostId, Trim(body.message.s), IntOr(body.userId, 0), nowMs);
        var images := NewImages(nextImageId, nextPostId, Items(body.images));
        && c.t == t.(posts := t.posts + [row], images := t.images + images)
        && c.nextPostId == nextPostId + 1 && c.nextImageId == nextImageId + |Items(body.images)|
        && c.reply == Done(201, OnePost(PostView(row, [], images, 0), "Publicación creada exitosamente"))
  {
    CreateCases(t, nextPostId, nextImageId, body, nowMs, fault);
    if CreateErrors(t.users, body) == [] && fault.None? {
      NewPostView(t, nextPostId, nextImageId, Trim(body.message.s), IntOr(body.userId, 0), Items(body.images), nowMs);
    } else if CreateErrors(t.users, body) == [] {
      CreateFailureStatus(fault.value);
    }
  }

  /** The tables keep their constraints and the counters stay above every id in use. */
  lemma CreateKeepsValid(t: Tables, nextPostId: int, nextImageId: int, body: CreateBody, nowMs: int,
                         fault: Option<DbError>)
    requires t.Valid()
    requires forall p | p in t.posts :: p.id < nextPostId
    requires forall m | m in t.images :: m.id < nextImageId
    ensures var c := Create(t, nextPostId, nextImageId, body, nowMs, fault);
      && c.t.Valid() && c.t.users == t.users && c.t.likes == t.likes
      && (forall p | p in c.t.posts :: p.id < c.nextPostId)
      && (forall m | m in c.t.images :: m.id < c.nextImageId)
  {
    var c, errors := Create(t, nextPostId, nextImageId, body, nowMs, fault), CreateErrors(t.users, body);
    CreateCases(t, nextPostId, nextImageId, body, nowMs, fault);
    if errors != [] {
      assert c.t == t && c.nextPostId == nextPostId && c.nextImageId == nextImageId;
    } else if fault.Some? {
      assert c.t == t && c.nextPostId == nextPostId && c.nextImageId == nextImageId;
    } else {
      var userId := IntOr(body.userId, 0);
      assert userId in UserIds(t.users);
      NewPostValid(t, nextPostId, nextImageId, Trim(body.message.s), userId, Items(body.images), nowMs);
    }
  }

  /** The handler: the database ends up as `Create` says, and keeps its invariant. */
  method CreatePost(db: Database, body: CreateBody, nowMs: int, fault: Option<DbError>) returns (r: Reply<OnePost>)
    requires db.Valid()
    modifies db
    ensures db.Valid() && db.nextLikeId == old(db.nextLikeId)
    ensures Created(db.Snapshot(), db.nextPostId, db.nextImageId, r)
      == Create(old(db.Snapshot()), old(db.nextPostId), old(db.nextImageId), body, nowMs, fault)
  {
    var errors := CreateErrors(db.users, body);
    if errors != [] {
      return Rejected(errors);
    }
    if fault.Some? {
      return CreateFailure(fault.value);
    }
    var view := InsertPost(db, Trim(body.message.s), IntOf(body.userId).value, Items(body.images), nowMs);
    r := Done(201, OnePost(view, "Publicación creada exitosamente"));
  }
}

=== FILE: records.dfy ===
/**
 * The rows of the shared relational schema (users, posts, likes, post images)
 * and the constraints the database keeps on them: unique keys, the unique
 * (userId, postId) pair of a like, and the foreign keys.
 */
module Records {
  import opened Wrappers
  import opened Validation
  import opened Sequences

  /** A date in the calendar of the machine that reads it. */
  datatype CalendarDate = CalendarDate(year: int, month: int, day: int)

  /** A row of the users table; `password` holds the bcrypt hash. Instants are milliseconds. */
  datatype UserRecord = UserRecord(
    id: int, email: string, password: string, name: string, alias: string,
    birthDate: Option<CalendarDate>, createdAt: int)

  /** A user record without its password hash. */
  datatype PublicUser = PublicUser(
    id: int, email: string, name: string, alias: string,
    birthDate: Option<CalendarDate>, createdAt: int)

  /** `const { password: _, ...userData } = userExist`: every field but the password. */
  function Strip(u: UserRecord): PublicUser {
    PublicUser(u.id, u.email, u.name, u.alias, u.birthDate, u.createdAt)
  }

  /** The `User: { select: { id, email, name } }` summary that likes carry. */
  datatype UserSummary = UserSummary(id: int, email: string, name: string)

  function Summary(u: UserRecord): UserSummary {
    UserSummary(u.id, u.email, u.name)
  }

  datatype PostRow = PostRow(id: int, message: string, userId: int, createdAt: int)

  datatype LikeRow = LikeRow(id: int, userId: int, postId: int, createdAt: int)

  /** An image row keeps the four request fields exactly as they were sent. */
  datatype ImageRow = ImageRow(
    id: int, postId: int, nameServer: Value, nameClient: Value, ext: Value, size: Value)

  function UserIds(users: seq<UserRecord>): set<int> {
    set u | u in users :: u.id
  }

  function PostIds(posts: seq<PostRow>): set<int> {
    set p | p in posts :: p.id
  }

  predicate UniqueUsers(users: seq<UserRecord>) {
    forall i, j | 0 <= i < j < |users| ::
      users[i].id != users[j].id && users[i].email != users[j].email && users[i].alias != users[j].alias
  }

  predicate UniquePosts(posts: seq<PostRow>) {
    forall i, j | 0 <= i < j < |posts| :: posts[i].id != posts[j].id
  }

  /** Like ids are unique, and so is the (postId, userId) pair: a user likes a post at most once. */
  predicate UniqueLikes(likes: seq<LikeRow>) {
    forall i, j | 0 <= i < j < |likes| ::
      likes[i].id != likes[j].id
      && (likes[i].postId != likes[j].postId || likes[i].userId != likes[j].userId)
  }

  predicate UniqueImages(images: seq<ImageRow>) {
    forall i, j | 0 <= i < j < |images| :: images[i].id != images[j].id
  }

  /** A snapshot of the four tables. */
  datatype Tables = Tables(
    users: seq<UserRecord>, posts: seq<PostRow>, likes: seq<LikeRow>, images: seq<ImageRow>)
  {
    /** The schema's constraints: unique keys and foreign keys that point at existing rows. */
    predicate Valid() {
      && UniqueUsers(users)
      && UniquePosts(posts)
      && UniqueLikes(likes)
      && UniqueImages(images)
      && (forall p | p in posts :: p.userId in UserIds(users))
      && (forall l | l in likes :: l.userId in UserIds(users) && l.postId in PostIds(posts))
      && (forall m | m in images :: m.postId in PostIds(posts))
    }
  }

  // ---------------------------------------------------------------------------
  // findUnique

  function FindUserById(users: seq<UserRecord>, id: int): (r: Option<UserRecord>)
    ensures r.Some? ==> r.value in users && r.value.id == id
    ensures r.None? <==> id !in UserIds(users)
  {
    if users == [] then None
    else if users[0].id == id then Some(users[0])
    else
      var r := FindUserById(users[1..], id);
      assert UserIds(users) == {users[0].id} + UserIds(users[1..]) by {
        assert users == [users[0]] + users[1..];
      }
      r
  }

  function FindUserByEmail(users: seq<UserRecord>, email: string): (r: Option<UserRecord>)
    ensures r.Some? ==> r.value in users && r.value.email == email
    ensures r.None? ==> forall i | 0 <= i < |users| :: users[i].email != email
  {
    if users == [] then None
    else if users[0].email == email then Some(users[0])
    else FindUserByEmail(users[1..], email)
  }

  function FindPost(posts: seq<PostRow>, id: int): (r: Option<PostRow>)
    ensures r.Some? ==> r.value in posts && r.value.id == id
    ensures r.None? <==> id !in PostIds(posts)
  {
    if posts == [] then None
    else if posts[0].id == id then Some(posts[0])
    else
      var r := FindPost(posts[1..], id);
      assert PostIds(posts) == {posts[0].id} + PostIds(posts[1..]) by {
        assert posts == [posts[0]] + posts[1..];
      }
      r
  }

  /** With unique emails the lookup by email finds exactly the user who has it. */
  lemma FindUserByEmailUnique(users: seq<UserRecord>, k: nat)
    requires UniqueUsers(users) && k < |users|
    ensures FindUserByEmail(users, users[k].email) == Some(users[k])
  {
    var r := FindUserByEmail(users, users[k].email);
    var m :| 0 <= m < |users| && users[m] == r.value;
    if m != k {
      assert false;
    }
  }

  /** With unique ids the lookup by id finds exactly the user who has it. */
  lemma FindUserByIdUnique(users: seq<UserRecord>, k: nat)
    requires UniqueUsers(users) && k < |users|
    ensures FindUserById(users, users[k].id) == Some(users[k])
  {
    var r := FindUserById(users, users[k].id);
    var m :| 0 <= m < |users| && users[m] == r.value;
    if m != k {
      assert false;
    }
  }

  // ---------------------------------------------------------------------------
  // where clauses over one foreign key

  /** The `where: { postId }` condition on likes. */
  function OnPost(postId: int): LikeRow -> bool {
    (l: LikeRow) => l.postId == postId
  }

  /** `Like` rows of one post, in table order. */
  function LikesOf(likes: seq<LikeRow>, postId: int): seq<LikeRow> {
    Filter(likes, OnPost(postId))
  }

  /** `Like` rows given by one user. */
  function LikesBy(likes: seq<LikeRow>, userId: int): seq<LikeRow> {
    Filter(likes, (l: LikeRow) => l.userId == userId)
  }

  /** The `where: { postId }` condition on post images. */
  function ImageOfPost(postId: int): ImageRow -> bool {
    (m: ImageRow) => m.postId == postId
  }

  /** `PostImage` rows of one post. */
  function ImagesOf(images: seq<ImageRow>, postId: int): seq<ImageRow> {
    Filter(images, ImageOfPost(postId))
  }

  /** The `where: { userId }` condition on posts. */
  function OfUser(userId: int): PostRow -> bool {
    (p: PostRow) => p.userId == userId
  }

  /** Posts written by one user. */
  function PostsBy(posts: seq<PostRow>, userId: int): seq<PostRow> {
    Filter(posts, OfUser(userId))
  }

  /** A post's likes are likes of the table on that post, and every such like is among them. */
  lemma LikesOfMembers(likes: seq<LikeRow>, postId: int)
    ensures var r := LikesOf(likes, postId);
      (forall i | 0 <= i < |r| :: r[i] in likes && r[i].postId == postId)
      && (forall i | 0 <= i < |likes| && likes[i].postId == postId :: likes[i] in r)
  {
    FilterMembers(likes, OnPost(postId));
    var r := LikesOf(likes, postId);
    forall i | 0 <= i < |r| ensures r[i].postId == postId {
      assert OnPost(postId)(r[i]);
    }
  }

  /** A post's images are images of the table on that post, and every such image is among them. */
  lemma ImagesOfMembers(images: seq<ImageRow>, postId: int)
    ensures var r := ImagesOf(images, postId);
      (forall i | 0 <= i < |r| :: r[i] in images && r[i].postId == postId)
      && (forall i | 0 <= i < |images| && images[i].postId == postId :: images[i] in r)
  {
    FilterMembers(images, ImageOfPost(postId));
    var r := ImagesOf(images, postId);
    forall i | 0 <= i < |r| ensures r[i].postId == postId {
      assert ImageOfPost(postId)(r[i]);
    }
  }

  /** A user's posts are posts of the table by that user, and every such post is among them. */
  lemma PostsByMembers(posts: seq<PostRow>, userId: int)
    ensures var r := PostsBy(posts, userId);
      (forall i | 0 <= i < |r| :: r[i] in posts && r[i].userId == userId)
      && (forall i | 0 <= i < |posts| && posts[i].userId == userId :: posts[i] in r)
  {
    FilterMembers(posts, OfUser(userId));
    var r := PostsBy(posts, userId);
    forall i | 0 <= i < |r| ensures r[i].userId == userId {
      assert OfUser(userId)(r[i]);
    }
  }
}

=== FILE: sequences.dfy ===
/**
 * What the ORM does with the rows a query selects: `where` filters them,
 * `orderBy` sorts them, `skip` and `take` cut a window out of the result.
 */
module Sequences {

  /** The rows that satisfy a `where` condition, in table order. */
  function Filter<T(==)>(s: seq<T>, p: T -> bool): (r: seq<T>)
    ensures |r| <= |s|
  {
    if s == [] then [] else (if p(s[0]) then [s[0]] else []) + Filter(s[1..], p)
  }

  /** The selected rows are exactly the rows of the table that satisfy the condition. */
  lemma {:induction false} FilterMembers<T>(s: seq<T>, p: T -> bool)
    ensures forall i | 0 <= i < |Filter(s, p)| :: Filter(s, p)[i] in s && p(Filter(s, p)[i])
    ensures forall i | 0 <= i < |s| && p(s[i]) :: s[i] in Filter(s, p)
  {
    if s != [] {
      FilterMembers(s[1..], p);
      var r := Filter(s, p);
      forall i | 0 <= i < |r|
        ensures r[i] in s && p(r[i])
      {
        if !p(s[0]) || i > 0 {
          assert r[i] in Filter(s[1..], p);
        }
      }
    }
  }

  lemma {:induction false} FilterAppend<T>(a: seq<T>, b: seq<T>, p: T -> bool)
    ensures Filter(a + b, p) == Filter(a, p) + Filter(b, p)
  {
    if a != [] {
      FilterAppend(a[1..], b, p);
      assert (a + b)[0] == a[0] && (a + b)[1..] == a[1..] + b;
    } else {
      assert a + b == b;
    }
  }

  /** Filtering splits around any one row. */
  lemma {:induction false} FilterAround<T>(s: seq<T>, i: nat, p: T -> bool)
    requires i < |s|
    ensures Filter(s, p) == Filter(s[..i], p) + (if p(s[i]) then [s[i]] else []) + Filter(s[i + 1..], p)
  {
    if i == 0 {
      assert s[..0] == [];
    } else {
      var h := if p(s[0]) then [s[0]] else [];
      FilterAround(s[1..], i - 1, p);
      assert s[1..][..i - 1] == s[..i][1..] && s[1..][i - 1] == s[i] && s[1..][i..] == s[i + 1..];
      assert Filter(s[..i], p) == h + Filter(s[..i][1..], p);
    }
  }

  /** Filtering a table with one more row at the end. */
  lemma FilterSnoc<T>(s: seq<T>, x: T, p: T -> bool)
    ensures Filter(s + [x], p) == Filter(s, p) + (if p(x) then [x] else [])
  {
    FilterAppend(s, [x], p);
    assert [x][1..] == [];
  }

  /** Filtering with a condition that holds nowhere gives nothing. */
  lemma {:induction false} FilterNone<T>(s: seq<T>, p: T -> bool)
    requires forall i | 0 <= i < |s| :: !p(s[i])
    ensures Filter(s, p) == []
  {
    if s != [] {
      FilterNone(s[1..], p);
    }
  }

  /** Filtering with a condition that holds everywhere keeps every row. */
  lemma {:induction false} FilterAll<T>(s: seq<T>, p: T -> bool)
    requires forall i | 0 <= i < |s| :: p(s[i])
    ensures Filter(s, p) == s
  {
    if s != [] {
      FilterAll(s[1..], p);
    }
  }

  /** Two conditions that agree on every row select the same rows. */
  lemma {:induction false} FilterSame<T>(s: seq<T>, p: T -> bool, q: T -> bool)
    requires forall i | 0 <= i < |s| :: p(s[i]) == q(s[i])
    ensures Filter(s, p) == Filter(s, q)
  {
    if s != [] {
      FilterSame(s[1..], p, q);
    }
  }

  /** `take: k`: the first k rows, or all of them when there are fewer. */
  function Take<T>(s: seq<T>, k: nat): (r: seq<T>)
    ensures |r| == if k < |s| then k else |s|
    ensures r == s[..|r|]
  {
    if k < |s| then s[..k] else s
  }

  /** `skip: k`: the rows after the first k. */
  function Drop<T>(s: seq<T>, k: nat): (r: seq<T>)
    ensures |r| == if k < |s| then |s| - k else 0
    ensures r == s[|s| - |r|..]
  {
    if k < |s| then s[k..] else []
  }

  /** An order of rows: any two are comparable, and the comparison is transitive. */
  ghost predicate TotalPreorder<T(!new)>(le: (T, T) -> bool) {
    && (forall a, b :: le(a, b) || le(b, a))
    && (forall a, b, c :: le(a, b) && le(b, c) ==> le(a, c))
  }

  predicate SortedBy<T>(s: seq<T>, le: (T, T) -> bool) {
    forall i, j | 0 <= i < j < |s| :: le(s[i], s[j])
  }

  function Insert<T>(x: T, s: seq<T>, le: (T, T) -> bool): (r: seq<T>)
    ensures |r| == |s| + 1
    ensures multiset(r) == multiset(s) + multiset{x}
  {
    if s == [] then [x]
    else if le(x, s[0]) then [x] + s
    else
      assert s == [s[0]] + s[1..];
      [s[0]] + Insert(x, s[1..], le)
  }

  /** `orderBy`: a stable insertion sort; rows that compare equal keep their table order. */
  function SortBy<T>(s: seq<T>, le: (T, T) -> bool): (r: seq<T>)
    ensures |r| == |s|
    ensures multiset(r) == multiset(s)
  {
    if s == [] then []
    else
      assert s == [s[0]] + s[1..];
      Insert(s[0], SortBy(s[1..], le), le)
  }

  lemma {:induction false} InsertSorted<T(!new)>(x: T, s: seq<T>, le: (T, T) -> bool)
    requires TotalPreorder(le) && SortedBy(s, le)
    ensures SortedBy(Insert(x, s, le), le)
  {
    if s != [] && !le(x, s[0]) {
      InsertSorted(x, s[1..], le);
      var r := Insert(x, s, le);
      var tail := Insert(x, s[1..], le);
      assert r == [s[0]] + tail;
      forall k | 0 <= k < |tail| ensures le(s[0], tail[k]) {
        assert tail[k] in multiset(tail);
        assert tail[k] in multiset(s[1..]) + multiset{x};
        if tail[k] != x {
          assert tail[k] in s[1..];
          var m :| 0 <= m < |s[1..]| && s[1..][m] == tail[k];
          assert s[1 + m] == tail[k];
        }
      }
    }
  }

  /** The sorted rows are in order. */
  lemma {:induction false} SortSorted<T(!new)>(s: seq<T>, le: (T, T) -> bool)
    requires TotalPreorder(le)
    ensures SortedBy(SortBy(s, le), le)
  {
    if s != [] {
      SortSorted(s[1..], le);
      InsertSorted(s[0], SortBy(s[1..], le), le);
    }
  }

  /** The rows of a sorted window are in order. */
  lemma SortedPrefix<T>(s: seq<T>, k: nat, le: (T, T) -> bool)
    requires SortedBy(s, le) && k <= |s|
    ensures SortedBy(s[..k], le)
  {
  }

  lemma SortedSuffix<T>(s: seq<T>, k: nat, le: (T, T) -> bool)
    requires SortedBy(s, le) && k <= |s|
    ensures SortedBy(s[k..], le)
  {
    forall i, j | 0 <= i < j < |s| - k ensures le(s[k..][i], s[k..][j]) {
      assert s[k..][i] == s[k + i] && s[k..][j] == s[k + j];
    }
  }

  /** Every row of a window comes from the rows it was cut from. */
  lemma WindowFrom<T>(s: seq<T>, skip: nat, take: nat)
    ensures forall i | 0 <= i < |Take(Drop(s, skip), take)| :: Take(Drop(s, skip), take)[i] in s
  {
    var w := Drop(s, skip);
    forall i | 0 <= i < |Take(w, take)| ensures Take(w, take)[i] in s {
      assert Take(w, take)[i] == w[i] == s[|s| - |w| + i];
    }
  }
}

=== FILE: token_helper.dfy ===
/**
 * The helper copy of `CreateTokenUser` kept beside the auth service's token
 * module. It is written out again here step by step and proved to give the
 * same grant as the module's copy for the same user, secret and clock readings.
 */
module TokenHelper {
  import opened Records
  import opened Moments
  import opened Tokens
  import AuthJwt

  method CreateTokenUser(user: UserRecord, c: Codec, key: string, dateMs: int, createdMs: int)
    returns (g: AuthJwt.Grant)
    ensures g == AuthJwt.Issue(user, c, key, dateMs, createdMs)
  {
    var date := new Moment(dateMs);
    var advanced := date.Add(420);
    var expiredAt := advanced.Unix();
    var created := new Moment(createdMs);
    var payload := Payload(user, created.Unix(), expiredAt);
    var token := c.encode(payload, key);
    advanced := date.Add(425);
    g := AuthJwt.Grant(token, advanced.Unix());
    UnixAddMinutes(dateMs, 420);
    UnixAddMinutes(dateMs, 845);
  }
}

=== FILE: tokens.dfy ===
/**
 * Session tokens (JSON Web Tokens, RFC 7519) carried as Bearer credentials
 * (RFC 6750 section 2.1): the payload the services sign, the signing library
 * as an abstract codec, how a guard pulls the token out of the Authorization
 * header, and the decision every guard makes about it.
 */
module Tokens {
  import opened Wrappers
  import opened Records
  import opened Moments

  /** The signed payload: the user as given, and two instants in POSIX seconds. */
  datatype Payload = Payload(user: UserRecord, createdAt: int, expiredAt: int)

  /**
   * The signing library (jwt-simple): `encode(payload, secret)` and
   * `decode(token, secret)`, which checks the signature and fails with a
   * message when the token is malformed or was not signed with that secret.
   */
  datatype Codec = Codec(
    encode: (Payload, string) -> string,
    decode: (string, string) -> Result<Payload, string>)

  /** A token is a non-empty string without spaces (three base64url parts joined by dots). */
  predicate TokenText(t: string) {
    t != "" && ' ' !in t
  }

  /** What the model assumes of the library: decoding under the same secret gives the payload back. */
  ghost predicate Sound(c: Codec) {
    forall p: Payload, key: string ::
      c.decode(c.encode(p, key), key) == Success(p) && TokenText(c.encode(p, key))
  }

  /** jwt-simple rejects an undefined or empty token before looking at it. */
  const NoTokenSupplied: string := "No token supplied"

  function DecodeField(c: Codec, field: Option<string>, key: string): Result<Payload, string> {
    if field.None? || field.value == "" then Failure(NoTokenSupplied) else c.decode(field.value, key)
  }

  // ---------------------------------------------------------------------------
  // authorization.split(" ")[1]

  /** JavaScript's `s.split(" ")`: the pieces between single spaces, empty pieces included. */
  function Split(s: string): (fields: seq<string>)
    ensures |fields| >= 1
    ensures forall i | 0 <= i < |fields| :: ' ' !in fields[i]
  {
    if s == [] then [[]]
    else
      var rest := Split(s[1..]);
      if s[0] == ' ' then [[]] + rest else [[s[0]] + rest[0]] + rest[1..]
  }

  /** `fields.join(" ")`. */
  function Join(fields: seq<string>): string
    requires |fields| >= 1
  {
    if |fields| == 1 then fields[0] else fields[0] + " " + Join(fields[1..])
  }

  /** Splitting loses nothing: joining the pieces again gives the header back. */
  lemma {:induction false} SplitJoin(s: string)
    ensures Join(Split(s)) == s
  {
    if s != [] {
      SplitJoin(s[1..]);
      var rest := Split(s[1..]);
      if s[0] == ' ' {
        assert s == " " + s[1..];
      } else if |rest| == 1 {
        assert s == [s[0]] + rest[0];
      } else {
        assert Join(rest) == rest[0] + " " + Join(rest[1..]);
        assert s == [s[0]] + s[1..];
      }
    }
  }

  lemma {:induction false} SplitWord(w: string)
    requires ' ' !in w
    ensures Split(w) == [w]
  {
    if w != [] {
      SplitWord(w[1..]);
      assert [w[0]] + w[1..] == w;
    }
  }

  lemma {:induction false} SplitAfterWord(w: string, rest: string)
    requires ' ' !in w
    ensures Split(w + " " + rest) == [w] + Split(rest)
  {
    if w == [] {
      assert w + " " + rest == [' '] + rest;
    } else {
      SplitAfterWord(w[1..], rest);
      assert (w + " " + rest)[1..] == w[1..] + " " + rest;
      assert [w[0]] + w[1..] == w;
    }
  }

  /** `authorization.split(" ")[1]`; None stands for `undefined`. */
  function SecondField(header: string): Option<string> {
    var fields := Split(header);
    if |fields| >= 2 then Some(fields[1]) else None
  }

  /** The scheme word is never looked at: whatever word precedes the space, the token after it is used. */
  lemma SecondFieldOfCredential(scheme: string, token: string)
    requires ' ' !in scheme && ' ' !in token
    ensures SecondField(scheme + " " + token) == Some(token)
  {
    SplitAfterWord(scheme, token);
    SplitWord(token);
  }

  // ---------------------------------------------------------------------------
  // checkToken

  datatype Verdict =
    | MissingHeader
    | InvalidToken(reason: string)
    | Expired
    | Accepted(user: UserRecord)

  /**
   * The ladder shared by both `checkToken` guards: a header must be present
   * and non-empty, its second field must decode, the payload must not have
   * expired (`expiredAt < now` in whole seconds rejects), and then the
   * payload's user is attached to the request.
   */
  function Authenticate(authorization: Option<string>, c: Codec, key: string, nowMs: int): (v: Verdict)
    ensures v.MissingHeader? <==> authorization.None? || authorization.value == ""
  {
    if authorization.None? || authorization.value == "" then MissingHeader
    else
      match DecodeField(c, SecondField(authorization.value), key)
      case Failure(reason) => InvalidToken(reason)
      case Success(p) => if p.expiredAt < UnixSeconds(nowMs) then Expired else Accepted(p.user)
  }

  /**
   * A credential `<word> <token>` whose token was encoded under the guard's
   * secret is accepted exactly while its expiry is not before the current
   * second, and then yields the payload's user; any word, even an empty one, will do.
   */
  lemma {:induction false} CredentialVerdict(c: Codec, key: string, scheme: string, p: Payload, nowMs: int)
    requires Sound(c) && ' ' !in scheme
    ensures Authenticate(Some(scheme + " " + c.encode(p, key)), c, key, nowMs)
      == if p.expiredAt < UnixSeconds(nowMs) then Expired else Accepted(p.user)
  {
    var token := c.encode(p, key);
    assert c.decode(token, key) == Success(p) && TokenText(token);
    SecondFieldOfCredential(scheme, token);
  }

  /** A bare token without a scheme word has no second field, so it is refused as undecodable. */
  lemma BareTokenRefused(token: string, c: Codec, key: string, nowMs: int)
    requires TokenText(token)
    ensures Authenticate(Some(token), c, key, nowMs) == InvalidToken(NoTokenSupplied)
  {
    SplitWord(token);
  }

  /** Expiry is inclusive of its own second: a token is accepted up to the last millisecond of `expiredAt`. */
  lemma ExpiryBoundary(expiredAt: int, nowMs: int)
    ensures !(expiredAt < UnixSeconds(nowMs)) <==> nowMs < (expiredAt + 1) * MsPerSecond
  {
  }
}

=== FILE: user_router.dfy ===
/**
 * The user service's read-only routes: the full user listing with an
 * optional case-insensitive search, one user with its counts, and the
 * bounded search by name, alias or email.
 */
module UserRouter {
  import opened Wrappers
  import opened Validation
  import opened Sequences
  import opened Records
  import opened Http

  // ---------------------------------------------------------------------------
  // Case-insensitive substring search (`contains` with `mode: "insensitive"`)

  function LowerChar(c: char): char {
    if 'A' <= c <= 'Z' then (c as int - 'A' as int + 'a' as int) as char else c
  }

  /** The string with every upper-case letter replaced by its lower-case form. */
  function Lower(s: string): (r: string)
    ensures |r| == |s|
    ensures forall i | 0 <= i < |s| :: r[i] == LowerChar(s[i])
  {
    if s == [] then [] else [LowerChar(s[0])] + Lower(s[1..])
  }

  predicate StartsWith(s: string, prefix: string) {
    |prefix| <= |s| && s[..|prefix|] == prefix
  }

  /** `LIKE '%term%'`: the term is tried at every position of `s`, from the left. */
  function Occurs(s: string, term: string): bool
    decreases |s|
  {
    StartsWith(s, term) || (s != [] && Occurs(s[1..], term))
  }

  /** The term sits in `s` at position i. */
  predicate SliceAt(s: string, term: string, i: int) {
    0 <= i && i + |term| <= |s| && s[i..i + |term|] == term
  }

  /** The scan finds the term exactly when it is a slice of the string. */
  lemma {:induction false} OccursAt(s: string, term: string)
    ensures Occurs(s, term) <==> exists i :: SliceAt(s, term, i)
  {
    if StartsWith(s, term) {
      assert s[0..|term|] == s[..|term|];
      assert SliceAt(s, term, 0);
    }
    if s != [] {
      OccursAt(s[1..], term);
      if Occurs(s[1..], term) {
        var j :| SliceAt(s[1..], term, j);
        assert s[j + 1..j + 1 + |term|] == s[1..][j..j + |term|];
        assert SliceAt(s, term, j + 1);
      }
      if i :| SliceAt(s, term, i) {
        if i > 0 {
          assert s[1..][i - 1..i - 1 + |term|] == s[i..i + |term|];
          assert SliceAt(s[1..], term, i - 1);
        } else {
          assert StartsWith(s, term);
        }
      }
    } else {
      if i :| SliceAt(s, term, i) {
        assert term == [];
        assert StartsWith(s, term);
      }
    }
  }

  /** `contains: term, mode: "insensitive"` on one column. */
  predicate ContainsInsensitive(s: string, term: string) {
    Occurs(Lower(s), Lower(term))
  }

  /** The `OR` of `contains` on name, alias and email. */
  function Matching(term: string): PublicUser -> bool {
    (u: PublicUser) =>
      ContainsInsensitive(u.name, term) || ContainsInsensitive(u.alias, term) || ContainsInsensitive(u.email, term)
  }

  /** The term is a slice of `s` somewhere. */
  ghost predicate HasSlice(s: string, term: string) {
    exists i :: SliceAt(s, term, i)
  }

  /** A user matches a search iff the term, ignoring case, is a slice of their name, alias or email. */
  lemma MatchingMeans(u: PublicUser, term: string)
    ensures Matching(term)(u) <==>
      HasSlice(Lower(u.name), Lower(term)) || HasSlice(Lower(u.alias), Lower(term)) || HasSlice(Lower(u.email), Lower(term))
  {
    OccursAt(Lower(u.name), Lower(term));
    OccursAt(Lower(u.alias), Lower(term));
    OccursAt(Lower(u.email), Lower(term));
  }

  // ---------------------------------------------------------------------------
  // orderBy on users

  /** Lexicographic order of code points. */
  predicate LexLe(a: string, b: string) {
    if a == [] then true
    else if b == [] then false
    else if a[0] != b[0] then a[0] < b[0]
    else LexLe(a[1..], b[1..])
  }

  lemma {:induction false} LexTotal(a: string, b: string)
    ensures LexLe(a, b) || LexLe(b, a)
  {
    if a != [] && b != [] && a[0] == b[0] {
      LexTotal(a[1..], b[1..]);
    }
  }

  lemma {:induction false} LexTransitive(a: string, b: string, c: string)
    requires LexLe(a, b) && LexLe(b, c)
    ensures LexLe(a, c)
  {
    if a != [] && b != [] && c != [] && a[0] == b[0] == c[0] {
      LexTransitive(a[1..], b[1..], c[1..]);
    }
  }

  /** Ascending order on one of the keys the listing accepts; any other key orders by name. */
  predicate KeyLe(key: string, a: PublicUser, b: PublicUser) {
    if key == "id" then a.id <= b.id
    else if key == "createdAt" then a.createdAt <= b.createdAt
    else if key == "alias" then LexLe(a.alias, b.alias)
    else LexLe(a.name, b.name)
  }

  /** `orderBy: { [key]: order }`. */
  function UserOrder(key: string, order: string): (PublicUser, PublicUser) -> bool {
    (a: PublicUser, b: PublicUser) => if order == "asc" then KeyLe(key, a, b) else KeyLe(key, b, a)
  }

  lemma UserOrderTotal(key: string, order: string)
    ensures TotalPreorder(UserOrder(key, order))
  {
    forall a: PublicUser, b: PublicUser ensures KeyLe(key, a, b) || KeyLe(key, b, a) {
      LexTotal(a.name, b.name);
      LexTotal(a.alias, b.alias);
    }
    forall a: PublicUser, b: PublicUser, c: PublicUser | KeyLe(key, a, b) && KeyLe(key, b, c)
      ensures KeyLe(key, a, c)
    {
      if key == "alias" {
        LexTransitive(a.alias, b.alias, c.alias);
      } else if key != "id" && key != "createdAt" {
        LexTransitive(a.name, b.name, c.name);
      }
    }
  }

  /** The selected columns of every user: the record without its password hash. */
  function Profiles(users: seq<UserRecord>): (r: seq<PublicUser>)
    ensures |r| == |users|
    ensures forall i | 0 <= i < |users| :: r[i] == Strip(users[i])
  {
    if users == [] then [] else [Strip(users[0])] + Profiles(users[1..])
  }

  /** `age`: the current calendar year minus the birth year, or null without a birth date. */
  function Age(birthDate: Option<CalendarDate>, currentYear: int): Option<int> {
    if birthDate.Some? then Some(currentYear - birthDate.value.year) else None
  }

  /**
   * The age is a plain difference of years: two people born in the same
   * year have the same age on every day, whatever their birthdays.
   */
  lemma AgeIgnoresBirthday(a: CalendarDate, b: CalendarDate, currentYear: int)
    requires a.year == b.year
    ensures Age(Some(a), currentYear) == Age(Some(b), currentYear)
    ensures Age(Some(a), currentYear).value == currentYear - a.year
    ensures Age(None, currentYear) == None
  {
  }

  // ---------------------------------------------------------------------------
  // GET /get-all-users

  datatype AllUsersQuery = AllUsersQuery(search: Value, sortBy: Value, order: Value)

  /** A listed user: the selected columns, the `_count` of their posts and likes, and the age. */
  datatype UserItem = UserItem(user: PublicUser, postCount: int, likeCount: int, age: Option<int>)

  datatype UserFilters = UserFilters(search: Option<string>, sortBy: string, order: string)

  datatype UsersList = UsersList(users: seq<UserItem>, totalUsers: int, filters: UserFilters, message: string)

  const UserSortKeys: seq<string> := ["name", "alias", "createdAt", "id"]
  const UserOrders: seq<string> := ["asc", "desc"]

  function AllUsersErrors(q: AllUsersQuery): (errors: seq<string>)
    ensures errors == [] <==>
      && (q.search.Absent? || IsString(q.search))
      && (q.sortBy.Absent? || IsIn(q.sortBy, UserSortKeys))
      && (q.order.Absent? || IsIn(q.order, UserOrders))
  {
    Optional(q.search, Check(IsString(q.search), "El parámetro de búsqueda debe ser texto"))
    + Optional(q.sortBy, Check(IsIn(q.sortBy, UserSortKeys), "El campo para ordenar no es válido"))
    + Optional(q.order, Check(IsIn(q.order, UserOrders), "El orden debe ser 'asc' o 'desc'"))
  }

  /** The search term after `trim()` and `escape()`; "" when no term was sent. */
  function SearchTerm(search: Value): string {
    if search.Str? then Escape(Trim(search.s)) else ""
  }

  /** The users a listing selects: all of them, or those matching a non-empty term. */
  function Selected(users: seq<UserRecord>, term: string): seq<PublicUser> {
    if term == "" then Profiles(users) else Filter(Profiles(users), Matching(term))
  }

  function Item(t: Tables, u: PublicUser, currentYear: int): UserItem {
    UserItem(u, |PostsBy(t.posts, u.id)|, |LikesBy(t.likes, u.id)|, Age(u.birthDate, currentYear))
  }

  function ItemsOf(t: Tables, us: seq<PublicUser>, currentYear: int): (r: seq<UserItem>)
    ensures |r| == |us|
    ensures forall i | 0 <= i < |us| :: r[i] == Item(t, us[i], currentYear)
  {
    if us == [] then [] else [Item(t, us[0], currentYear)] + ItemsOf(t, us[1..], currentYear)
  }

  /** The listed users with their counts, in the order `orderBy: { [sortBy]: order }` gives. */
  function Listing(t: Tables, term: string, sortBy: string, order: string, currentYear: int): seq<UserItem> {
    ItemsOf(t, SortBy(Selected(t.users, term), UserOrder(sortBy, order)), currentYear)
  }

  /**
   * GET /get-all-users behind the guard, with the current year read from
   * the clock. Defaults: sortBy "name", order "asc"; `filters.search` is
   * null when no term survives trimming.
   */
  function GetAllUsers(t: Tables, q: AllUsersQuery, currentYear: int, fault: Option<string>): (r: Reply<UsersList>)
    ensures r.Rejected? <==> AllUsersErrors(q) != []
    ensures r.Crashed? <==> AllUsersErrors(q) == [] && fault.Some?
    ensures r.Done? ==>
      var term := SearchTerm(q.search);
      && r.code == 200
      && r.body.totalUsers == |r.body.users|
      && r.body.filters == UserFilters(if term == "" then None else Some(term),
                                       TextOr(q.sortBy, "name"), TextOr(q.order, "asc"))
      && forall i | 0 <= i < |r.body.users| ::
           && r.body.users[i].postCount == |PostsBy(t.posts, r.body.users[i].user.id)|
           && r.body.users[i].likeCount == |LikesBy(t.likes, r.body.users[i].user.id)|
           && r.body.users[i].age == Age(r.body.users[i].user.birthDate, currentYear)
  {
    var errors := AllUsersErrors(q);
    if errors != [] then Rejected(errors)
    else if fault.Some? then Crashed(fault.value)
    else
      var term := SearchTerm(q.search);
      var sortBy, order := TextOr(q.sortBy, "name"), TextOr(q.order, "asc");
      var items := Listing(t, term, sortBy, order, currentYear);
      Done(200, UsersList(items, |items|, UserFilters(if term == "" then None else Some(term), sortBy, order),
                          "Usuarios obtenidos exitosamente"))
  }

  /** A valid listing request without a database error is answered with the listing its filters select. */
  lemma AllUsersDone(t: Tables, q: AllUsersQuery, currentYear: int)
    requires AllUsersErrors(q) == []
    ensures var r := GetAllUsers(t, q, currentYear, None);
      && r.Done?
      && r.body.users == Listing(t, SearchTerm(q.search), r.body.filters.sortBy, r.body.filters.order, currentYear)
      && r.body.filters.sortBy in UserSortKeys && r.body.filters.order in UserOrders
  {
  }

  function Listed(items: seq<UserItem>): (r: seq<PublicUser>)
    ensures |r| == |items|
    ensures forall i | 0 <= i < |items| :: r[i] == items[i].user
  {
    if items == [] then [] else [items[0].user] + Listed(items[1..])
  }

  /**
   * The listing holds each selected user exactly once, every user when no
   * term is given, and only users that match a term; it is in the order
   * its key and direction name.
   */
  lemma ListingSpec(t: Tables, term: string, sortBy: string, order: string, currentYear: int)
    ensures var users := Listed(Listing(t, term, sortBy, order, currentYear));
      && multiset(users) == multiset(Selected(t.users, term))
      && (term == "" ==> multiset(users) == multiset(Profiles(t.users)))
      && (term != "" ==> forall i | 0 <= i < |users| :: Matching(term)(users[i]))
      && SortedBy(users, UserOrder(sortBy, order))
  {
    var rows := SortBy(Selected(t.users, term), UserOrder(sortBy, order));
    var users := Listed(Listing(t, term, sortBy, order, currentYear));
    assert users == rows;
    UserOrderTotal(sortBy, order);
    SortSorted(Selected(t.users, term), UserOrder(sortBy, order));
    if term != "" {
      FilterMembers(Profiles(t.users), Matching(term));
      forall i | 0 <= i < |users| ensures Matching(term)(users[i]) {
        assert rows[i] in multiset(Filter(Profiles(t.users), Matching(term)));
      }
    }
  }

  /** A search made only of white space filters nothing: every user is listed and `filters.search` is null. */
  lemma BlankSearchListsEveryone(t: Tables, s: string, currentYear: int)
    requires forall i | 0 <= i < |s| :: IsSpace(s[i])
    ensures var r := GetAllUsers(t, AllUsersQuery(Str(s), Absent, Absent), currentYear, None);
      && r.Done? && r.body.filters == UserFilters(None, "name", "asc")
      && multiset(Listed(r.body.users)) == multiset(Profiles(t.users))
  {
    TrimEmpty(s);
    AllUsersDone(t, AllUsersQuery(Str(s), Absent, Absent), currentYear);
    ListingSpec(t, "", "name", "asc", currentYear);
  }

  /** A term without special characters or surrounding blanks is searched for as it was typed. */
  lemma PlainSearchLiteral(s: string)
    requires s != [] && !IsSpace(s[0]) && !IsSpace(s[|s| - 1])
    requires forall i | 0 <= i < |s| :: !IsSpecial(s[i])
    ensures SearchTerm(Str(s)) == s
  {
    TrimKeeps(s);
    EscapePlain(s);
  }

  lemma TrimKeeps(s: string)
    requires s != [] && !IsSpace(s[0]) && !IsSpace(s[|s| - 1])
    ensures Trim(s) == s
  {
    assert TrimStart(s) == s;
  }

  // ---------------------------------------------------------------------------
  // GET /get-user/:userId

  datatype Stats = Stats(totalPosts: int, totalLikes: int)

  datatype UserDetail = UserDetail(user: PublicUser, age: Option<int>, stats: Stats)

  datatype OneUser = OneUser(user: UserDetail, message: string)

  function UserIdErrors(userId: Value): (errors: seq<string>)
    ensures errors == [] <==> IsIntAtLeast(userId, 1)
  {
    Check(NotEmpty(userId), "El ID del usuario es requerido")
    + Check(IsIntAtLeast(userId, 1), "El ID del usuario debe ser un número entero positivo")
  }

  /** GET /get-user/:userId behind the guard: the user with its counts, or 404. */
  function GetUser(t: Tables, userId: Value, currentYear: int, fault: Option<string>): (r: Reply<OneUser>)
    ensures r.Rejected? <==> UserIdErrors(userId) != []
    ensures r.Refused? <==> UserIdErrors(userId) == [] && fault.None? && IntOr(userId, 0) !in UserIds(t.users)
    ensures r.Refused? ==> r == Refused(404, "Usuario no encontrado")
    ensures r.Crashed? <==> UserIdErrors(userId) == [] && fault.Some?
    ensures r.Done? <==> UserIdErrors(userId) == [] && fault.None? && IntOr(userId, 0) in UserIds(t.users)
    ensures r.Done? ==>
      var d := r.body.user;
      && r.code == 200
      && (exists k | 0 <= k < |t.users| :: d.user == Strip(t.users[k]))
      && d.user.id == IntOr(userId, 0)
      && d.stats == Stats(|PostsBy(t.posts, d.user.id)|, |LikesBy(t.likes, d.user.id)|)
      && d.age == Age(d.user.birthDate, currentYear)
  {
    var errors := UserIdErrors(userId);
    if errors != [] then Rejected(errors)
    else if fault.Some? then Crashed(fault.value)
    else
      match FindUserById(t.users, IntOf(userId).value)
      case None => Refused(404, "Usuario no encontrado")
      case Some(u) =>
        var p := Strip(u);
        Done(200, OneUser(UserDetail(p, Age(p.birthDate, currentYear),
                                     Stats(|PostsBy(t.posts, p.id)|, |LikesBy(t.likes, p.id)|)),
                          "Usuario obtenido exitosamente"))
  }

  /** The detail's counts agree with the listing's for the same user. */
  lemma DetailAgreesWithListing(t: Tables, userId: Value, q: AllUsersQuery, currentYear: int, i: nat)
    requires GetUser(t, userId, currentYear, None).Done?
    requires GetAllUsers(t, q, currentYear, None).Done?
    requires i < |GetAllUsers(t, q, currentYear, None).body.users|
    requires GetAllUsers(t, q, currentYear, None).body.users[i].user.id == IntOr(userId, 0)
    ensures var d, item := GetUser(t, userId, currentYear, None).body.user, GetAllUsers(t, q, currentYear, None).body.users[i];
      && d.stats.totalPosts == item.postCount
      && d.stats.totalLikes == item.likeCount
  {
  }

  // ---------------------------------------------------------------------------
  // GET /search-users

  datatype SearchQuery = SearchQuery(q: Value, limit: Value)

  datatype SearchResult = SearchResult(id: int, name: string, alias: string, email: string, memberSince: int, postCount: int)

  datatype SearchPage = SearchPage(results: seq<SearchResult>, totalResults: int, searchQuery: string, message: string)

  /**
   * `q` must be a non-empty string that is still at least one character
   * long after `trim()` and `escape()` (the message speaks of two); the
   * limit, when sent, is an integer from 1 to 50.
   */
  function SearchErrors(q: SearchQuery): (errors: seq<string>)
    ensures errors == [] <==>
      && q.q.Str? && Measure(Escape(Trim(q.q.s))) >= 1
      && (q.limit.Absent? || IsIntBetween(q.limit, 1, 50))
  {
    Check(NotEmpty(q.q), "El término de búsqueda es requerido")
    + Check(IsString(q.q), "El término de búsqueda debe ser texto")
    + Check(Measure(Escape(Trim(Text(q.q)))) >= 1, "El término de búsqueda debe tener al menos 2 caracteres")
    + Optional(q.limit, Check(IsIntBetween(q.limit, 1, 50), "El límite debe ser un número entre 1 y 50"))
  }

  function Result(t: Tables, u: PublicUser): SearchResult {
    SearchResult(u.id, u.name, u.alias, u.email, u.createdAt, |PostsBy(t.posts, u.id)|)
  }

  function ResultsOf(t: Tables, us: seq<PublicUser>): (r: seq<SearchResult>)
    ensures |r| == |us|
    ensures forall i | 0 <= i < |us| :: r[i] == Result(t, us[i])
  {
    if us == [] then [] else [Result(t, us[0])] + ResultsOf(t, us[1..])
  }

  /** The users matching the term, by ascending name, at most `limit` of them. */
  function SearchRows(users: seq<UserRecord>, term: string, limit: nat): seq<PublicUser> {
    Take(SortBy(Filter(Profiles(users), Matching(term)), UserOrder("name", "asc")), limit)
  }

  function Found(t: Tables, term: string, limit: nat): seq<SearchResult> {
    ResultsOf(t, SearchRows(t.users, term, limit))
  }

  /** GET /search-users behind the guard: the first `limit` (default 20) matching users by name. */
  function SearchUsers(t: Tables, q: SearchQuery, fault: Option<string>): (r: Reply<SearchPage>)
    ensures r.Rejected? <==> SearchErrors(q) != []
    ensures r.Crashed? <==> SearchErrors(q) == [] && fault.Some?
    ensures r.Done? ==>
      && r.code == 200
      && r.body.totalResults == |r.body.results|
  {
    var errors := SearchErrors(q);
    if errors != [] then Rejected(errors)
    else if fault.Some? then Crashed(fault.value)
    else
      var term := Escape(Trim(q.q.s));
      var results := Found(t, term, IntOr(q.limit, 20));
      Done(200, SearchPage(results, |results|, term, "Búsqueda de usuarios completada"))
  }

  /**
   * A valid search without a database error is answered with what the
   * sanitized term finds under a limit of 1 to 50, and echoes that term.
   */
  lemma SearchDone(t: Tables, q: SearchQuery)
    requires SearchErrors(q) == []
    ensures 1 <= IntOr(q.limit, 20) <= 50
    ensures var r := SearchUsers(t, q, None);
      && r.Done?
      && r.body.results == Found(t, Escape(Trim(q.q.s)), IntOr(q.limit, 20))
      && r.body.searchQuery == Escape(Trim(q.q.s))
  {
    assert q.q.Str?;
    var term, limit := Escape(Trim(q.q.s)), IntOr(q.limit, 20);
    assert 1 <= limit <= 50 by {
      if !q.limit.Absent? {
        assert IsIntBetween(q.limit, 1, 50);
      }
    }
    var found := Found(t, term, limit);
    assert SearchUsers(t, q, None) == Done(200, SearchPage(found, |found|, term, "Búsqueda de usuarios completada"));
  }

  /** A search finds matching users only, as many as the limit allows. */
  lemma FoundMatches(t: Tables, term: string, limit: nat)
    ensures var found, matches := Found(t, term, limit), Filter(Profiles(t.users), Matching(term));
      && |found| == (if limit < |matches| then limit else |matches|)
      && forall i | 0 <= i < |found| :: exists u | u in matches :: found[i] == Result(t, u)
  {
    var matches := Filter(Profiles(t.users), Matching(term));
    var sorted := SortBy(matches, UserOrder("name", "asc"));
    var found := Found(t, term, limit);
    var rows := SearchRows(t.users, term, limit);
    assert found == ResultsOf(t, rows) && rows == Take(sorted, limit);
    forall i | 0 <= i < |found| ensures exists u | u in matches :: found[i] == Result(t, u) {
      var u := sorted[i];
      assert u in multiset(matches);
      assert found[i] == Result(t, u);
    }
  }

  /** The users a search finds are in ascending name order. */
  lemma FoundByName(t: Tables, term: string, limit: nat)
    ensures var found := Found(t, term, limit);
      forall i, j | 0 <= i < j < |found| :: LexLe(found[i].name, found[j].name)
  {
    var matches := Filter(Profiles(t.users), Matching(term));
    var sorted := SortBy(matches, UserOrder("name", "asc"));
    var found := Found(t, term, limit);
    UserOrderTotal("name", "asc");
    SortSorted(matches, UserOrder("name", "asc"));
    forall i, j | 0 <= i < j < |found| ensures LexLe(found[i].name, found[j].name) {
      assert found[i].name == sorted[i].name && found[j].name == sorted[j].name;
    }
  }

  /** With no more matches than the limit, a search finds every match. */
  lemma FoundAll(t: Tables, term: string, limit: nat)
    ensures var found, matches := Found(t, term, limit), Filter(Profiles(t.users), Matching(term));
      |matches| <= limit ==> forall k | 0 <= k < |matches| :: Result(t, matches[k]) in found
  {
    var matches := Filter(Profiles(t.users), Matching(term));
    var sorted := SortBy(matches, UserOrder("name", "asc"));
    var found := Found(t, term, limit);
    if |matches| <= limit {
      forall k | 0 <= k < |matches| ensures Result(t, matches[k]) in found {
        assert matches[k] in multiset(sorted);
        var i :| 0 <= i < |sorted| && sorted[i] == matches[k];
        assert found[i] == Result(t, matches[k]);
      }
    }
  }

  /**
   * A one-character term passes validation, although the message speaks of
   * at least two characters, unless it is a variation selector, which
   * `isLength` measures as nothing.
   */
  lemma OneCharacterAccepted(t: Tables, c: char)
    requires !IsSpace(c) && !IsSpecial(c)
    ensures SearchUsers(t, SearchQuery(Str([c]), Absent), None).Done? <==> !IsSelector(c)
  {
    TrimKeeps([c]);
    EscapePlain([c]);
  }
}

=== FILE: validation.dfy ===
/**
 * The request-field checks and sanitizers that the routers chain in front of
 * their handlers (express-validator over validator.js): `notEmpty`, `isString`,
 * `isInt({min, max})` with `toInt`, `isIn`, `trim` and `escape`.
 */
module Validation {
  import opened Wrappers

  /**
   * A request field as the validators see it: absent (undefined), a string,
   * a JSON number with an integer value, or any other JSON value (an array,
   * an object, a boolean, a fraction).
   */
  datatype Value = Absent | Str(s: string) | Num(n: int) | Other

  /** `notEmpty()`: the field's string form is not empty; undefined reads as "". */
  predicate NotEmpty(v: Value) {
    match v
    case Absent => false
    case Str(s) => s != ""
    case _ => true
  }

  /** `isString()`. */
  predicate IsString(v: Value) {
    v.Str?
  }

  /** `isIn(options)`: the field is one of the listed strings. */
  predicate IsIn(v: Value, options: seq<string>) {
    v.Str? && v.s in options
  }

  /** The messages of one check: none when it holds, its own message when it fails. */
  function Check(ok: bool, message: string): (errors: seq<string>)
    ensures errors == [] <==> ok
  {
    if ok then [] else [message]
  }

  /** `.optional()`: an absent field skips the rest of its chain. */
  function Optional(v: Value, errors: seq<string>): (r: seq<string>)
    ensures v.Absent? ==> r == []
    ensures !v.Absent? ==> r == errors
  {
    if v.Absent? then [] else errors
  }

  // ---------------------------------------------------------------------------
  // isInt and toInt

  predicate IsDigit(c: char) {
    '0' <= c <= '9'
  }

  predicate AllDigits(s: string) {
    forall i | 0 <= i < |s| :: IsDigit(s[i])
  }

  /** The value of a string of decimal digits (leading zeroes allowed). */
  function DigitsValue(s: string): nat
    requires AllDigits(s)
  {
    if s == [] then 0 else 10 * DigitsValue(s[..|s| - 1]) + (s[|s| - 1] as int - '0' as int)
  }

  /**
   * isInt's pattern `^[-+]?[0-9]+$`, and the number `toInt` then produces;
   * None when the string does not match.
   */
  function ParseInt(s: string): Option<int> {
    if |s| > 1 && (s[0] == '-' || s[0] == '+') && AllDigits(s[1..]) then
      Some(if s[0] == '-' then 0 - DigitsValue(s[1..]) as int else DigitsValue(s[1..]))
    else if |s| > 0 && AllDigits(s) then
      Some(DigitsValue(s))
    else
      None
  }

  /** The decimal rendering of a natural number, without leading zeroes. */
  function ShowNat(n: nat): (s: string)
    ensures |s| > 0 && AllDigits(s)
  {
    var d := [('0' as int + n % 10) as char];
    if n < 10 then d else ShowNat(n / 10) + d
  }

  /** `String(n)` for an integer-valued JSON number. */
  function Show(n: int): string {
    if n < 0 then "-" + ShowNat(-n) else ShowNat(n)
  }

  lemma {:induction false} ShowNatValue(n: nat)
    ensures DigitsValue(ShowNat(n)) == n
  {
    var s := ShowNat(n);
    if n >= 10 {
      ShowNatValue(n / 10);
      assert s[..|s| - 1] == ShowNat(n / 10);
    }
  }

  /** The number a field holds for `isInt` and `toInt`; a JSON number is read through its string form. */
  function IntOf(v: Value): Option<int> {
    match v
    case Str(s) => ParseInt(s)
    case Num(n) => ParseInt(Show(n))
    case _ => None
  }

  /** A JSON integer passes `isInt` and `toInt` gives it back unchanged. */
  lemma IntOfNumber(n: int)
    ensures IntOf(Num(n)) == Some(n)
  {
    if n < 0 {
      ShowNatValue(-n);
      assert Show(n)[1..] == ShowNat(-n);
    } else {
      ShowNatValue(n);
    }
  }

  /** `isInt({min: lo})`. */
  predicate IsIntAtLeast(v: Value, lo: int) {
    IntOf(v).Some? && lo <= IntOf(v).value
  }

  /** `isInt({min: lo, max: hi})`. */
  predicate IsIntBetween(v: Value, lo: int, hi: int) {
    IntOf(v).Some? && lo <= IntOf(v).value <= hi
  }

  /** The number of an optional integer field, or its default when the field is absent. */
  function IntOr(v: Value, default: int): (n: int)
    ensures v.Absent? ==> n == default
    ensures IntOf(v).Some? ==> n == IntOf(v).value
  {
    if IntOf(v).Some? then IntOf(v).value else default
  }

  /** A string query field, or its default when absent. */
  function TextOr(v: Value, default: string): (s: string)
    ensures v.Absent? ==> s == default
    ensures v.Str? ==> s == v.s
  {
    if v.Str? then v.s else default
  }

  /**
   * The string a length check or a sanitizer works on: the string itself, a
   * number's decimal form, and "" for an absent field. Arrays and objects
   * are read as "" too (their `toString` forms are not modelled).
   */
  function Text(v: Value): string {
    match v
    case Str(s) => s
    case Num(n) => Show(n)
    case _ => ""
  }

  // ---------------------------------------------------------------------------
  // isLength

  /** The variation selectors U+FE0E and U+FE0F, which `isLength` does not count. */
  predicate IsSelector(c: char) {
    c == '\U{FE0E}' || c == '\U{FE0F}'
  }

  /**
   * The length `isLength` compares with its bounds: the UTF-16 length less
   * one per variation selector and one per surrogate pair. A character here
   * is a whole code point, so a surrogate pair is already one character and
   * the measure is the number of characters that are not variation selectors.
   */
  function Measure(s: string): (n: nat)
    ensures n <= |s|
  {
    if s == [] then 0 else (if IsSelector(s[0]) then 0 else 1) + Measure(s[1..])
  }

  /** The measure is the plain length exactly when no variation selector occurs. */
  lemma {:induction false} MeasureFull(s: string)
    ensures Measure(s) == |s| <==> forall i | 0 <= i < |s| :: !IsSelector(s[i])
  {
    if s != [] {
      MeasureFull(s[1..]);
      assert forall i | 1 <= i < |s| :: s[i] == s[1..][i - 1];
    }
  }

  // ---------------------------------------------------------------------------
  // trim and escape

  /** The characters JavaScript's `\s` matches, which `trim()` strips. */
  predicate IsSpace(c: char) {
    c == ' ' || c == '\t' || c == '\n' || c == '\r' || c == '\U{000B}' || c == '\U{000C}'
    || c == '\U{00A0}' || c == '\U{1680}' || ('\U{2000}' <= c <= '\U{200A}')
    || c == '\U{2028}' || c == '\U{2029}' || c == '\U{202F}' || c == '\U{205F}'
    || c == '\U{3000}' || c == '\U{FEFF}'
  }

  function TrimStart(s: string): (r: string)
    ensures |r| <= |s| && r == s[|s| - |r|..]
    ensures r == [] || !IsSpace(r[0])
  {
    if s != [] && IsSpace(s[0]) then TrimStart(s[1..]) else s
  }

  function TrimEnd(s: string): (r: string)
    ensures |r| <= |s| && r == s[..|r|]
    ensures r == [] || !IsSpace(r[|r| - 1])
  {
    if s != [] && IsSpace(s[|s| - 1]) then TrimEnd(s[..|s| - 1]) else s
  }

  /** `trim()`: white space removed from both ends. */
  function Trim(s: string): (r: string)
    ensures |r| <= |s|
    ensures r == [] || (!IsSpace(r[0]) && !IsSpace(r[|r| - 1]))
  {
    TrimEnd(TrimStart(s))
  }

  /** A string made only of white space trims to nothing, and only such a string does. */
  lemma {:induction false} TrimEmpty(s: string)
    ensures Trim(s) == [] <==> forall i | 0 <= i < |s| :: IsSpace(s[i])
  {
    if s != [] && IsSpace(s[0]) {
      TrimEmpty(s[1..]);
      assert forall i | 1 <= i < |s| :: s[i] == s[1..][i - 1];
    } else if s != [] {
      assert TrimStart(s) == s;
      assert TrimEnd(s) != [] by {
        TrimEndKeepsFirst(s);
      }
    }
  }

  lemma {:induction false} TrimEndKeepsFirst(s: string)
    requires s != [] && !IsSpace(s[0])
    ensures TrimEnd(s) != [] && TrimEnd(s)[0] == s[0]
  {
    if IsSpace(s[|s| - 1]) {
      TrimEndKeepsFirst(s[..|s| - 1]);
    }
  }

  /** The characters `escape()` replaces by HTML entities. */
  predicate IsSpecial(c: char) {
    c == '&' || c == '"' || c == '\'' || c == '<' || c == '>' || c == '/' || c == '\\' || c == '`'
  }

  function EscapeChar(c: char): string {
    if c == '&' then "&amp;"
    else if c == '"' then "&quot;"
    else if c == '\'' then "&#x27;"
    else if c == '<' then "&lt;"
    else if c == '>' then "&gt;"
    else if c == '/' then "&#x2F;"
    else if c == '\\' then "&#x5C;"
    else if c == '`' then "&#96;"
    else [c]
  }

  /** `escape()`: each of & " ' < > / \ ` replaced by its entity, everything else kept. */
  function Escape(s: string): string {
    if s == [] then [] else EscapeChar(s[0]) + Escape(s[1..])
  }

  /** A string without those characters is left as it is, so a search for it looks for itself. */
  lemma {:induction false} EscapePlain(s: string)
    requires forall i | 0 <= i < |s| :: !IsSpecial(s[i])
    ensures Escape(s) == s
  {
    if s != [] {
      EscapePlain(s[1..]);
    }
  }

  /** Escaping never shortens a string; it lengthens it exactly when a special character occurs. */
  lemma {:induction false} EscapeLength(s: string)
    ensures |Escape(s)| >= |s|
    ensures |Escape(s)| == |s| <==> forall i | 0 <= i < |s| :: !IsSpecial(s[i])
  {
    if s != [] {
      EscapeLength(s[1..]);
      assert forall i | 1 <= i < |s| :: s[i] == s[1..][i - 1];
    }
  }
}

=== FILE: wrappers.dfy ===
/** Optional values and results with an error, used by every handler of the model. */
module Wrappers {

  datatype Option<+T> = None | Some(value: T)

  datatype Result<+T, +E> = Success(value: T) | Failure(error: E)
}
